=== FILE: README.md ===
# Serial instruments ↔ OPC UA bridge, modelled in Dafny

This project models the sequential core of a set of bridges between serial lab
instruments and an OPC UA automation network. The instruments are Ismatec
pumps, a Bronkhorst flow meter and an IKA stirrer. There are three parts:

- **Command codecs.** These build the ASCII frames the devices understand:
  - the Ismatec frames `@1\r`, `1M\r`, `1H\r`, `1I\r`, `1S<rate>\r`, `1S\r`;
  - the address-parameterised `{id}{cmd}\r` formatter;
  - the IKA frames `START_4 \r \n`, `OUT_SP_4 <rate> \r \n` and the like.

  The OPC-facing records are also here: the `{"command": …, "parameters": …}`
  command map and the watchdog/config-name echo responders.
- **Request queue and worker.** An instrument owns a FIFO queue with one
  consumer. The drivers put requests on it. The Bronkhorst worker takes one
  request at a time and does one of two things:
  - runs a local method;
  - writes an encoded frame to the serial line and reads the reply.

  A truthy reply goes to the request's callback. Serial errors are swallowed.
- **Node maps and subscriptions.** The clients work through these steps:
  - browse paths `["0:Objects", "idx:obj", "idx:name"]` are built;
  - names are resolved to node handles;
  - a name→node map is built by zipping;
  - a node is looked up back to its name;
  - data-change notifications become callback calls or queue entries;
  - `respond` writes a value to the node bound to a name.

  On the server side, a name→node table is kept with a writable flag. The
  DeltaV project routes `START_CONTROLLER` to pump start or stop.

Every operation is a pure function over immutable datatypes:
- a serial write is an append to a log of byte frames;
- a callback call is an append to a log of calls;
- `set_value` is an update of a `map<Node, Value>`;
- a Python exception is a `None` result (or `alive := false` for the worker
  thread);
- a Python dict is an insertion-ordered sequence of pairs with distinct keys
  (`Dicts.Dict`), because `_get_name` depends on that order.

Shared modules:

| module | what it holds |
|---|---|
| `Wrappers` | the `Option` type |
| `Text` | bytes, ASCII, decimal numerals, `zfill`, `{:.2f}` as hundredths, CR-terminated frames |
| `Values` | Python values, their truthiness, node and callback handles |
| `Dicts` | ordered dicts, `zip`/`update` and reverse lookup |
| `BrowsePaths` | the `<index>:<name>` qualified-name text and its parser |
| `AddressSpace` | the part of an OPC UA server the clients see |
| `ClientConfig` | the client `params` dict |

A duplicate leaf name is not rejected: `run` binds it to the last node
resolved for it. `Subscriber.BuildMapBindsLastOccurrence` states what happens.

## Model

| member | source | states |
|---|---|---|
| Instrument.Init | src/instruments/instrument.py:24-32 | a new instrument keeps its port as given and starts with an empty queue and nothing handled |
| Instrument.QueueRequest | src/instruments/instrument.py:50-58 | exactly one request joins the tail; earlier entries keep their places; nothing is processed |
| Instrument.ProcessQueueStep | src/instruments/instrument.py:42-48 | the head request leaves the queue and is handed over unchanged; an empty queue blocks and nothing changes |
| Instrument.RunIsFifo | src/instruments/instrument.py:46-48 | under any interleaving of puts and takes, handled-then-queued equals the arrivals in order, so each request is processed at most once and never before an earlier one |
| Instrument.DrainInOrder | src/instruments/instrument.py:46-58 | requests put and then drained are handed over exactly in put order, each once, leaving the queue empty |
| Instrument.RunTakesDrains | src/instruments/instrument.py:46-48 | as many worker steps as queued requests empty the queue and append all of them, in order, to the handled log |
| Bronkhorst.Init | src/instruments/bronkhorst/bronkhorst.py:23-27 | the base instrument is initialised on the port and the command table is `["set_rate"]` |
| Bronkhorst.SetSerialParameters | src/instruments/bronkhorst/bronkhorst.py:44-57 | exactly the five given settings are stored; nothing else changes |
| Bronkhorst.MainUsesStoredParameters | src/instruments/bronkhorst/bronkhorst.py:135-138 | `main` connects with the settings stored last; none are stored after construction |
| Bronkhorst.SetCommands | src/instruments/bronkhorst/bronkhorst.py:59-64 | the command table becomes the argument; nothing else changes |
| Bronkhorst.SetCommandsReplaces | src/instruments/bronkhorst/bronkhorst.py:64 | a second `set_commands` leaves nothing of the first table |
| Bronkhorst.ProcessRequest | src/instruments/bronkhorst/bronkhorst.py:94-122 | at most one callback call, only with the request's own callback and a truthy response; logs only grow; at most one frame written; a dead worker stays dead; the handed-over log is kept, and the queue changes only through a queued `_queue_request` or `__init__`; the command table changes only through a queued `set_commands` (to its parameters) or `__init__` (back to `["set_rate"]`), the serial settings only through a queued `set_serial_parameters` |
| Bronkhorst.QueuedSetCommands | src/instruments/bronkhorst/bronkhorst.py:104-111 | a queued `set_commands` replaces the table with the request's parameters; it returns None, so no callback runs and nothing is written |
| Bronkhorst.QueuedSetSerialParameters | src/instruments/bronkhorst/bronkhorst.py:104-111 | a queued `set_serial_parameters` stores the parameters as the port with every other setting at its default, and `main` then connects with them |
| Bronkhorst.NonCallableEndsWorker | src/instruments/bronkhorst/bronkhorst.py:104-108 | a command naming the truthy `_commands` table passes the `if command:` test and `getfullargspec` raises: the worker ends without a callback |
| Bronkhorst.QueuedQueueRequest | src/instruments/bronkhorst/bronkhorst.py:124-133 | a queued `_queue_request` is called without arguments and puts `{}` at the tail of the queue; no callback, no write, the worker lives |
| Bronkhorst.EmptyRequestEndsWorker | src/instruments/bronkhorst/bronkhorst.py:103-104 | when `{}` comes up, `request["command"]` raises outside the `try` and the worker ends, with no write and no callback |
| Bronkhorst.QueuedQueueRequestEndsWorker | src/instruments/bronkhorst/bronkhorst.py:85-133 | a lone queued `_queue_request` is followed by the `{}` it queued, and two iterations leave the worker dead with both requests handed over |
| Bronkhorst.QueuedInit | src/instruments/bronkhorst/bronkhorst.py:23-27 | a queued `__init__(port)` sets the port, drops the pending requests and resets the table to `["set_rate"]`, keeping the serial settings |
| Bronkhorst.QueuedMain | src/instruments/bronkhorst/bronkhorst.py:135-138 | a queued `main` keeps the worker alive exactly when settings are stored; with none, `self._ser_params` raises and the worker ends |
| Bronkhorst.QueuedFromFileEndsWorker | src/instruments/bronkhorst/bronkhorst.py:66-76 | a queued `from_file` always ends the worker: reading the file raises, or else `cls()` does, lacking the port |
| Bronkhorst.SerialAnswerReachesCallback | src/instruments/bronkhorst/bronkhorst.py:113-122 | with the port bound, an encoded command answered with a non-empty line writes exactly its frame and hands the reply to the request's callback |
| Bronkhorst.ProcessRequestAsWritten | src/instruments/bronkhorst/bronkhorst.py:113-119 | `_process_request` as the code stands never writes a frame and never revives the worker |
| Bronkhorst.SerialPathAsWrittenNeverAnswers | src/instruments/bronkhorst/bronkhorst.py:115-119 | as the code stands, every serial command logs an error and makes neither a write nor a callback, whatever the line would answer |
| Bronkhorst.SerialCommandExample | src/instruments/bronkhorst/bronkhorst.py:112-122 | for the command `'X'` on a fresh driver whose line answers `OK`, the intended code writes the frame and passes `OK` to the callback; the code as it stands writes nothing and calls nothing back |
| Bronkhorst.SerialPathDiffers | src/instruments/bronkhorst/bronkhorst.py:115-117 | on every answered serial command the intended code and the code as it stands differ in both the frames written and the callbacks called |
| Bronkhorst.LocalMethodDoesNotWrite | src/instruments/bronkhorst/bronkhorst.py:104-111 | a command naming a local method runs it and writes nothing; a zero-argument method gets no arguments, otherwise it gets the request's parameters unchanged |
| Bronkhorst.CallbackIffTruthy | src/instruments/bronkhorst/bronkhorst.py:103-122 | the callback is called exactly when the response is truthy, once, with that response |
| Bronkhorst.SerialFailureIsSwallowed | src/instruments/bronkhorst/bronkhorst.py:112-119 | an encoding, write or read failure is logged, makes no callback and leaves the worker alive |
| Bronkhorst.Step | src/instruments/bronkhorst/bronkhorst.py:85-92 | one loop iteration hands the head request over; unless that request is a queued `_queue_request` or `__init__`, the queue afterwards is exactly the base queue after its `get`; a dead worker does nothing |
| Bronkhorst.QueueRequest | src/instruments/bronkhorst/bronkhorst.py:124-133 | `_queue_request` is the base queue's put and changes nothing else |
| Bronkhorst.SerialQueueDrains | src/instruments/bronkhorst/bronkhorst.py:85-122 | a queue of serial commands drains completely, in order, whatever the line does, with the worker still alive |
| Bronkhorst.SerialRequestEffect | src/instruments/bronkhorst/bronkhorst.py:112-122 | one serial request appends its frame unless encoding or the write failed, and one callback call exactly when the reply line is non-empty |
| Bronkhorst.SerialQueueWrites | src/instruments/bronkhorst/bronkhorst.py:85-122 | draining serial commands writes one frame per request whose encoding and write succeeded, in queue order |
| Bronkhorst.SerialQueueCallbacks | src/instruments/bronkhorst/bronkhorst.py:85-122 | draining serial commands makes one callback call per request answered with a non-empty line, with that reply, in queue order |
| IsmatecFrames.RateField | src/instruments/ismatec/ismatec_queue.py:62 | the zero-filled rate is ASCII, CR-free, at least five characters, and parses back to the rate |
| IsmatecFrames.Encode | src/instruments/ismatec/ismatec_queue.py:41-69 | every command frame starts with the address `1` and ends with a single CR |
| IsmatecFrames.DecodeEncode | src/instruments/ismatec/ismatec_queue.py:44-70 | every frame reads back as the command it was built from |
| IsmatecFrames.EncodeInjective | src/instruments/ismatec/ismatec_queue.py:44-70 | different commands never share a frame |
| IsmatecFrames.SetFlowrateFrameWidth | src/instruments/ismatec/ismatec_queue.py:62-63 | for 0 ≤ v ≤ 99999 the set-point frame is 8 bytes and its five digits read back as v |
| IsmatecFrames.GetFlowrateHasNoPayload | src/instruments/ismatec/ismatec_queue.py:69-70 | `1S\r` is 3 bytes and differs from every set-point frame |
| IsmatecFrames.FramesDecode | src/instruments/ismatec/ismatec_synchronous.py:43-66 | each frame of a run of commands reads back as its command |
| IsmatecQueue.New | src/instruments/ismatec/ismatec_queue.py:24-30 | a new driver has an empty queue and has written nothing |
| IsmatecQueue.Connect | src/instruments/ismatec/ismatec_queue.py:32-42 | `@1\r` then `1M\r` are written to the line in that order; the queue is untouched |
| IsmatecQueue.Submit | src/instruments/ismatec/ismatec_queue.py:48 | a command method queues exactly one request carrying the caller's callback, no parameters, writes nothing, and keeps earlier requests |
| IsmatecQueue.SubmitQueuesCommand | src/instruments/ismatec/ismatec_queue.py:44-70 | the queued frame reads back as the command asked for |
| IsmatecQueue.Start | src/instruments/ismatec/ismatec_queue.py:44-48 | `start` queues `1H\r` with the callback |
| IsmatecQueue.Stop | src/instruments/ismatec/ismatec_queue.py:50-54 | `stop` queues `1I\r` with the callback |
| IsmatecQueue.SetFlowrate | src/instruments/ismatec/ismatec_queue.py:56-64 | `set_flowrate` queues `1S`, the rate zero-filled to five characters, and CR |
| IsmatecQueue.GetFlowrate | src/instruments/ismatec/ismatec_queue.py:66-70 | `get_flowrate` queues `1S\r` |
| IsmatecQueue.EnqueueAll | src/instruments/ismatec/ismatec_queue.py:44-70 | successive calls queue one request per frame, in call order, and change nothing else |
| IsmatecQueue.SessionDrainsInOrder | src/instruments/ismatec/ismatec_queue.py:44-70 | with a `_process_request` to hand requests to, a session of commands reaches the worker in issue order, one request per command, and the queue empties |
| IsmatecQueue.SessionAsWrittenStalls | src/instruments/instrument.py:42-48 | as the code stands the worker ends at its first hand-over, so a session of two or more commands leaves all but the first request queued |
| IsmatecQueue.SetFlowrate944 | src/instruments/ismatec/ismatec_queue.py:98 | `set_flowrate(944)` queues exactly `1S00944\r` |
| IsmatecDirect.Open | src/instruments/ismatec/ismatec_synchronous.py:23-41 | opening the driver writes `@1\r` then `1M\r` and nothing else |
| IsmatecDirect.Send | src/instruments/ismatec/ismatec_synchronous.py:43-66 | each command method appends exactly one frame and changes nothing else |
| IsmatecDirect.SendWritesCommand | src/instruments/ismatec/ismatec_synchronous.py:43-66 | the appended frame reads back as the command sent |
| IsmatecDirect.Start | src/instruments/ismatec/ismatec_synchronous.py:43-46 | `start` writes `1H\r` |
| IsmatecDirect.Stop | src/instruments/ismatec/ismatec_synchronous.py:48-51 | `stop` writes `1I\r` |
| IsmatecDirect.SetFlowrate | src/instruments/ismatec/ismatec_synchronous.py:53-61 | `set_flowrate` writes `1S`, the rate zero-filled to five characters, and CR |
| IsmatecDirect.GetFlowrate | src/instruments/ismatec/ismatec_synchronous.py:63-66 | `get_flowrate` writes `1S\r` |
| IsmatecDirect.WriteAll | src/instruments/ismatec/ismatec_asynchronous.py:44-66 | successive writes append the frames in order and change nothing else |
| IsmatecDirect.SessionReadsBack | src/instruments/ismatec/ismatec_synchronous.py:23-66 | a session writes the two set-up frames, then one frame per command that reads back as that command |
| IsmatecDirect.QueuedAndDirectAgree | src/instruments/ismatec/ismatec_synchronous.py:31-66 | the direct drivers write byte for byte the frames the queued driver queues, after the same set-up frames |
| IsmatecCommands.Formatter | src/instruments/ismatec/commands.py:1-5 | the frame is the address's decimal digits, the command, and one final CR |
| IsmatecCommands.Start | src/instruments/ismatec/commands.py:8-10 | `start(id)` is the address's decimal digits, `H` and CR |
| IsmatecCommands.Stop | src/instruments/ismatec/commands.py:13-15 | `stop(id)` is the address's decimal digits, `I` and CR |
| IsmatecCommands.FormatterRoundTrip | src/instruments/ismatec/commands.py:1-5 | address and command read back from the frame when the command does not start with a digit |
| IsmatecCommands.StartDiffersFromStop | src/instruments/ismatec/commands.py:8-15 | `start(id) != stop(id)` for every id |
| IsmatecCommands.FramesAreAddressed | src/instruments/ismatec/commands.py:4 | start and stop frames open with the id's digits and end with exactly one CR |
| IsmatecCommands.AddressOneMatchesDrivers | src/instruments/ismatec/commands.py:4-15 | `start(1)`/`stop(1)` equal the literal `1H\r`/`1I\r` frames of the address-1 drivers |
| IsmatecPump.New | src/instruments/ismatec/ismatec.py:24-38 | `_about` is `{"name": "Ismatec", "parameters": "rpm"}` and `_data` is `{"measurement": 0}`, in that key order |
| IsmatecPump.UpdateData | src/instruments/ismatec/ismatec.py:57-59 | a tick installs a snapshot whose only key is `measurement`, holding the sample |
| IsmatecPump.UpdateDataReplacesWhole | src/instruments/ismatec/ismatec.py:57-59 | the new snapshot does not depend on the old one: it is replaced whole, never mutated in part |
| IsmatecPump.TicksKeepLatest | src/instruments/ismatec/ismatec.py:54-61 | after any run of ticks of the `_update_data` loop, `_data` is `{"measurement": latest sample}` and nothing else has changed |
| IsmatecPump.Start | src/instruments/ismatec/ismatec.py:63-67 | `start` writes `3H\r` and returns True |
| IsmatecPump.Stop | src/instruments/ismatec/ismatec.py:69-73 | `stop` writes `3I\r` and returns True |
| IsmatecPump.SetFlowrate | src/instruments/ismatec/ismatec.py:75-76 | `set_flowrate` returns its argument and writes nothing |
| IsmatecPump.GetFlowrate | src/instruments/ismatec/ismatec.py:78-79 | `get_flowrate` returns 3 and writes nothing |
| IsmatecPump.FramesAreAddressThree | src/instruments/ismatec/ismatec.py:66-72 | the start and stop frames are the formatter's frames at address 3, and differ |
| IsmatecPump.ResultsTruthiness | src/instruments/ismatec/ismatec.py:63-79 | start, stop and get_flowrate results are truthy; set_flowrate's is truthy iff its argument is |
| IsmatecOpcMap.Start | src/instruments/ismatec/opc_map.py:1-2 | the record has only the `command` key, `"start"`, and no `parameters` |
| IsmatecOpcMap.Stop | src/instruments/ismatec/opc_map.py:5-6 | the record has only the `command` key, `"stop"`, and no `parameters` |
| IsmatecOpcMap.SetFlowrate | src/instruments/ismatec/opc_map.py:9-10 | the record has command `set_flowrate` and parameters `{"args": v}` with v as given, not wrapped in a tuple |
| IsmatecOpcMap.ReadRecord | src/instruments/ismatec/opc_map.py:1-10 | every record reads back as the command it was built for |
| IsmatecOpcMap.RecordInjective | src/instruments/ismatec/opc_map.py:1-10 | two records are equal exactly when their commands are |
| IsmatecOpcMap.CommandsNameDriverMethods | src/instruments/ismatec/opc_map.py:2-10 | each record's command is the name `IsmatecQueue.MethodName` gives one of the pump commands, so it names a method of the queued driver |
| Ika.Frame | src/instruments/ika/ika.py:44-68 | every frame is ASCII, carries the channel suffix `_4` and ends with ` \r \n` |
| Ika.DecodeFrame | src/instruments/ika/ika.py:41-69 | every frame reads back as its command |
| Ika.FrameInjective | src/instruments/ika/ika.py:41-69 | two frames are equal exactly when their commands are; in particular `IN_SP_4` and `IN_PV_4` differ |
| Ika.SetRateFrame | src/instruments/ika/ika.py:53-57 | the set-rate frame is `OUT_SP_4 `, the rate with exactly two decimals, and ` \r \n` |
| Ika.WordFrame | src/instruments/ika/ika.py:41-69 | each frame without a set-point is its command word (`START_4`, `STOP_4`, `IN_SP_4`, `IN_PV_4`) followed by ` \r \n` |
| Ika.New | src/instruments/ika/ika.py:24-30 | a new stirrer has an empty queue on the given port |
| Ika.Submit | src/instruments/ika/ika.py:45-69 | each method queues exactly one request with the caller's callback and no parameters, keeps earlier requests and does no I/O |
| Ika.SubmitQueuesCommand | src/instruments/ika/ika.py:41-69 | the queued command string reads back as the method's command |
| Ika.StartStirrer | src/instruments/ika/ika.py:41-45 | `start` queues `START_4 \r \n` |
| Ika.StopStirrer | src/instruments/ika/ika.py:47-51 | `stop` queues `STOP_4 \r \n` |
| Ika.SetRateStirrer | src/instruments/ika/ika.py:53-57 | `set_rate` queues `OUT_SP_4 ` + rate with two decimals + ` \r \n` |
| Ika.GetRateSetPointStirrer | src/instruments/ika/ika.py:59-63 | `get_rate_SP` queues `IN_SP_4 \r \n` |
| Ika.GetRatePresentValueStirrer | src/instruments/ika/ika.py:65-69 | `get_rate_PV` queues `IN_PV_4 \r \n` |
| OpcResponders.ConfigName | src/instruments/ismatec/opc.py:21-25 | the config name is echoed unchanged to `CONFIG_NAME_PAT` |
| OpcResponders.Watchdog | src/instruments/ismatec/opc.py:27-31 | the watchdog value is echoed unchanged to `WATCHDOG_PAT` |
| OpcResponders.GetMeasurement | src/instruments/ismatec/opc.py:33-35 | the empty method returns None, which is falsy |
| OpcResponders.EchoesTargetDifferentNodes | src/instruments/patrol/opc.py:21-33 | the two echoes never target the same node, and each echo is determined by its value alone |
| BrowsePaths.QualifiedNameRoundTrip | src/services/opc/subscriber.py:119 | the `idx:name` text reads back as its index and name |
| BrowsePaths.QualifiedNameInjective | src/services/opc/subscriber.py:119 | different (index, name) pairs give different qualified names |
| BrowsePaths.BrowsePath | src/services/opc/subscriber.py:108-120 | three elements: `0:Objects`, then the object and the name, both qualified by the index |
| BrowsePaths.BrowsePathText | src/services/opc/subscription.py:79-91 | the path is literally `["0:Objects", f"{idx}:{obj}", f"{idx}:{name}"]` |
| BrowsePaths.BrowsePathInjective | src/services/opc/subscriber.py:105-120 | two browse paths are equal exactly when index, object and name are |
| AddressSpace.ResolveNames | src/services/opc/subscriber.py:103-105 | one node per name, in order, each at its own browse path; None when the URI or any path is missing |
| AddressSpace.WriteByName | src/services/opc/subscriber.py:140 | writing via the map sets the named node's value and no other; an unknown name fails |
| Subscriber.New | src/services/opc/subscriber.py:26-34 | a new subscriber has the endpoint, no monitor entries, an empty map and no callback |
| Subscriber.FromDictionary | src/services/opc/subscriber.py:48-51 | exactly one monitor entry `(uri, object.name, object.nodes)` |
| Subscriber.SetCallback | src/services/opc/subscriber.py:74-81 | the callback is set; nothing else changes |
| Subscriber.AddNodes | src/services/opc/subscriber.py:83-91 | one entry is appended and earlier entries are unchanged |
| Subscriber.GetNodes | src/services/opc/subscriber.py:93-106 | one node per monitored name, in order, at that name's browse path; fails when the URI or a path is missing |
| Subscriber.BuildMap | src/services/opc/subscriber.py:153-155 | the map stays a dict, and building succeeds only when every entry's names resolve |
| Subscriber.Run | src/services/opc/subscriber.py:149-155 | `run` changes only the map |
| Subscriber.BuildMapKeys | src/services/opc/subscriber.py:153-155 | the map's keys after `run` are the earlier keys plus every monitored name |
| Subscriber.BuildMapLastWins | src/services/opc/subscriber.py:20-23 | a name in the last entry is bound to the node of its last occurrence, whatever earlier entries bound it to |
| Subscriber.BuildMapBindsLastOccurrence | src/services/opc/subscriber.py:153-155 | every monitored name, from any entry, is bound to the node resolved for its last occurrence in the last entry that names it |
| Subscriber.BuildMapKeepsOthers | src/services/opc/subscriber.py:153-155 | a name no entry monitors keeps the binding it had before `run` |
| Subscriber.SingleEntryPairs | src/services/opc/subscriber.py:153-155 | for one entry with distinct names, the i-th name is bound to the i-th resolved node and the map holds nothing else |
| Subscriber.GetName | src/services/opc/subscriber.py:122-131 | a name is found iff the node is in the map, and the name found is bound to that node; an absent node fails |
| Subscriber.GetNameInverts | src/services/opc/subscriber.py:131 | with unique names and distinct nodes, the name found for `map[n]` is n |
| Subscriber.Respond | src/services/opc/subscriber.py:133-140 | the value goes to the node bound to the name and to no other; an unknown name fails |
| Subscriber.DatachangeNotification | src/services/opc/subscriber.py:142-147 | exactly one callback call with the node's name and the new value; none when the node is unmapped or no callback is set |
| Subscriber.NotificationNamesNode | src/services/opc/subscriber.py:142-147 | a change on `map[name]` is reported under that very name |
| Subscription.New | src/services/opc/subscription.py:21-38 | the callback and the parameters are stored as given |
| Subscription.GetNodes | src/services/opc/subscription.py:46-54 | one node per configured name, in key order, at its browse path |
| Subscription.MakeMapping | src/services/opc/subscription.py:93-97 | the i-th configured name is bound to the i-th node, and the map has exactly the configured names |
| Subscription.MappingFollowsBrowsePaths | src/services/opc/subscription.py:46-97 | after resolving, every configured name is bound to the node at its own browse path |
| Subscription.DatachangeNotification | src/services/opc/subscription.py:56-67 | exactly one callback call, with `command`, `payload` and `callback` all None |
| Subscription.NotificationIgnoresEvent | src/services/opc/subscription.py:65-66 | the call does not depend on the node, value or data |
| ClientConfig.NodeNames | src/services/opc/client_old.py:58 | the configured names are the dict's keys, one per entry, all distinct |
| ClientOld.GetBrowsePath | src/services/opc/client_old.py:68-79 | the tuple, as a list, is the browse path, and its parts read back as index/object and index/name |
| ClientOld.Run | src/services/opc/client_old.py:50-61 | one node per configured name, in order, at its browse path; `_map` binds the i-th name to the i-th node and holds only the configured names |
| ClientOld.Respond | src/services/opc/client_old.py:81-88 | the value goes only to the node bound to the name; an unknown name fails |
| ClientOld.RespondReachesConfiguredNode | src/services/opc/client_old.py:54-88 | after `run`, responding to a configured name writes the node at that name's browse path |
| OpcHandlers.RequestRecord | src/services/opc/handler.py:31 | the record is `{"service": "opc", "payload": (node, val, data)}` |
| OpcHandlers.ReadRequestRecord | src/services/opc.py:34 | node, value and data are kept unchanged and in that order |
| OpcHandlers.NewHandler | src/services/opc/handler.py:19-24 | the handler stores the callback and has made no call |
| OpcHandlers.Notify | src/services/opc/handler.py:26-31 | exactly one call of the stored callback, whose argument reads back as the event; the callback is kept |
| OpcHandlers.NotifyAllInOrder | src/services/opc/handler.py:19-31 | over any run of events, the callback fixed at construction gets one record per event, in order |
| OpcHandlers.NewSubHandler | src/services/opc.py:23-28 | the handler keeps the queue it was given |
| OpcHandlers.Put | src/services/opc.py:30-36 | exactly one record joins the queue's tail; it reads back as the event; earlier entries are kept |
| OpcHandlers.PutAllInOrder | src/services/opc.py:36 | notifications reach the queue in the order received, one record each |
| OpcHandlers.HandleResponse | src/services/opc.py:70-73 | `handle_response` leaves the server as it was |
| OpcServer.New | src/services/opc/server.py:25-32 | the parameters are stored and the name→node table is empty |
| OpcServer.AddVariable | src/services/opc/server.py:53-56 | one loop iteration appends exactly one variable, made under the entry's name with its attributes, and keeps every earlier variable |
| OpcServer.AddVariableGet | src/services/opc/server.py:56 | after one iteration the entry's name is bound to the new node and every other name keeps its binding |
| OpcServer.AddVariableConsistent | src/services/opc/server.py:53-56 | one iteration keeps every table entry naming a variable created under that name |
| OpcServer.CreateNodes | src/services/opc/server.py:44-56 | one new variable per configured entry, in dict order, appended after the existing ones, which are kept |
| OpcServer.CreateNodesLoop | src/services/opc/server.py:52-56 | `_create_nodes` over an empty dict changes nothing; over a non-empty one it is the iteration for the first entry followed by the rest |
| OpcServer.CreateNodesConsistent | src/services/opc/server.py:44-56 | the whole loop keeps the table consistent with the created variables |
| OpcServer.CreateNodesLookup | src/services/opc/server.py:56 | a configured name is bound to the node made for its last entry |
| OpcServer.CreateNodesOther | src/services/opc/server.py:56 | a name not configured keeps its earlier binding, or stays absent |
| OpcServer.CreatedNodeHandle | src/services/opc/server.py:52-56 | in a dict the i-th configured name is bound to the i-th new node |
| OpcServer.CreatedNodeWritableIff | src/services/opc/server.py:53-55 | a created node carries its configured name, value and type, and is writable iff its `writable` attribute is truthy |
| OpcServer.CreateNodesKeys | src/services/opc/server.py:52-56 | the table's names are exactly the earlier names plus the configured ones |
| OpcServer.GetNodes | src/services/opc/server.py:58-63 | `get_nodes` returns the table itself, each entry naming a created variable |
| IsmatecDeltaV.RunCommand | src/project/ismatec_deltav.py:20-27 | `START_CONTROLLER` truthy starts the pump, falsy stops it, any other name does nothing |
| IsmatecDeltaV.NeverBoth | src/project/ismatec_deltav.py:20-27 | no call both starts and stops; at most one frame is written, and it is `3H\r` exactly when started |
| IsmatecDeltaV.ControllerChangeDrivesPump | src/project/ismatec_deltav.py:30-33 | a change on the `START_CONTROLLER` node, passed through the subscriber, writes `3H\r` if truthy and `3I\r` otherwise |
| Text.ZFillIntRoundTrip | src/instruments/ismatec/ismatec_synchronous.py:59 | `str(int(v)).zfill(5)` is at least five characters and parses back to v |
| Text.Fixed2RoundTrip | src/instruments/ika/ika.py:56 | the two-decimal rendering of a rate reads back as the same number of hundredths |
| Dicts.UpdateZipLookup | src/services/opc/subscriber.py:155 | `update(zip(ks, vs))` binds each zipped key to the value of its last occurrence; other keys keep theirs |
| Dicts.ZipPairs | src/services/opc/client_old.py:61 | zipping distinct names with nodes gives a dict whose keys are the names, in order, each bound to its positional node |
| Dicts.KeyOfInverts | src/services/opc/subscriber.py:131 | with distinct values, the first key bound to `d[k]` is k |

## Left out

- Serial ports, OPC UA connections, subscriptions, server start-up, `main`/`run` bootstrapping and the scripts at the bottom of the files: these are library I/O. The model records frames written, callbacks called and node values set instead.
- Threads, `sleep`s, daemon loops and busy-waits: the model has single worker steps and runs of steps, not timing or concurrency.
- Logging and `print` output: no observable effect on the modelled state.
- IsmatecFrames.RateField: `int(val)` truncation of a float is not modelled; the rate is already an integer.
- Ika.SetRateFrame: `{:.2f}` rounding of a float is not modelled; the rate is an integer number of hundredths.
- IsmatecPump.UpdateData: `random()` is not modelled; the sample is an arbitrary input value.
- Bronkhorst.Init: the class derives from `object`, so `super().__init__(port)` raises TypeError as written and no `_queue` exists. The model takes the base to be the `Instrument` of instrument.py, whose `_port` and `_queue` the rest of the class uses.
- Bronkhorst.Execute: the `eval` of the command string is an abstract encoder that may fail. What `getattr` finds for a name the class body does not define is an input: inherited attributes, attributes set from outside, and `_ser`, which `connect` sets (after `connect`, a command `"_ser"` finds a truthy non-callable and ends the worker). `inspect` and `sleep` are taken as imported, and the queue is the base instrument's. `self._serial`, which nothing assigns, is taken to be the port `connect` opened; the code as it stands is `Bronkhorst.ExecuteAsWritten` (see Findings).
- Bronkhorst.ProcessRequest: every local method reachable from the queue is dispatched by its argspec and returns None. `set_commands`, `set_serial_parameters`, `__init__` (new port, empty queue, table back to `["set_rate"]`), `_queue_request` (puts `{}`), `main` (ends the worker when no settings are stored) and `from_file` (always ends the worker) have their effects modelled. The effects of `connect` (opening a port, which may raise), of `main` with settings stored (the same `connect`), of `_process_request` (re-entering the dispatch) and of `_process_queue` (a second endless loop) are not modelled: each is recorded as an invocation and leaves the rest of the state as it was. A queued `__init__` whose port is not a string keeps the old port name, because the instrument's port is a string here.
- Subscriber.FromDictionary: the configuration is a typed record, so a missing key (KeyError) is not modelled; the same holds for ClientConfig.Params.
- Subscription.DatachangeNotification: the `node.get_browse_name()` library read, whose result is discarded, is not modelled.
- OpcServer.CreateNodes: the `ua.VariantType` lookup is kept as the type's name; an unknown type name raising AttributeError is not modelled. Access levels are recorded as a flag and not enforced on later writes.
- IsmatecQueue.SessionDrainsInOrder: the hand-over assumes a subclass that defines `_process_request`. Neither the queued Ismatec nor `Instrument` does, and `IsmatecQueue.SessionAsWrittenStalls` states what happens as the code stands.
- IsmatecPump.Start: `self._serial` is taken to be the port `_connect_instrument` opens with the configured serial settings. As the code stands it is never bound (see the wiring defects below), and the write raises AttributeError.
- IsmatecPump.Stop: the same assumption about `self._serial` as for `IsmatecPump.Start`.
- IsmatecDeltaV.ControllerChangeDrivesPump: it describes the script with the pump connected. As the code stands, the import-time `ismatec.main()` raises first (see the wiring defects below).
- Wiring defects between files are not modelled. Each function is modelled on its own terms instead. The defects are:
  - client_old.py:62 passes two arguments to a one-argument `Handler`, reads a `callback` key that `params` does not hold, and names `client._respond`, while the method is `respond` (client_old.py:81);
  - instrument.py:48 calls `self._process_request`, which only bronkhorst.py defines: the queued Ismatec (ismatec_queue.py) and Ika (ika.py) workers end on their first request, so the script at ismatec_queue.py:104 waits forever on a non-empty queue;
  - subscription.py:52 calls `gbp` instead of `_gbp`;
  - subscription.py:96 stores the map on `self._client` while `respond` reads `self._map`.
  - ismatec.py:47 reads `self._params`, which neither `Ismatec` nor the base `Instrument` (instrument.py:31-32) sets, so `_connect_instrument` raises AttributeError and `self._serial` is never bound; `start` and `stop` (ismatec.py:66 and 72) would raise AttributeError as well;
  - ismatec.py:85 calls `self._start_services`, which no class defines;
  - ismatec_deltav.py:17 runs `ismatec.main()` when the module is imported, which raises as above, so as the code stands `run_command` is never reached;
  - ismatec_asynchronous.py:39 calls `Serial`, which the file does not import (its imports are lines 6-11), so its constructor raises NameError before any write. `IsmatecDirect.Open` and the session lemmas describe the writes the constructor is written to make, as the synchronous file makes them.
- src/services/opc/client.py: its map zips the characters of a string and its `respond` does nothing. Its browse path is the one modelled for client_old.py.
- src/services/opc_old.py: it does not parse, and its handler duplicates handler.py.
- src/instruments/patrol/patrol.py and src/instruments/generic/generic.py: thread start-up and random data only.
- src/instruments/ismatec/mqtt.py: an empty stub.
- src/instruments/mettler_toledo/PG500.py: configuration data, not code.
- src/lib/helper_functions.py: YAML/JSON loading and logging set-up, which is file I/O.
- src/tests/: simulated OPC servers, a test driver with threads and random set-points.
- Authentication, reconnection and watchdog supervision: nothing in the modelled code implements them.

## Findings

| source | as written | input that shows it | evidently intended | confidence | as-written member | corrected member |
|---|---|---|---|---|---|---|
| src/instruments/bronkhorst/bronkhorst.py:115-117 | the serial branch of `_process_request` writes to and reads from `self._serial`, which nothing assigns (`connect` stores the port as `self._ser`), so the write raises AttributeError, which the `try` logs | a request `{"command": "'X'", "callback": cb}` on a connected meter whose line would answer `OK`: nothing is written and `cb` is never called (`Bronkhorst.SerialCommandExample`) | the frame goes to the port `connect` opened and a truthy reply reaches the callback | high; not executed | Bronkhorst.SerialPathAsWrittenNeverAnswers | Bronkhorst.SerialAnswerReachesCallback |

=== FILE: address_space.dfy ===
/** The part of an OPC UA server the clients here use: the namespace array
    (`get_namespace_index`), the tree under the root node addressed by browse
    paths (`get_root_node().get_child(path)`), and the value of each variable
    node (`set_value`). Only what the clients observe is modelled; a node is
    an opaque handle. */
module AddressSpace {

  import opened Wrappers
  import opened Values
  import Dicts
  import opened BrowsePaths

  datatype Server = Server(namespaces: seq<string>, children: map<seq<string>, Node>, values: map<Node, Value>)

  /** `get_namespace_index(uri)`: the position of the URI in the namespace
      array; None where the library raises because it is absent. */
  function NamespaceIndex(srv: Server, uri: string): (r: Option<nat>)
    ensures r.Some? <==> uri in srv.namespaces
    ensures r.Some? ==> r.value < |srv.namespaces| && srv.namespaces[r.value] == uri
  {
    if uri in srv.namespaces then Some(Dicts.IndexOf(srv.namespaces, uri)) else None
  }

  /** `root.get_child(path)`: the node at the end of the path; None where the
      library raises because no node is there. */
  function GetChild(srv: Server, path: seq<string>): (r: Option<Node>)
    ensures r.Some? <==> path in srv.children
    ensures r.Some? ==> r.value == srv.children[path]
  {
    if path in srv.children then Some(srv.children[path]) else None
  }

  /** `node.set_value(v)`: that node now holds v; every other node keeps its
      value; the namespaces and the tree are untouched. */
  function SetValue(srv: Server, node: Node, v: Value): (t: Server)
    ensures t.namespaces == srv.namespaces && t.children == srv.children
    ensures node in t.values && t.values[node] == v
    ensures t.values.Keys == srv.values.Keys + {node}
    ensures forall n | n in srv.values && n != node :: t.values[n] == srv.values[n]
  {
    srv.(values := srv.values[node := v])
  }

  /** Resolves each name of a list in turn under `0:Objects / idx:obj`; None
      as soon as one path has no node. */
  function ResolveAll(srv: Server, idx: nat, obj: string, names: seq<string>): (r: Option<seq<Node>>)
    ensures r.Some? <==> forall i | 0 <= i < |names| :: BrowsePath(idx, obj, names[i]) in srv.children
    ensures r.Some? ==> |r.value| == |names|
    ensures r.Some? ==> forall i | 0 <= i < |names| :: r.value[i] == srv.children[BrowsePath(idx, obj, names[i])]
    decreases |names|
  {
    if |names| == 0 then Some([])
    else
      match GetChild(srv, BrowsePath(idx, obj, names[0]))
      case None => None
      case Some(n) =>
        match ResolveAll(srv, idx, obj, names[1..])
        case None => None
        case Some(rest) =>
          assert forall i | 1 <= i < |names| :: names[i] == names[1..][i - 1];
          Some([n] + rest)
  }

  /** The node lookup the clients share: the namespace index of the URI, then
      `root.get_child(["0:Objects", "idx:obj", "idx:name"])` for each name, in
      order. None where the library raises: an unknown URI or a path with no
      node. */
  function ResolveNames(srv: Server, uri: string, obj: string, names: seq<string>): (r: Option<seq<Node>>)
    ensures r.Some? <==> (uri in srv.namespaces &&
              forall i | 0 <= i < |names| :: BrowsePath(NamespaceIndex(srv, uri).value, obj, names[i]) in srv.children)
    ensures r.Some? ==> |r.value| == |names|
    ensures r.Some? ==> forall i | 0 <= i < |names| ::
              r.value[i] == srv.children[BrowsePath(NamespaceIndex(srv, uri).value, obj, names[i])]
  {
    match NamespaceIndex(srv, uri)
    case None => None
    case Some(idx) => ResolveAll(srv, idx, obj, names)
  }

  /** `map[name].set_value(v)` for a name→node dict: None where the name is
      not in the dict (KeyError); otherwise only the node bound to the name
      changes. */
  function WriteByName(nodeMap: Dicts.Dict<string, Node>, srv: Server, name: string, v: Value): (r: Option<Server>)
    ensures r.Some? <==> name in Dicts.Keys(nodeMap)
    ensures r.Some? ==> r.value == SetValue(srv, Dicts.Get(nodeMap, name).value, v)
    ensures r.Some? ==> var n := Dicts.Get(nodeMap, name).value;
              && r.value.namespaces == srv.namespaces && r.value.children == srv.children
              && r.value.values.Keys == srv.values.Keys + {n}
              && r.value.values[n] == v
              && forall m | m in srv.values && m != n :: r.value.values[m] == srv.values[m]
  {
    match Dicts.Get(nodeMap, name)
    case None => None
    case Some(node) => Some(SetValue(srv, node, v))
  }
}

=== FILE: bronkhorst.dfy ===
/** The Bronkhorst flow meter of src/instruments/bronkhorst/bronkhorst.py: its
    serial settings, its command table, and its worker, which takes requests
    off the instrument queue one at a time and, for each, either runs one of
    the instrument's own methods or writes an encoded frame to the serial line
    and reads the reply. A truthy response goes to the request's callback;
    errors on the serial path are logged and the worker carries on. An
    exception outside that `try` ends the worker thread, which the model
    records as `alive == false`. */
module Bronkhorst {

  import opened Wrappers
  import opened Text
  import opened Values
  import Instrument

  /** The keyword arguments of `set_serial_parameters`. The port is whatever
      the caller passed: a queued request can make it any value. */
  datatype SerialParameters = SerialParameters(port: Value, baudrate: int, parity: string, bytesize: int, stopbits: int)

  /** The defaults of `set_serial_parameters` and `connect`. */
  const DefaultSerialParameters := SerialParameters(StrV("/dev/ttyUSB0"), 9600, "N", 8, 1)

  /** A call of one of the instrument's own methods, with its positional arguments. */
  datatype Invocation = Invocation(name: string, args: seq<Value>)

  /** `request["callback"](response)`. */
  datatype CallbackCall = CallbackCall(callback: Callback, response: Value)

  /** What `getattr(self, name, False)` hands the worker, as far as the worker
      looks at it: something falsy (the default False, or a falsy attribute),
      which sends the command to the serial line; a method, with whether it
      declares a parameter besides `self`; or a truthy attribute that is not
      a function, on which `inspect.getfullargspec` raises TypeError. */
  datatype Attribute = Falsy | Method(takesParameter: bool) | NotCallable

  /** What the worker consults but the model does not compute. `attributes`
      gives what `getattr` finds for the names the class body does not
      define: inherited ones, the port `_ser` once `connect` has run, and
      any set from outside. A name it does not hold finds the default False.
      `encode` stands for `eval(command).encode('ascii')`, None when that
      raises. */
  datatype Environment = Environment(attributes: map<string, Attribute>, encode: string -> Option<seq<byte>>)

  /** What the serial line does with one frame: it answers with a line of
      bytes (empty on a read timeout), or the write or the read raises. */
  datatype LineOutcome = Answered(line: seq<byte>) | WriteFailed | ReadFailed

  /** The outside world's part in one request: what a local method returns,
      and what the line does. */
  datatype Inputs = Inputs(methodResult: Value, line: LineOutcome)

  datatype Bronkhorst = Bronkhorst(
    base: Instrument.Instrument,
    commands: Value,
    serialParameters: Option<SerialParameters>,
    writes: seq<seq<byte>>,
    invocations: seq<Invocation>,
    callbacks: seq<CallbackCall>,
    errors: nat,
    alive: bool)

  /** `Bronkhorst(port)`: the instrument queue of the base class, the command
      list `["set_rate"]`, no serial settings yet, a live worker. */
  function Init(port: string): (s: Bronkhorst)
    ensures s.base == Instrument.Init(port)
    ensures s.commands == SeqV([StrV("set_rate")])
    ensures s.serialParameters.None? && s.alive
    ensures s.writes == [] && s.invocations == [] && s.callbacks == [] && s.errors == 0
  {
    Bronkhorst(Instrument.Init(port), SeqV([StrV("set_rate")]), None, [], [], [], 0, true)
  }

  /** `set_serial_parameters(...)`: stores the five settings, replacing any earlier ones. */
  function SetSerialParameters(s: Bronkhorst, p: SerialParameters): (t: Bronkhorst)
    ensures t.serialParameters == Some(p)
    ensures t == s.(serialParameters := t.serialParameters)
  {
    s.(serialParameters := Some(p))
  }

  /** The settings `main` opens the port with: `connect(**self._ser_params)`.
      None when `set_serial_parameters` never ran, where `main` raises. */
  function MainConnection(s: Bronkhorst): Option<SerialParameters> {
    s.serialParameters
  }

  /** `main` connects with exactly the settings last stored. */
  lemma MainUsesStoredParameters(s: Bronkhorst, p: SerialParameters, q: SerialParameters)
    ensures MainConnection(SetSerialParameters(s, p)) == Some(p)
    ensures MainConnection(SetSerialParameters(SetSerialParameters(s, q), p)) == Some(p)
    ensures MainConnection(Init("")).None?
  {
  }

  /** `set_commands(commands)`: the table is replaced as a whole. */
  function SetCommands(s: Bronkhorst, commands: Value): (t: Bronkhorst)
    ensures t.commands == commands
    ensures t == s.(commands := commands)
  {
    s.(commands := commands)
  }

  /** Replacing the table twice leaves only the second one: nothing of the
      first table survives. */
  lemma SetCommandsReplaces(s: Bronkhorst, a: Value, b: Value)
    ensures SetCommands(SetCommands(s, a), b) == SetCommands(s, b)
  {
  }

  /** What `getattr` finds for the names the class body defines: its methods,
      with their parameters, and the two attributes the instance sets itself.
      `_commands` is the table, truthy or not; `_ser_params` exists once
      `set_serial_parameters` ran, and is then a non-empty dict. */
  function OwnAttribute(s: Bronkhorst, name: string): Option<Attribute> {
    if name in {"__init__", "connect", "set_serial_parameters", "set_commands", "from_file", "_process_request"} then
      Some(Method(true))
    else if name in {"_update_data", "_process_queue", "_queue_request", "main"} then
      Some(Method(false))
    else if name == "_commands" then
      Some(if Truthy(s.commands) then NotCallable else Falsy)
    else if name == "_ser_params" then
      Some(if s.serialParameters.Some? then NotCallable else Falsy)
    else None
  }

  /** `getattr(self, name, False)`. */
  function Lookup(s: Bronkhorst, env: Environment, name: string): Attribute {
    match OwnAttribute(s, name)
    case Some(a) => a
    case None => if name in env.attributes then env.attributes[name] else Falsy
  }

  /** The lookup reads only the command table and whether settings are stored. */
  lemma LookupFrame(s: Bronkhorst, t: Bronkhorst, env: Environment)
    requires s.commands == t.commands && s.serialParameters.Some? == t.serialParameters.Some?
    ensures forall name :: Lookup(s, env, name) == Lookup(t, env, name)
  {
  }

  /** The effect of the dispatch and the `try` block, and the response they
      leave behind. */
  datatype Executed = Executed(state: Bronkhorst, response: Value)

  /** The `{}` that a queued `_queue_request` puts on the queue: the worker
      calls it without arguments, so its `**request` is empty. When it comes
      up, `request["command"]` raises KeyError; a request whose command is
      not a string has the same effect in the model. */
  const EmptyRequest := Instrument.Request(NoneV, None, None)

  /** What a queued `__init__(port)` makes of the base instrument:
      `Instrument.__init__` stores the port and a fresh, empty queue, so the
      requests still pending are dropped. The log of requests already handed
      over is kept. A port that is not a string is not recorded. */
  function Reinit(b: Instrument.Instrument, port: Value): (c: Instrument.Instrument)
    ensures c.queue == [] && c.handled == b.handled
    ensures port.StrV? ==> c.port == port.s
  {
    Instrument.Instrument(if port.StrV? then port.s else b.port, [], b.handled)
  }

  /** The two queued requests that change the instrument queue itself. */
  predicate ResetsQueue(r: Instrument.Request) {
    r.command == StrV("_queue_request") || r.command == StrV("__init__")
  }

  /** One of the class body's own methods run from the queue, with the
      request's parameters when its argspec has a parameter besides `self`.
      Every one of them returns None. `set_commands` and
      `set_serial_parameters` store their argument (the latter as the port,
      the other settings at their defaults). `__init__` re-initialises the
      base instrument and resets the table to `["set_rate"]`.
      `_queue_request()` puts the empty request. `main` with no settings
      stored raises AttributeError, and `from_file` always raises (its
      `cls()` lacks the port), both outside the `try`, so the worker ends.
      The other methods' effects are not modelled. */
  function RunOwn(s: Bronkhorst, name: string, arg: Option<Value>): (e: Executed)
    ensures e.response == NoneV
    ensures e.state.writes == s.writes && e.state.callbacks == s.callbacks && e.state.errors == s.errors
    ensures e.state.invocations == s.invocations + [Invocation(name, if arg.Some? then [arg.value] else [])]
    ensures e.state.alive == (s.alive && name != "from_file" && !(name == "main" && s.serialParameters.None?))
    ensures e.state.base ==
              if name == "_queue_request" then Instrument.QueueRequest(s.base, EmptyRequest)
              else if name == "__init__" && arg.Some? then Reinit(s.base, arg.value)
              else s.base
    ensures e.state.commands ==
              if name == "set_commands" && arg.Some? then arg.value
              else if name == "__init__" && arg.Some? then SeqV([StrV("set_rate")])
              else s.commands
    ensures e.state.serialParameters ==
              if name == "set_serial_parameters" && arg.Some? then Some(DefaultSerialParameters.(port := arg.value))
              else s.serialParameters
  {
    var t := s.(invocations := s.invocations + [Invocation(name, if arg.Some? then [arg.value] else [])]);
    if name == "from_file" || (name == "main" && s.serialParameters.None?) then Executed(t.(alive := false), NoneV)
    else if name == "_queue_request" then Executed(t.(base := Instrument.QueueRequest(s.base, EmptyRequest)), NoneV)
    else match arg
      case None => Executed(t, NoneV)
      case Some(p) =>
        if name == "set_commands" then Executed(SetCommands(t, p), NoneV)
        else if name == "set_serial_parameters" then
          Executed(SetSerialParameters(t, DefaultSerialParameters.(port := p)), NoneV)
        else if name == "__init__" then
          Executed(t.(base := Reinit(s.base, p), commands := SeqV([StrV("set_rate")])), NoneV)
        else Executed(t, NoneV)
  }

  /** The `try` block: write the encoded frame, read the reply; failures are
      logged and leave the response False. `portBound` says whether
      `self._serial` names an open port; when it does not, the write raises
      AttributeError. */
  function SerialExchange(s: Bronkhorst, frame: Option<seq<byte>>, line: LineOutcome, portBound: bool): (e: Executed)
    ensures e.state == s.(writes := e.state.writes, errors := e.state.errors)
    ensures e.state.writes == s.writes + (if frame.Some? && portBound && !line.WriteFailed? then [frame.value] else [])
    ensures e.state.errors == (if frame.Some? && portBound && line.Answered? then s.errors else s.errors + 1)
    ensures Truthy(e.response) ==> frame.Some? && portBound && line.Answered? && e.response == BytesV(line.line)
  {
    if frame.None? || !portBound then Executed(s.(errors := s.errors + 1), BoolV(false))
    else match line
      case WriteFailed => Executed(s.(errors := s.errors + 1), BoolV(false))
      case ReadFailed => Executed(s.(writes := s.writes + [frame.value], errors := s.errors + 1), BoolV(false))
      case Answered(l) => Executed(s.(writes := s.writes + [frame.value]), BytesV(l))
  }

  /** The dispatch of `_process_request`: the response starts as False. A
      command naming a method runs it, without arguments when it takes none
      and with `request["parameters"]` otherwise; a method the class body
      does not define has effects the model does not know and returns an
      input. A command that finds something falsy goes through the serial
      `try` block. A command that is not a string makes `getattr` raise, a
      truthy non-function makes `getfullargspec` raise, and a missing
      `parameters` key raises KeyError; each ends the worker. */
  function Dispatch(s: Bronkhorst, r: Instrument.Request, env: Environment, io: Inputs, portBound: bool): (e: Executed)
    ensures e.state.callbacks == s.callbacks && e.state.base.handled == s.base.handled
    ensures !ResetsQueue(r) ==> e.state.base == s.base
    ensures e.state.commands != s.commands ==>
              || (r.command == StrV("set_commands") && r.parameters == Some(e.state.commands))
              || (r.command == StrV("__init__") && r.parameters.Some? && e.state.commands == SeqV([StrV("set_rate")]))
    ensures e.state.serialParameters != s.serialParameters ==>
              && r.command == StrV("set_serial_parameters") && r.parameters.Some?
              && e.state.serialParameters == Some(DefaultSerialParameters.(port := r.parameters.value))
    ensures |s.writes| <= |e.state.writes| <= |s.writes| + 1 && e.state.writes[..|s.writes|] == s.writes
    ensures e.state.alive ==> s.alive
  {
    if !r.command.StrV? then Executed(s.(alive := false), BoolV(false))
    else
      var name := r.command.s;
      match Lookup(s, env, name)
      case NotCallable => Executed(s.(alive := false), BoolV(false))
      case Method(takesParameter) =>
        if takesParameter && r.parameters.None? then Executed(s.(alive := false), BoolV(false))
        else
          var arg := if takesParameter then r.parameters else None;
          if OwnAttribute(s, name).Some? then RunOwn(s, name, arg)
          else Executed(s.(invocations := s.invocations + [Invocation(name, if arg.Some? then [arg.value] else [])]), io.methodResult)
      case Falsy => SerialExchange(s, env.encode(name), io.line, portBound)
  }

  /** The dispatch with `self._serial` the port `connect` opened. */
  function Execute(s: Bronkhorst, r: Instrument.Request, env: Environment, io: Inputs): Executed {
    Dispatch(s, r, env, io, true)
  }

  /** The dispatch as the code stands: nothing assigns `self._serial`
      (`connect` stores the port as `self._ser`), so every serial write
      raises AttributeError. */
  function ExecuteAsWritten(s: Bronkhorst, r: Instrument.Request, env: Environment, io: Inputs): Executed {
    Dispatch(s, r, env, io, false)
  }

  /** The callback call: a truthy response is passed to the request's
      callback; a `None` callback cannot be called and ends the worker. */
  function Respond(s: Bronkhorst, r: Instrument.Request, response: Value): (t: Bronkhorst)
    ensures t == s.(callbacks := t.callbacks, alive := t.alive)
    ensures t.alive ==> s.alive
    ensures t.callbacks == s.callbacks + (if Truthy(response) && r.callback.Some? then [CallbackCall(r.callback.value, response)] else [])
  {
    if !Truthy(response) then s
    else match r.callback
      case None => s.(alive := false)
      case Some(cb) => s.(callbacks := s.callbacks + [CallbackCall(cb, response)])
  }

  /** The rest of `_process_request` once the dispatch is done: nothing more
      when it raised, the callback call otherwise. */
  function Conclude(r: Instrument.Request, e: Executed): Bronkhorst {
    if !e.state.alive then e.state else Respond(e.state, r, e.response)
  }

  /** `_process_request(request)`: the callback is called at most once, only
      with a truthy response, and only with the request's own callback; the
      logs only grow; at most one frame is written. The queue changes only
      through a queued `_queue_request` or `__init__`; the command table only
      through a queued `set_commands` (to its parameter) or `__init__` (back
      to `["set_rate"]`); the serial settings only through a queued
      `set_serial_parameters`. */
  function ProcessRequest(s: Bronkhorst, r: Instrument.Request, env: Environment, io: Inputs): (t: Bronkhorst)
    ensures t.base.handled == s.base.handled
    ensures !ResetsQueue(r) ==> t.base == s.base
    ensures t.commands != s.commands ==>
              || (r.command == StrV("set_commands") && r.parameters == Some(t.commands))
              || (r.command == StrV("__init__") && r.parameters.Some? && t.commands == SeqV([StrV("set_rate")]))
    ensures t.serialParameters != s.serialParameters ==>
              && r.command == StrV("set_serial_parameters") && r.parameters.Some?
              && t.serialParameters == Some(DefaultSerialParameters.(port := r.parameters.value))
    ensures |s.callbacks| <= |t.callbacks| <= |s.callbacks| + 1
    ensures t.callbacks[..|s.callbacks|] == s.callbacks
    ensures |t.callbacks| == |s.callbacks| + 1 ==>
              && Some(t.callbacks[|s.callbacks|].callback) == r.callback
              && Truthy(t.callbacks[|s.callbacks|].response)
    ensures |s.writes| <= |t.writes| <= |s.writes| + 1 && t.writes[..|s.writes|] == s.writes
    ensures t.alive ==> s.alive
  {
    Conclude(r, Execute(s, r, env, io))
  }

  /** `_process_request` as the code stands, with the serial write failing. */
  function ProcessRequestAsWritten(s: Bronkhorst, r: Instrument.Request, env: Environment, io: Inputs): (t: Bronkhorst)
    ensures !ResetsQueue(r) ==> t.base == s.base
    ensures t.writes == s.writes
    ensures t.alive ==> s.alive
  {
    Conclude(r, ExecuteAsWritten(s, r, env, io))
  }

  /** A command that names a local method runs that method and writes nothing
      to the serial line. A method without parameters is called with no
      arguments; otherwise it gets the request's parameters unchanged. */
  lemma LocalMethodDoesNotWrite(s: Bronkhorst, r: Instrument.Request, env: Environment, io: Inputs)
    requires r.command.StrV? && Lookup(s, env, r.command.s).Method?
    requires Lookup(s, env, r.command.s).takesParameter ==> r.parameters.Some?
    ensures var t := ProcessRequest(s, r, env, io);
            && t.writes == s.writes
            && t.errors == s.errors
            && |t.invocations| == |s.invocations| + 1
            && t.invocations[|s.invocations|].name == r.command.s
            && (if Lookup(s, env, r.command.s).takesParameter then t.invocations[|s.invocations|].args == [r.parameters.value]
                else t.invocations[|s.invocations|].args == [])
  {
  }

  /** A queued `set_commands` replaces the table with the request's
      parameters; it returns None, so no callback runs. */
  lemma QueuedSetCommands(s: Bronkhorst, r: Instrument.Request, env: Environment, io: Inputs)
    requires r.command == StrV("set_commands") && r.parameters.Some?
    ensures var t := ProcessRequest(s, r, env, io);
            && t.commands == r.parameters.value
            && t.callbacks == s.callbacks && t.writes == s.writes && t.alive == s.alive
  {
    assert Lookup(s, env, "set_commands") == Method(true);
  }

  /** A queued `set_serial_parameters` stores the request's parameters as the
      port, with every other setting at its default, and `main` then connects
      with them. */
  lemma QueuedSetSerialParameters(s: Bronkhorst, r: Instrument.Request, env: Environment, io: Inputs)
    requires r.command == StrV("set_serial_parameters") && r.parameters.Some?
    ensures var t := ProcessRequest(s, r, env, io);
            && MainConnection(t) == Some(SerialParameters(r.parameters.value, 9600, "N", 8, 1))
            && t.commands == s.commands
            && t.callbacks == s.callbacks && t.writes == s.writes && t.alive == s.alive
  {
    assert Lookup(s, env, "set_serial_parameters") == Method(true);
  }

  /** A command naming a truthy attribute that is not a method, such as the
      non-empty command table `_commands`, ends the worker without a callback. */
  lemma NonCallableEndsWorker(s: Bronkhorst, r: Instrument.Request, env: Environment, io: Inputs)
    requires r.command == StrV("_commands") && Truthy(s.commands)
    ensures var t := ProcessRequest(s, r, env, io);
            !t.alive && t.callbacks == s.callbacks && t.writes == s.writes
  {
    assert Lookup(s, env, "_commands") == NotCallable;
  }

  /** A queued `_queue_request` is called without arguments and puts the
      empty request at the tail of the queue; it returns None, so no
      callback runs. */
  lemma QueuedQueueRequest(s: Bronkhorst, r: Instrument.Request, env: Environment, io: Inputs)
    requires s.alive && r.command == StrV("_queue_request")
    ensures var t := ProcessRequest(s, r, env, io);
            && t.base == Instrument.QueueRequest(s.base, EmptyRequest)
            && t.alive && t.callbacks == s.callbacks && t.writes == s.writes
  {
    assert Lookup(s, env, "_queue_request") == Method(false);
  }

  /** The empty request ends the worker when it comes up. */
  lemma EmptyRequestEndsWorker(s: Bronkhorst, env: Environment, io: Inputs)
    ensures var t := ProcessRequest(s, EmptyRequest, env, io);
            !t.alive && t.callbacks == s.callbacks && t.writes == s.writes
  {
  }

  /** A queued `_queue_request` on an otherwise empty queue: the worker
      runs it, takes the empty request it queued, and dies. */
  lemma QueuedQueueRequestEndsWorker(s: Bronkhorst, r: Instrument.Request, env: Environment, io0: Inputs, io1: Inputs)
    requires s.alive && s.base.queue == [r] && r.command == StrV("_queue_request")
    ensures var t := Step(Step(s, env, io0), env, io1);
            && !t.alive && t.base.queue == []
            && t.base.handled == s.base.handled + [r, EmptyRequest]
            && t.callbacks == s.callbacks && t.writes == s.writes
  {
    var s1 := s.(base := Instrument.ProcessQueueStep(s.base));
    assert s1.base.queue == [];
    QueuedQueueRequest(s1, r, env, io0);
    var t1 := Step(s, env, io0);
    assert t1 == ProcessRequest(s1, r, env, io0);
    assert t1.base.queue == [EmptyRequest];
    EmptyRequestEndsWorker(t1.(base := Instrument.ProcessQueueStep(t1.base)), env, io1);
  }

  /** A queued `__init__` with a string port re-initialises the instrument:
      the port is the one given, the requests still pending are dropped, and
      the command table is back to `["set_rate"]`. The serial settings stay. */
  lemma QueuedInit(s: Bronkhorst, r: Instrument.Request, env: Environment, io: Inputs, port: string)
    requires s.alive && r.command == StrV("__init__") && r.parameters == Some(StrV(port))
    ensures var t := ProcessRequest(s, r, env, io);
            && t.base.port == port && t.base.queue == [] && t.base.handled == s.base.handled
            && t.commands == SeqV([StrV("set_rate")])
            && t.serialParameters == s.serialParameters
            && t.alive && t.callbacks == s.callbacks && t.writes == s.writes
  {
    assert Lookup(s, env, "__init__") == Method(true);
  }

  /** A queued `main` connects with the stored settings; with none stored,
      `self._ser_params` raises AttributeError outside the `try` and the
      worker ends. Either way nothing is written and no callback runs. */
  lemma QueuedMain(s: Bronkhorst, r: Instrument.Request, env: Environment, io: Inputs)
    requires s.alive && r.command == StrV("main")
    ensures var t := ProcessRequest(s, r, env, io);
            && (t.alive <==> MainConnection(s).Some?)
            && t.base == s.base && t.callbacks == s.callbacks && t.writes == s.writes
  {
    assert Lookup(s, env, "main") == Method(false);
  }

  /** A queued `from_file` ends the worker: if reading the configuration
      does not raise, `cls()` does, since it is called without the port the
      constructor needs. */
  lemma QueuedFromFileEndsWorker(s: Bronkhorst, r: Instrument.Request, env: Environment, io: Inputs)
    requires r.command == StrV("from_file")
    ensures var t := ProcessRequest(s, r, env, io);
            !t.alive && t.base == s.base && t.callbacks == s.callbacks && t.writes == s.writes
  {
    assert Lookup(s, env, "from_file") == Method(true);
  }

  /** The callback runs exactly when the response is truthy and the request
      carries a callback; the response it gets is the one produced. */
  lemma CallbackIffTruthy(s: Bronkhorst, r: Instrument.Request, env: Environment, io: Inputs)
    requires Execute(s, r, env, io).state.alive
    requires r.callback.Some?
    ensures var e := Execute(s, r, env, io);
            var t := ProcessRequest(s, r, env, io);
            && (|t.callbacks| == |s.callbacks| + 1 <==> Truthy(e.response))
            && (Truthy(e.response) ==> t.callbacks[|s.callbacks|] == CallbackCall(r.callback.value, e.response))
            && t.alive
  {
  }

  /** A failure on the serial path (encoding, write or read) is logged and
      swallowed: no callback, the worker stays alive. */
  lemma SerialFailureIsSwallowed(s: Bronkhorst, r: Instrument.Request, env: Environment, io: Inputs)
    requires r.command.StrV? && Lookup(s, env, r.command.s) == Falsy
    requires env.encode(r.command.s).None? || io.line.WriteFailed? || io.line.ReadFailed?
    ensures var t := ProcessRequest(s, r, env, io);
            && t.callbacks == s.callbacks
            && t.alive == s.alive
            && t.errors == s.errors + 1
            && t.invocations == s.invocations
  {
  }

  /** With the port bound, a serial command that encodes and is answered with
      a non-empty line puts exactly its frame on the line and hands the
      reply to the request's callback. */
  lemma SerialAnswerReachesCallback(s: Bronkhorst, r: Instrument.Request, env: Environment, io: Inputs)
    requires s.alive && r.command.StrV? && Lookup(s, env, r.command.s) == Falsy && r.callback.Some?
    requires env.encode(r.command.s).Some? && io.line.Answered? && |io.line.line| > 0
    ensures var t := ProcessRequest(s, r, env, io);
            && t.writes == s.writes + [env.encode(r.command.s).value]
            && t.callbacks == s.callbacks + [CallbackCall(r.callback.value, BytesV(io.line.line))]
            && t.errors == s.errors && t.alive
  {
  }

  /** As the code stands, no serial command ever reaches the line or a
      callback: whatever the line would have answered, the write raises,
      the error is logged and the response stays False. */
  lemma SerialPathAsWrittenNeverAnswers(s: Bronkhorst, r: Instrument.Request, env: Environment, io: Inputs)
    requires r.command.StrV? && Lookup(s, env, r.command.s) == Falsy
    ensures var t := ProcessRequestAsWritten(s, r, env, io);
            && t.writes == s.writes
            && t.callbacks == s.callbacks
            && t.errors == s.errors + 1
            && t.alive == s.alive
  {
  }

  /** The two differ on every answered serial command: the intended code
      writes the frame and calls back, the code as it stands does neither. */
  lemma SerialPathDiffers(s: Bronkhorst, r: Instrument.Request, env: Environment, io: Inputs)
    requires s.alive && r.command.StrV? && Lookup(s, env, r.command.s) == Falsy && r.callback.Some?
    requires env.encode(r.command.s).Some? && io.line.Answered? && |io.line.line| > 0
    ensures ProcessRequest(s, r, env, io).writes != ProcessRequestAsWritten(s, r, env, io).writes
    ensures ProcessRequest(s, r, env, io).callbacks != ProcessRequestAsWritten(s, r, env, io).callbacks
  {
    SerialAnswerReachesCallback(s, r, env, io);
    SerialPathAsWrittenNeverAnswers(s, r, env, io);
    assert |ProcessRequest(s, r, env, io).writes| == |s.writes| + 1;
    assert |ProcessRequest(s, r, env, io).callbacks| == |s.callbacks| + 1;
  }

  /** A serial command on a fresh driver: the string `'X'` names no
      attribute, encodes to one byte and the instrument answers `OK`. The
      intended driver writes the frame and hands `OK` to the callback; the
      code as it stands writes nothing and calls nothing back. */
  lemma SerialCommandExample()
    ensures var s := Init("/dev/ttyUSB0");
            var r := Instrument.Request(StrV("'X'"), None, Some(Callback(0)));
            var env := Environment(map[], _ => Some([88 as byte]));
            var io := Inputs(NoneV, Answered([79 as byte, 75 as byte]));
            && ProcessRequest(s, r, env, io).writes == [[88 as byte]]
            && ProcessRequest(s, r, env, io).callbacks == [CallbackCall(Callback(0), BytesV([79 as byte, 75 as byte]))]
            && ProcessRequestAsWritten(s, r, env, io).writes == []
            && ProcessRequestAsWritten(s, r, env, io).callbacks == []
  {
    var s := Init("/dev/ttyUSB0");
    var r := Instrument.Request(StrV("'X'"), None, Some(Callback(0)));
    var env := Environment(map[], _ => Some([88 as byte]));
    var io := Inputs(NoneV, Answered([79 as byte, 75 as byte]));
    assert Lookup(s, env, "'X'") == Falsy;
    SerialAnswerReachesCallback(s, r, env, io);
    SerialPathAsWrittenNeverAnswers(s, r, env, io);
  }

  /** One iteration of `_process_queue`: take the head request off the
      instrument queue and process it. Once the worker is dead, nothing happens;
      on an empty queue it waits. Unless the request is a queued
      `_queue_request` or `__init__`, the queue is then exactly the base
      queue after its `get`. The request is handed over in any case. */
  function Step(s: Bronkhorst, env: Environment, io: Inputs): (t: Bronkhorst)
    ensures s.alive && 0 < |s.base.queue| ==> t.base.handled == s.base.handled + [s.base.queue[0]]
    ensures s.alive && (|s.base.queue| == 0 || !ResetsQueue(s.base.queue[0])) ==> t.base == Instrument.ProcessQueueStep(s.base)
    ensures !s.alive ==> t == s
  {
    if !s.alive || |s.base.queue| == 0 then s
    else ProcessRequest(s.(base := Instrument.ProcessQueueStep(s.base)), s.base.queue[0], env, io)
  }

  /** `_queue_request(**request)`: the instrument queue's put. */
  function QueueRequest(s: Bronkhorst, r: Instrument.Request): (t: Bronkhorst)
    ensures t.base == Instrument.QueueRequest(s.base, r)
    ensures t == s.(base := t.base)
  {
    s.(base := Instrument.QueueRequest(s.base, r))
  }

  /** Several worker iterations, one input per iteration. */
  function Run(s: Bronkhorst, env: Environment, ios: seq<Inputs>): Bronkhorst
    decreases |ios|
  {
    if |ios| == 0 then s else Run(Step(s, env, ios[0]), env, ios[1..])
  }

  /** A request whose command goes to the serial line and whose callback is set. */
  predicate SerialRequest(s: Bronkhorst, r: Instrument.Request, env: Environment) {
    r.command.StrV? && Lookup(s, env, r.command.s) == Falsy && r.callback.Some?
  }

  /** Every request of `rs` is a serial request. */
  predicate AllSerial(s: Bronkhorst, rs: seq<Instrument.Request>, env: Environment)
    decreases |rs|
  {
    |rs| == 0 || (SerialRequest(s, rs[0], env) && AllSerial(s, rs[1..], env))
  }

  /** Whether a request is serial depends only on the command table and on
      whether settings are stored. */
  lemma {:induction false} AllSerialFrame(s: Bronkhorst, t: Bronkhorst, rs: seq<Instrument.Request>, env: Environment)
    requires s.commands == t.commands && s.serialParameters.Some? == t.serialParameters.Some?
    requires AllSerial(s, rs, env)
    ensures AllSerial(t, rs, env)
    decreases |rs|
  {
    if |rs| > 0 {
      LookupFrame(s, t, env);
      AllSerialFrame(s, t, rs[1..], env);
    }
  }

  /** The frame a serial request puts on the line: its encoding, unless the
      encoding or the write failed. */
  function FrameWritten(r: Instrument.Request, env: Environment, io: Inputs): seq<seq<byte>> {
    if r.command.StrV? && env.encode(r.command.s).Some? && !io.line.WriteFailed? then [env.encode(r.command.s).value]
    else []
  }

  /** The callback call a serial request makes: one, with the reply, when the
      frame went out and came back as a non-empty line. */
  function CallbackMade(r: Instrument.Request, env: Environment, io: Inputs): seq<CallbackCall> {
    if r.command.StrV? && env.encode(r.command.s).Some? && io.line.Answered? && |io.line.line| > 0 && r.callback.Some? then
      [CallbackCall(r.callback.value, BytesV(io.line.line))]
    else []
  }

  function SerialWrites(rs: seq<Instrument.Request>, env: Environment, ios: seq<Inputs>): seq<seq<byte>>
    requires |rs| == |ios|
    decreases |rs|
  {
    if |rs| == 0 then [] else FrameWritten(rs[0], env, ios[0]) + SerialWrites(rs[1..], env, ios[1..])
  }

  function SerialCallbacks(rs: seq<Instrument.Request>, env: Environment, ios: seq<Inputs>): seq<CallbackCall>
    requires |rs| == |ios|
    decreases |rs|
  {
    if |rs| == 0 then [] else CallbackMade(rs[0], env, ios[0]) + SerialCallbacks(rs[1..], env, ios[1..])
  }

  /** One serial request: its frame (if any) is appended to the line log, its
      callback call (if any) to the call log, and the table and settings stay. */
  lemma SerialRequestEffect(s: Bronkhorst, r: Instrument.Request, env: Environment, io: Inputs)
    requires s.alive && SerialRequest(s, r, env)
    ensures var t := ProcessRequest(s, r, env, io);
            && t.alive && t.base == s.base
            && t.writes == s.writes + FrameWritten(r, env, io)
            && t.callbacks == s.callbacks + CallbackMade(r, env, io)
            && t.commands == s.commands && t.serialParameters == s.serialParameters
  {
  }

  /** One worker iteration on a queue of serial requests: the head is handed
      over and processed, and what is left is still a queue of serial requests. */
  lemma DrainStep(s: Bronkhorst, env: Environment, io: Inputs)
    requires s.alive && 0 < |s.base.queue|
    requires AllSerial(s, s.base.queue, env)
    ensures var t := Step(s, env, io);
            && t.alive
            && t.base.queue == s.base.queue[1..]
            && t.base.handled == s.base.handled + [s.base.queue[0]]
            && t.writes == s.writes + FrameWritten(s.base.queue[0], env, io)
            && t.callbacks == s.callbacks + CallbackMade(s.base.queue[0], env, io)
            && AllSerial(t, t.base.queue, env)
  {
    var r := s.base.queue[0];
    var s1 := s.(base := Instrument.ProcessQueueStep(s.base));
    LookupFrame(s, s1, env);
    assert SerialRequest(s, r, env);
    SerialRequestEffect(s1, r, env, io);
    var t := Step(s, env, io);
    assert t == ProcessRequest(s1, r, env, io);
    AllSerialFrame(s, t, s.base.queue[1..], env);
  }

  /** A queue of serial commands drains completely whatever the line does:
      failures never stop the worker and every request is handed over once
      and in order. */
  lemma {:induction false} SerialQueueDrains(s: Bronkhorst, env: Environment, ios: seq<Inputs>)
    requires s.alive
    requires |ios| == |s.base.queue|
    requires AllSerial(s, s.base.queue, env)
    ensures var t := Run(s, env, ios);
            && t.alive
            && t.base.queue == []
            && t.base.handled == s.base.handled + s.base.queue
    decreases |ios|
  {
    if |ios| > 0 {
      var t := Step(s, env, ios[0]);
      DrainStep(s, env, ios[0]);
      SerialQueueDrains(t, env, ios[1..]);
      assert s.base.handled + [s.base.queue[0]] + s.base.queue[1..] == s.base.handled + s.base.queue;
    }
  }

  /** Draining a queue of serial commands writes one frame per request whose
      encoding succeeded and whose write did not raise, in queue order. */
  lemma {:induction false} SerialQueueWrites(s: Bronkhorst, env: Environment, ios: seq<Inputs>)
    requires s.alive
    requires |ios| == |s.base.queue|
    requires AllSerial(s, s.base.queue, env)
    ensures Run(s, env, ios).writes == s.writes + SerialWrites(s.base.queue, env, ios)
    decreases |ios|
  {
    if |ios| > 0 {
      var t := Step(s, env, ios[0]);
      DrainStep(s, env, ios[0]);
      SerialQueueWrites(t, env, ios[1..]);
      var w := FrameWritten(s.base.queue[0], env, ios[0]);
      assert SerialWrites(s.base.queue, env, ios) == w + SerialWrites(t.base.queue, env, ios[1..]);
      assert Run(s, env, ios).writes == s.writes + w + SerialWrites(t.base.queue, env, ios[1..]);
    } else {
      assert SerialWrites(s.base.queue, env, ios) == [];
    }
  }

  /** Draining a queue of serial commands makes one callback call per request
      answered with a non-empty line, with that reply, in queue order. */
  lemma {:induction false} SerialQueueCallbacks(s: Bronkhorst, env: Environment, ios: seq<Inputs>)
    requires s.alive
    requires |ios| == |s.base.queue|
    requires AllSerial(s, s.base.queue, env)
    ensures Run(s, env, ios).callbacks == s.callbacks + SerialCallbacks(s.base.queue, env, ios)
    decreases |ios|
  {
    if |ios| > 0 {
      var t := Step(s, env, ios[0]);
      DrainStep(s, env, ios[0]);
      SerialQueueCallbacks(t, env, ios[1..]);
      var c := CallbackMade(s.base.queue[0], env, ios[0]);
      assert SerialCallbacks(s.base.queue, env, ios) == c + SerialCallbacks(t.base.queue, env, ios[1..]);
      assert Run(s, env, ios).callbacks == s.callbacks + c + SerialCallbacks(t.base.queue, env, ios[1..]);
    } else {
      assert SerialCallbacks(s.base.queue, env, ios) == [];
    }
  }
}

=== FILE: browse_paths.dfy ===
/** OPC UA relative browse paths in the text form the clients hand to
    `get_child`: each element is a QualifiedName written
    `<namespaceIndex>:<name>` (section A.2 of IEC 62541-4), and the path to a
    variable runs from the standard Objects folder in namespace 0, through the
    parent object, to the variable. The same three-element path is built by
    `_get_path` in src/services/opc/subscriber.py, `_gbp` in
    src/services/opc/subscription.py and `get_browse_path` in
    src/services/opc/client_old.py. */
module BrowsePaths {

  import opened Wrappers
  import opened Text

  /** `f"{idx}:{name}"`. */
  function QualifiedName(idx: nat, name: string): (q: string)
    ensures |q| == |NatToDecimal(idx)| + 1 + |name|
    ensures q[|NatToDecimal(idx)|] == ':'
  {
    NatToDecimal(idx) + ":" + name
  }

  /** Reads `<digits>:<name>` back into its namespace index and name. The
      name is everything after the first colon and may itself hold colons. */
  function ParseQualifiedName(q: string): Option<(nat, string)> {
    var k := DigitRun(q);
    if k == 0 || k == |q| || q[k] != ':' then None
    else Some((DecimalValue(q[..k]), q[k + 1..]))
  }

  /** A qualified name reads back as the index and name it was written from. */
  lemma QualifiedNameRoundTrip(idx: nat, name: string)
    ensures ParseQualifiedName(QualifiedName(idx, name)) == Some((idx, name))
  {
    var d := NatToDecimal(idx);
    var q := QualifiedName(idx, name);
    assert q == d + (":" + name);
    DigitRunOfNumeral(d, ":" + name);
    assert q[..|d|] == d;
    assert q[|d| + 1..] == name;
    DecimalRoundTrip(idx);
  }

  /** Different index/name pairs give different qualified names. */
  lemma QualifiedNameInjective(i: nat, a: string, j: nat, b: string)
    requires QualifiedName(i, a) == QualifiedName(j, b)
    ensures i == j && a == b
  {
    QualifiedNameRoundTrip(i, a);
    QualifiedNameRoundTrip(j, b);
  }

  /** `["0:Objects", f"{idx}:{obj}", f"{idx}:{name}"]`: Objects in namespace
      0, then the object and the variable in namespace idx. */
  function BrowsePath(idx: nat, obj: string, name: string): (p: seq<string>)
    ensures |p| == 3
    ensures p[0] == QualifiedName(0, "Objects")
    ensures ParseQualifiedName(p[1]) == Some((idx, obj))
    ensures ParseQualifiedName(p[2]) == Some((idx, name))
  {
    QualifiedNameRoundTrip(idx, obj);
    QualifiedNameRoundTrip(idx, name);
    assert NatToDecimal(0) == "0";
    ["0:Objects", QualifiedName(idx, obj), QualifiedName(idx, name)]
  }

  /** The path spelled out, as the three sources write it. */
  lemma BrowsePathText(idx: nat, obj: string, name: string)
    ensures BrowsePath(idx, obj, name) == ["0:Objects", NatToDecimal(idx) + ":" + obj, NatToDecimal(idx) + ":" + name]
  {
  }

  /** Different (index, object, name) triples lead to different paths, so a
      resolved node can be traced back to the one configured name that
      produced its path. */
  lemma BrowsePathInjective(i: nat, o: string, n: string, j: nat, o': string, n': string)
    ensures BrowsePath(i, o, n) == BrowsePath(j, o', n') <==> (i == j && o == o' && n == n')
  {
    if BrowsePath(i, o, n) == BrowsePath(j, o', n') {
      QualifiedNameInjective(i, o, j, o');
      QualifiedNameInjective(i, n, j, n');
    }
  }
}

=== FILE: client_config.dfy ===
/** The `params` dictionary that src/services/opc/subscription.py and
    src/services/opc/client_old.py read: the endpoint, the namespace URI,
    the parent object, and the `nodes` dict whose keys, in insertion order,
    are the names of the variables to monitor. */
module ClientConfig {

  import opened Values
  import opened Dicts

  datatype Params = Params(endpoint: string, uri: string, obj: string, nodes: Dict<string, Value>)

  /** The configured names, in key order; distinct because they are the keys
      of a dict. */
  function NodeNames(p: Params): (names: seq<string>)
    requires WellFormed(p.nodes)
    ensures Distinct(names) && |names| == |p.nodes|
  {
    Keys(p.nodes)
  }
}

=== FILE: client_old.dfy ===
/** The earlier OPC client of src/services/opc/client_old.py: `run` resolves
    one node per configured name, in order, through a tuple-valued browse
    path, binds names to nodes in `_map`, and `respond` writes a value to the
    node bound to a name. */
module ClientOld {

  import opened Wrappers
  import opened Values
  import opened Dicts
  import opened BrowsePaths
  import opened AddressSpace
  import opened ClientConfig

  datatype Client = Client(nodes: seq<Node>, nodeMap: Dict<string, Node>)

  /** `get_browse_path(idx, obj, n)`: a 3-tuple, which `run` turns into a
      list; that list is the browse path of the name. */
  function GetBrowsePath(idx: nat, obj: string, n: string): (bp: (string, string, string))
    ensures [bp.0, bp.1, bp.2] == BrowsePath(idx, obj, n)
    ensures bp.0 == "0:Objects"
    ensures ParseQualifiedName(bp.1) == Some((idx, obj)) && ParseQualifiedName(bp.2) == Some((idx, n))
  {
    var p := BrowsePath(idx, obj, n);
    BrowsePathText(idx, obj, n);
    (p[0], p[1], p[2])
  }

  /** The nodes and the map `run` builds, without the connection and the
      subscription. None where the library raises. */
  function Run(srv: Server, params: Params): (r: Option<Client>)
    requires WellFormed(params.nodes)
    ensures r.Some? <==> ResolveNames(srv, params.uri, params.obj, NodeNames(params)).Some?
    ensures r.Some? ==> |r.value.nodes| == |params.nodes|
    ensures r.Some? ==> forall i | 0 <= i < |params.nodes| ::
              var bp := GetBrowsePath(NamespaceIndex(srv, params.uri).value, params.obj, params.nodes[i].0);
              [bp.0, bp.1, bp.2] in srv.children && r.value.nodes[i] == srv.children[[bp.0, bp.1, bp.2]]
    ensures r.Some? ==> WellFormed(r.value.nodeMap) && Keys(r.value.nodeMap) == NodeNames(params)
    ensures r.Some? ==> forall i | 0 <= i < |params.nodes| :: Get(r.value.nodeMap, params.nodes[i].0) == Some(r.value.nodes[i])
  {
    match ResolveNames(srv, params.uri, params.obj, NodeNames(params))
    case None => None
    case Some(nodes) =>
      ZipPairs(NodeNames(params), nodes);
      Some(Client(nodes, Zip(NodeNames(params), nodes)))
  }

  /** `respond(node, value)`: the value goes to the node bound to the name and
      to no other node; None where the name is not in the map (KeyError). */
  function Respond(c: Client, srv: Server, name: string, v: Value): (r: Option<Server>)
    ensures r.Some? <==> name in Keys(c.nodeMap)
    ensures r.Some? ==> var n := Get(c.nodeMap, name).value;
              && r.value.values.Keys == srv.values.Keys + {n}
              && r.value.values[n] == v
              && r.value.namespaces == srv.namespaces && r.value.children == srv.children
              && forall m | m in srv.values && m != n :: r.value.values[m] == srv.values[m]
  {
    WriteByName(c.nodeMap, srv, name, v)
  }

  /** After `run`, responding to a configured name writes exactly the node at
      that name's browse path. */
  lemma RespondReachesConfiguredNode(srv: Server, params: Params, i: nat, v: Value)
    requires WellFormed(params.nodes)
    requires Run(srv, params).Some? && i < |params.nodes|
    ensures var idx := NamespaceIndex(srv, params.uri).value;
            var target := srv.children[BrowsePath(idx, params.obj, params.nodes[i].0)];
            var r := Respond(Run(srv, params).value, srv, params.nodes[i].0, v);
            r.Some? && r.value.values[target] == v
  {
    var idx := NamespaceIndex(srv, params.uri).value;
    var bp := GetBrowsePath(idx, params.obj, params.nodes[i].0);
  }
}

=== FILE: dicts.dfy ===
/** Python dicts as the node-map code uses them. A dict is its entries in
    insertion order; assigning to an existing key keeps the key's place, and a
    comprehension over a `zip` stops at the shorter input and lets a later
    repeated key overwrite an earlier one. Order matters here because the
    reverse lookup in the subscriber returns the FIRST key bound to a node. */
module Dicts {

  import opened Wrappers

  type Dict<K, V> = seq<(K, V)>

  predicate Distinct<T(==)>(s: seq<T>) {
    forall i, j | 0 <= i < j < |s| :: s[i] != s[j]
  }

  function Keys<K, V>(d: Dict<K, V>): (ks: seq<K>)
    ensures |ks| == |d|
    ensures forall i | 0 <= i < |d| :: ks[i] == d[i].0
  {
    seq(|d|, i requires 0 <= i < |d| => d[i].0)
  }

  function Values<K, V>(d: Dict<K, V>): (vs: seq<V>)
    ensures |vs| == |d|
    ensures forall i | 0 <= i < |d| :: vs[i] == d[i].1
  {
    seq(|d|, i requires 0 <= i < |d| => d[i].1)
  }

  /** Every key occurs once, as in any Python dict. */
  predicate WellFormed<K(==), V>(d: Dict<K, V>) {
    Distinct(Keys(d))
  }

  /** `d[k]`, with None where Python raises KeyError. */
  function Get<K(==), V>(d: Dict<K, V>, k: K): (r: Option<V>)
    ensures r.Some? <==> k in Keys(d)
    ensures r.Some? ==> exists i | 0 <= i < |d| :: d[i] == (k, r.value)
  {
    if |d| == 0 then None
    else if d[0].0 == k then Some(d[0].1)
    else
      assert Keys(d) == [d[0].0] + Keys(d[1..]);
      var r := Get(d[1..], k);
      assert r.Some? ==> exists i | 0 <= i < |d[1..]| :: d[1..][i] == (k, r.value);
      r
  }

  /** In a well-formed dict the entry at position i is what `d[key]` reads. */
  lemma {:induction false} GetAt<K, V>(d: Dict<K, V>, i: nat)
    requires WellFormed(d)
    requires i < |d|
    ensures Get(d, d[i].0) == Some(d[i].1)
  {
    if i > 0 {
      assert Keys(d[1..]) == Keys(d)[1..];
      assert d[0].0 != d[i].0 by {
        assert Keys(d)[0] != Keys(d)[i];
      }
      GetAt(d[1..], i - 1);
    }
  }

  /** The position of the first occurrence of `x` in `s`. */
  function IndexOf<T(==)>(s: seq<T>, x: T): (i: nat)
    requires x in s
    ensures i < |s| && s[i] == x
    ensures x !in s[..i]
  {
    if s[0] == x then 0
    else
      var i := 1 + IndexOf(s[1..], x);
      assert s[..i] == [s[0]] + s[1..][..i - 1];
      i
  }

  /** In a well-formed dict, `d[k]` is the value at the one position holding k. */
  lemma GetAtKey<K, V>(d: Dict<K, V>, i: nat, k: K)
    requires WellFormed(d)
    requires i < |d| && d[i].0 == k
    ensures Get(d, k) == Some(d[i].1)
  {
    GetAt(d, i);
  }

  /** `d[k] = v`: an existing key keeps its place and takes the new value; a
      new key goes last. */
  function Put<K(==), V>(d: Dict<K, V>, k: K, v: V): (r: Dict<K, V>)
    requires WellFormed(d)
    ensures WellFormed(r)
    ensures |r| == |d| || |r| == |d| + 1
    ensures k in Keys(d) ==> Keys(r) == Keys(d)
    ensures k !in Keys(d) ==> Keys(r) == Keys(d) + [k]
  {
    if k in Keys(d) then
      var r := d[IndexOf(Keys(d), k) := (k, v)];
      assert Keys(r) == Keys(d);
      r
    else
      var r := d + [(k, v)];
      assert Keys(r) == Keys(d) + [k];
      r
  }

  /** After `d[k] = v`, reading k gives v and reading any other key gives what it gave before. */
  lemma PutGet<K, V>(d: Dict<K, V>, k: K, v: V, k': K)
    requires WellFormed(d)
    ensures Get(Put(d, k, v), k') == if k' == k then Some(v) else Get(d, k')
  {
    var r := Put(d, k, v);
    if k' == k {
      var i := IndexOf(Keys(r), k);
      GetAtKey(r, i, k);
    } else if k' in Keys(d) {
      var i := IndexOf(Keys(d), k');
      GetAtKey(d, i, k');
      GetAtKey(r, i, k');
    } else {
      assert k' !in Keys(r);
    }
  }

  /** The position of the last occurrence of `x` in `s`. */
  function LastIndex<T(==)>(s: seq<T>, x: T): (i: nat)
    requires x in s
    ensures i < |s| && s[i] == x
    ensures forall j | i < j < |s| :: s[j] != x
  {
    if x in s[1..] then
      var i := 1 + LastIndex(s[1..], x);
      assert forall j | i < j < |s| :: s[j] == s[1..][j - 1];
      i
    else 0
  }

  /** Without repeats, the last occurrence of an element is its only one. */
  lemma LastIndexDistinct<T>(s: seq<T>, i: nat)
    requires Distinct(s) && i < |s|
    ensures LastIndex(s, s[i]) == i
  {
    var j := LastIndex(s, s[i]);
    assert s[j] == s[i];
  }

  /** In a well-formed dict the key at position i occurs there and nowhere later. */
  lemma KeyAt<K, V>(d: Dict<K, V>, i: nat)
    requires WellFormed(d) && i < |d|
    ensures d[i].0 in Keys(d) && LastIndex(Keys(d), d[i].0) == i
  {
    assert Keys(d)[i] == d[i].0;
    LastIndexDistinct(Keys(d), i);
  }

  /** `d.update({k: v for k, v in zip(ks, vs)})`, one pair after the other. */
  function UpdateZip<K(==), V>(d: Dict<K, V>, ks: seq<K>, vs: seq<V>): (r: Dict<K, V>)
    requires WellFormed(d)
    ensures WellFormed(r)
    decreases |ks|
  {
    if |ks| == 0 || |vs| == 0 then d
    else UpdateZip(Put(d, ks[0], vs[0]), ks[1..], vs[1..])
  }

  /** `{k: v for k, v in zip(ks, vs)}`. */
  function Zip<K(==), V>(ks: seq<K>, vs: seq<V>): Dict<K, V> {
    UpdateZip([], ks, vs)
  }

  /** Updating from a zip of equal-length sequences: the result stays a dict,
      every zipped key is bound to the value paired with its LAST occurrence,
      and every other key keeps what it had. */
  lemma {:induction false} UpdateZipLookup<K, V>(d: Dict<K, V>, ks: seq<K>, vs: seq<V>, k: K)
    requires WellFormed(d)
    requires |ks| == |vs|
    ensures WellFormed(UpdateZip(d, ks, vs))
    ensures k in ks ==> Get(UpdateZip(d, ks, vs), k) == Some(vs[LastIndex(ks, k)])
    ensures k !in ks ==> Get(UpdateZip(d, ks, vs), k) == Get(d, k)
    decreases |ks|
  {
    if |ks| > 0 {
      var d' := Put(d, ks[0], vs[0]);
      UpdateZipLookup(d', ks[1..], vs[1..], k);
      PutGet(d, ks[0], vs[0], k);
      if k in ks[1..] {
        assert LastIndex(ks, k) == 1 + LastIndex(ks[1..], k);
      }
    }
  }

  /** The keys after the update are the old keys and the zipped keys. */
  lemma {:induction false} UpdateZipKeys<K, V>(d: Dict<K, V>, ks: seq<K>, vs: seq<V>)
    requires WellFormed(d)
    requires |ks| == |vs|
    ensures (set k | k in Keys(UpdateZip(d, ks, vs))) == (set k | k in Keys(d)) + (set k | k in ks)
    decreases |ks|
  {
    if |ks| > 0 {
      var d' := Put(d, ks[0], vs[0]);
      UpdateZipKeys(d', ks[1..], vs[1..]);
      assert ks == [ks[0]] + ks[1..];
      assert (set k | k in Keys(d')) == (set k | k in Keys(d)) + {ks[0]};
    }
  }

  /** Zipping distinct keys into an empty dict keeps them in order and pairs
      the i-th key with the i-th value. */
  lemma {:induction false} ZipPairs<K, V>(ks: seq<K>, vs: seq<V>)
    requires |ks| == |vs|
    requires Distinct(ks)
    ensures WellFormed(Zip(ks, vs))
    ensures Keys(Zip(ks, vs)) == ks
    ensures forall i | 0 <= i < |ks| :: Get(Zip(ks, vs), ks[i]) == Some(vs[i])
  {
    ZipAppend([], ks, vs);
    forall i | 0 <= i < |ks|
      ensures Get(Zip(ks, vs), ks[i]) == Some(vs[i])
    {
      UpdateZipLookup([], ks, vs, ks[i]);
      assert LastIndex(ks, ks[i]) == i;
    }
  }

  /** Zipping keys that are all new appends them, in order. */
  lemma {:induction false} ZipAppend<K, V>(d: Dict<K, V>, ks: seq<K>, vs: seq<V>)
    requires WellFormed(d)
    requires |ks| == |vs|
    requires Distinct(ks)
    requires forall k | k in ks :: k !in Keys(d)
    ensures WellFormed(UpdateZip(d, ks, vs))
    ensures Keys(UpdateZip(d, ks, vs)) == Keys(d) + ks
    decreases |ks|
  {
    if |ks| > 0 {
      var d' := Put(d, ks[0], vs[0]);
      assert Keys(d') == Keys(d) + [ks[0]];
      assert forall k | k in ks[1..] :: k !in Keys(d') by {
        forall k | k in ks[1..]
          ensures k !in Keys(d')
        {
          var j :| 0 <= j < |ks[1..]| && ks[1..][j] == k;
          assert ks[j + 1] != ks[0];
        }
      }
      ZipAppend(d', ks[1..], vs[1..]);
      assert Keys(d) + ks == Keys(d) + [ks[0]] + ks[1..];
    }
  }

  /** `[k for k, v in d.items() if v == x][0]`: the first key, in insertion
      order, bound to `x`; None where the empty list raises IndexError. */
  function KeyOf<K, V(==)>(d: Dict<K, V>, x: V): (r: Option<K>)
    ensures r.Some? <==> x in Values(d)
    ensures r.Some? ==> exists i | 0 <= i < |d| :: d[i] == (r.value, x) && x !in Values(d)[..i]
  {
    if |d| == 0 then None
    else if d[0].1 == x then
      assert Values(d)[..0] == [];
      Some(d[0].0)
    else
      assert Values(d) == [d[0].1] + Values(d[1..]);
      var r := KeyOf(d[1..], x);
      assert r.Some? ==> exists i | 0 <= i < |d| :: d[i] == (r.value, x) && x !in Values(d)[..i] by {
        if r.Some? {
          var i :| 0 <= i < |d[1..]| && d[1..][i] == (r.value, x) && x !in Values(d[1..])[..i];
          assert d[i + 1] == (r.value, x);
          assert Values(d)[..i + 1] == [d[0].1] + Values(d[1..])[..i];
        }
      }
      r
  }

  /** The reverse lookup inverts the dict when no value is bound to two keys:
      looking up the value of key k gives back k. */
  lemma KeyOfInverts<K, V>(d: Dict<K, V>, k: K, x: V)
    requires WellFormed(d)
    requires Distinct(Values(d))
    requires Get(d, k) == Some(x)
    ensures KeyOf(d, x) == Some(k)
  {
    var i :| 0 <= i < |d| && d[i] == (k, x);
    var r := KeyOf(d, x);
    var j :| 0 <= j < |d| && d[j] == (r.value, x) && x !in Values(d)[..j];
    assert Values(d)[i] == Values(d)[j];
  }

  /** Whatever the reverse lookup finds is a key bound to the node it was asked about. */
  lemma KeyOfSound<K, V>(d: Dict<K, V>, x: V)
    requires WellFormed(d)
    requires KeyOf(d, x).Some?
    ensures Get(d, KeyOf(d, x).value) == Some(x)
  {
    var i :| 0 <= i < |d| && d[i] == (KeyOf(d, x).value, x) && x !in Values(d)[..i];
    GetAt(d, i);
  }
}

=== FILE: ika.dfy ===
/** The IKA overhead stirrer of src/instruments/ika/ika.py. Every command
    method builds a text frame for channel 4, closed by space, CR, space, LF,
    and puts it on the instrument queue with the caller's callback; none of
    them touches the serial line. */
module Ika {

  import opened Wrappers
  import opened Text
  import opened Values
  import Instrument

  /** The five stirrer commands. A set-point is given in hundredths of a
      revolution per minute, the precision `{:.2f}` prints. */
  datatype StirrerCommand = Start | Stop | SetRate(hundredths: int) | GetRateSetPoint | GetRatePresentValue

  /** The end of every frame: space, CR, space, LF. */
  const Tail: string := " " + [CR] + " " + [LF]

  /** The frame ends with the tail. */
  predicate HasTail(s: string) {
    |Tail| <= |s| && s[|s| - |Tail|..] == Tail
  }

  /** The frame addresses channel 4: it holds `_4`. */
  predicate CarriesChannel(s: string) {
    exists k | 0 <= k < |s| - 1 :: s[k] == '_' && s[k + 1] == '4'
  }

  /** A command word ending in `_4`, an argument and the tail. */
  function Assemble(head: string, arg: string): (s: string)
    requires IsAscii(head) && IsAscii(arg)
    requires 2 <= |head| && head[|head| - 2..] == "_4"
    ensures IsAscii(s) && HasTail(s) && CarriesChannel(s)
  {
    var s := head + arg + Tail;
    AsciiConcat(head, arg);
    AsciiConcat(head + arg, Tail);
    assert s[|s| - |Tail|..] == Tail;
    assert s[|head| - 2] == '_' && s[|head| - 1] == '4';
    s
  }

  /** The frame a method queues: the command word with the channel suffix
      `_4`, the set-point with two decimals for `set_rate`, and the tail. */
  function Frame(c: StirrerCommand): (s: string)
    ensures IsAscii(s) && HasTail(s) && CarriesChannel(s)
  {
    match c
    case Start => Assemble("START_4", "")
    case Stop => Assemble("STOP_4", "")
    case SetRate(h) => AsciiConcat(" ", Fixed2(h)); Assemble("OUT_SP_4", " " + Fixed2(h))
    case GetRateSetPoint => Assemble("IN_SP_4", "")
    case GetRatePresentValue => Assemble("IN_PV_4", "")
  }

  /** Reads the text before the tail back into its command. */
  function DecodeBody(body: string): Option<StirrerCommand> {
    if body == "START_4" then Some(Start)
    else if body == "STOP_4" then Some(Stop)
    else if body == "IN_SP_4" then Some(GetRateSetPoint)
    else if body == "IN_PV_4" then Some(GetRatePresentValue)
    else if 9 <= |body| && body[..9] == "OUT_SP_4 " && ParseFixed2(body[9..]).Some? then
      Some(SetRate(ParseFixed2(body[9..]).value))
    else None
  }

  /** Reads a frame back into its command. */
  function Decode(s: string): Option<StirrerCommand> {
    if HasTail(s) then DecodeBody(s[..|s| - |Tail|]) else None
  }

  lemma DecodeWithTail(body: string)
    ensures Decode(body + Tail) == DecodeBody(body)
  {
    var s := body + Tail;
    assert s[|s| - |Tail|..] == Tail;
    assert s[..|s| - |Tail|] == body;
  }

  /** Every frame reads back as the command it was built from. */
  lemma DecodeFrame(c: StirrerCommand)
    ensures Decode(Frame(c)) == Some(c)
  {
    if c.SetRate? {
      DecodeSetRate(c.hundredths);
    } else {
      WordFrame(c);
      DecodeWithTail(Word(c));
      assert "IN_SP_4"[0] != "START_4"[0];
      assert "IN_PV_4"[0] != "START_4"[0];
      assert "IN_PV_4"[3] != "IN_SP_4"[3];
    }
  }

  lemma DecodeSetRate(h: int)
    ensures Decode(Frame(SetRate(h))) == Some(SetRate(h))
  {
    var f := Fixed2(h);
    var body := "OUT_SP_4 " + f;
    assert Frame(SetRate(h)) == body + Tail;
    DecodeWithTail(body);
    assert body[..9] == "OUT_SP_4 ";
    assert body[9..] == f;
    Fixed2RoundTrip(h);
    assert body[0] == 'O';
    assert body[0] != "START_4"[0] && body[0] != "STOP_4"[0] && body[0] != "IN_SP_4"[0] && body[0] != "IN_PV_4"[0];
  }

  /** Different commands give different frames; in particular the set-point
      and present-value queries are told apart. */
  lemma FrameInjective(c: StirrerCommand, d: StirrerCommand)
    ensures Frame(c) == Frame(d) <==> c == d
  {
    DecodeFrame(c);
    DecodeFrame(d);
  }

  /** `set_rate(rate)` prints the rate with exactly two decimals between
      `OUT_SP_4 ` and the tail. */
  lemma SetRateFrame(h: int)
    ensures Frame(SetRate(h)) == "OUT_SP_4 " + Fixed2(h) + " " + [CR] + " " + [LF]
    ensures var s := Fixed2(h); |s| >= 4 && s[|s| - 3] == '.' && IsDigit(s[|s| - 2]) && IsDigit(s[|s| - 1])
  {
    var m: nat := if h < 0 then -h else h;
    var d := NatToDecimal(m / 100);
    var text := Unsigned2(m);
    assert text == d + "." + [DigitChar(m % 100 / 10), DigitChar(m % 10)];
    assert text[|text| - 3] == '.';
    var f := Fixed2(h);
    assert f[|f| - 3..] == text[|text| - 3..];
    assert "OUT_SP_4" + (" " + Fixed2(h)) + Tail == "OUT_SP_4 " + Fixed2(h) + " " + [CR] + " " + [LF];
  }

  /** The command word of a fixed frame. */
  function Word(c: StirrerCommand): (w: string)
    requires !c.SetRate?
    ensures |w| >= 6 && w[|w| - 2..] == "_4"
  {
    match c
    case Start => "START_4"
    case Stop => "STOP_4"
    case GetRateSetPoint => "IN_SP_4"
    case GetRatePresentValue => "IN_PV_4"
  }

  /** A frame without a set-point is its command word and the tail,
      character by character. */
  lemma WordFrame(c: StirrerCommand)
    requires !c.SetRate?
    ensures Frame(c) == Word(c) + Tail
    ensures Frame(c) == Word(c) + " " + [CR] + " " + [LF]
  {
    var w := Word(c);
    assert Frame(c) == w + "" + Tail;
    assert w + "" == w;
  }

  /** The stirrer: the inherited instrument and its queue. */
  datatype Stirrer = Stirrer(base: Instrument.Instrument)

  /** `Ika(port)`. */
  function New(port: string): (s: Stirrer)
    ensures s.base.port == port && s.base.queue == [] && s.base.handled == []
  {
    Stirrer(Instrument.Init(port))
  }

  /** What every command method does: exactly one request at the tail of the
      queue, whose command is the frame as text, with no `parameters` key and
      the caller's callback unchanged. */
  function Submit(s: Stirrer, c: StirrerCommand, callback: Option<Callback>): (t: Stirrer)
    ensures t.base.port == s.base.port && t.base.handled == s.base.handled
    ensures |t.base.queue| == |s.base.queue| + 1 && t.base.queue[..|s.base.queue|] == s.base.queue
    ensures var r := t.base.queue[|s.base.queue|];
            r.callback == callback && r.parameters.None? && r.command.StrV?
  {
    Stirrer(Instrument.QueueRequest(s.base, Instrument.Request(StrV(Frame(c)), None, callback)))
  }

  /** The queued text reads back as the command the method was asked for. */
  lemma SubmitQueuesCommand(s: Stirrer, c: StirrerCommand, callback: Option<Callback>)
    ensures Decode(Submit(s, c, callback).base.queue[|s.base.queue|].command.s) == Some(c)
  {
    DecodeFrame(c);
  }

  /** `start(callback)` queues `START_4 \r \n`. */
  function StartStirrer(s: Stirrer, callback: Option<Callback>): (t: Stirrer)
    ensures t.base.queue == s.base.queue + [Instrument.Request(StrV("START_4 " + [CR] + " " + [LF]), None, callback)]
  {
    WordFrame(Start);
    assert Word(Start) + " " == "START_4 ";
    Submit(s, Start, callback)
  }

  /** `stop(callback)` queues `STOP_4 \r \n`. */
  function StopStirrer(s: Stirrer, callback: Option<Callback>): (t: Stirrer)
    ensures t.base.queue == s.base.queue + [Instrument.Request(StrV("STOP_4 " + [CR] + " " + [LF]), None, callback)]
  {
    WordFrame(Stop);
    assert Word(Stop) + " " == "STOP_4 ";
    Submit(s, Stop, callback)
  }

  /** `set_rate(rate, callback)` queues `OUT_SP_4 <rate with two decimals> \r \n`. */
  function SetRateStirrer(s: Stirrer, h: int, callback: Option<Callback>): (t: Stirrer)
    ensures t.base.queue == s.base.queue + [Instrument.Request(StrV("OUT_SP_4 " + Fixed2(h) + " " + [CR] + " " + [LF]), None, callback)]
  {
    SetRateFrame(h);
    Submit(s, SetRate(h), callback)
  }

  /** `get_rate_SP(callback)` queues `IN_SP_4 \r \n`. */
  function GetRateSetPointStirrer(s: Stirrer, callback: Option<Callback>): (t: Stirrer)
    ensures t.base.queue == s.base.queue + [Instrument.Request(StrV("IN_SP_4 " + [CR] + " " + [LF]), None, callback)]
  {
    WordFrame(GetRateSetPoint);
    assert Word(GetRateSetPoint) + " " == "IN_SP_4 ";
    Submit(s, GetRateSetPoint, callback)
  }

  /** `get_rate_PV(callback)` queues `IN_PV_4 \r \n`. */
  function GetRatePresentValueStirrer(s: Stirrer, callback: Option<Callback>): (t: Stirrer)
    ensures t.base.queue == s.base.queue + [Instrument.Request(StrV("IN_PV_4 " + [CR] + " " + [LF]), None, callback)]
  {
    WordFrame(GetRatePresentValue);
    assert Word(GetRatePresentValue) + " " == "IN_PV_4 ";
    Submit(s, GetRatePresentValue, callback)
  }
}

=== FILE: instrument.dfy ===
/** The abstract serial instrument of src/instruments/instrument.py: a port
    name and an unbounded request queue with one consumer. `_queue_request`
    puts a request at the tail; one iteration of `_process_queue` takes the
    head and hands it to `_process_request`. The worker thread, and the
    blocking `get` on an empty queue, are modelled by a step that does nothing
    while the queue is empty. */
module Instrument {

  import opened Wrappers
  import opened Values

  /** The keyword arguments given to `_queue_request`. `parameters == None`
      means the caller passed no `parameters` key; `callback == None` is a
      `callback=None` argument. */
  datatype Request = Request(command: Value, parameters: Option<Value>, callback: Option<Callback>)

  /** The instrument's state: the port it was built with, the pending requests
      (head first), and every request already handed to `_process_request`, in
      the order it was handed over. */
  datatype Instrument = Instrument(port: string, queue: seq<Request>, handled: seq<Request>)

  /** `Instrument(port)`. */
  function Init(port: string): (s: Instrument)
    ensures s.port == port
    ensures s.queue == [] && s.handled == []
  {
    Instrument(port, [], [])
  }

  /** `_queue_request(**request)`: the request joins the tail, earlier entries
      keep their places, nothing is processed. */
  function QueueRequest(s: Instrument, r: Request): (t: Instrument)
    ensures |t.queue| == |s.queue| + 1
    ensures t.queue[..|s.queue|] == s.queue && t.queue[|s.queue|] == r
    ensures t.handled == s.handled && t.port == s.port
  {
    s.(queue := s.queue + [r])
  }

  /** One iteration of `_process_queue`: the head request leaves the queue and
      is handed, unchanged, to `_process_request`. On an empty queue the worker
      is blocked in `get` and nothing changes. */
  function ProcessQueueStep(s: Instrument): (t: Instrument)
    ensures |s.queue| == 0 ==> t == s
    ensures 0 < |s.queue| ==> t.queue == s.queue[1..] && t.handled == s.handled + [s.queue[0]]
    ensures t.port == s.port
  {
    if |s.queue| == 0 then s
    else s.(queue := s.queue[1..], handled := s.handled + [s.queue[0]])
  }

  /** What happens to the queue over time: a producer puts a request, or the
      worker takes one. Any interleaving of producers and the consumer is a
      sequence of these. */
  datatype Op = Put(request: Request) | Take

  function Apply(s: Instrument, op: Op): Instrument {
    match op
    case Put(r) => QueueRequest(s, r)
    case Take => ProcessQueueStep(s)
  }

  function Run(s: Instrument, ops: seq<Op>): Instrument
    decreases |ops|
  {
    if |ops| == 0 then s else Run(Apply(s, ops[0]), ops[1..])
  }

  /** The requests the producers put, in the order they arrived. */
  function Arrivals(ops: seq<Op>): seq<Request>
    decreases |ops|
  {
    if |ops| == 0 then []
    else match ops[0]
      case Put(r) => [r] + Arrivals(ops[1..])
      case Take => Arrivals(ops[1..])
  }

  /** The queue is FIFO and loses nothing: whatever the interleaving, the
      requests already processed followed by those still queued are exactly
      the requests in arrival order. So each request is processed at most once,
      never before one that arrived earlier. */
  lemma {:induction false} RunIsFifo(s: Instrument, ops: seq<Op>)
    ensures Run(s, ops).handled + Run(s, ops).queue == s.handled + s.queue + Arrivals(ops)
    ensures Run(s, ops).port == s.port
    decreases |ops|
  {
    if |ops| > 0 {
      var t := Apply(s, ops[0]);
      RunIsFifo(t, ops[1..]);
      match ops[0]
      case Put(r) =>
        assert t.handled + t.queue == s.handled + s.queue + [r];
      case Take =>
        if |s.queue| > 0 {
          assert s.queue == [s.queue[0]] + s.queue[1..];
        }
    }
  }

  /** `n` worker iterations with no producer in between. */
  function Takes(n: nat): (ops: seq<Op>)
    ensures |ops| == n && Arrivals(ops) == []
  {
    if n == 0 then [] else [Take] + Takes(n - 1)
  }

  /** Requests put one after another and then drained: the worker hands them
      to `_process_request` in exactly the order they were put, each once, and
      leaves the queue empty. */
  lemma {:induction false} DrainInOrder(s: Instrument, rs: seq<Request>)
    requires s.queue == []
    ensures var t := Run(s, Puts(rs) + Takes(|rs|));
            t.queue == [] && t.handled == s.handled + rs
  {
    RunAppend(s, Puts(rs), Takes(|rs|));
    RunPutsQueues(s, rs);
    assert s.queue + rs == rs;
    RunTakesDrains(s.(queue := rs), |rs|);
  }

  /** Putting each request of `rs` in turn. */
  function Puts(rs: seq<Request>): (ops: seq<Op>)
    ensures |ops| == |rs| && Arrivals(ops) == rs
    ensures forall i | 0 <= i < |ops| :: ops[i] == Put(rs[i])
  {
    if |rs| == 0 then [] else [Put(rs[0])] + Puts(rs[1..])
  }

  lemma {:induction false} RunAppend(s: Instrument, a: seq<Op>, b: seq<Op>)
    ensures Run(s, a + b) == Run(Run(s, a), b)
    decreases |a|
  {
    if |a| > 0 {
      assert (a + b)[0] == a[0];
      assert (a + b)[1..] == a[1..] + b;
      RunAppend(Apply(s, a[0]), a[1..], b);
      calc {
        Run(s, a + b);
        Run(Apply(s, a[0]), a[1..] + b);
        Run(Run(Apply(s, a[0]), a[1..]), b);
        Run(Run(s, a), b);
      }
    } else {
      assert a + b == b;
    }
  }

  lemma {:induction false} RunPutsQueues(s: Instrument, rs: seq<Request>)
    ensures Run(s, Puts(rs)) == s.(queue := s.queue + rs)
    decreases |rs|
  {
    if |rs| > 0 {
      var t := QueueRequest(s, rs[0]);
      assert Puts(rs)[0] == Put(rs[0]);
      assert Puts(rs)[1..] == Puts(rs[1..]);
      assert Run(s, Puts(rs)) == Run(t, Puts(rs[1..]));
      RunPutsQueues(t, rs[1..]);
      assert t.queue + rs[1..] == s.queue + rs;
    }
  }

  lemma {:induction false} RunTakesDrains(s: Instrument, n: nat)
    requires n == |s.queue|
    ensures Run(s, Takes(n)) == s.(queue := [], handled := s.handled + s.queue)
    decreases n
  {
    if n > 0 {
      var t := ProcessQueueStep(s);
      assert Takes(n)[0] == Take && Takes(n)[1..] == Takes(n - 1);
      RunTakesDrains(t, n - 1);
      assert s.handled + [s.queue[0]] + s.queue[1..] == s.handled + s.queue;
    }
  }
}

=== FILE: ismatec_commands.dfy ===
/** The address-parameterised Ismatec frames of src/instruments/ismatec/commands.py:
    the `formatter` decorator turns a command letter into
    `f"{id}{cmd}\r".encode('ascii')`, and `start` / `stop` are the letters
    H and I. */
module IsmatecCommands {

  import opened Wrappers
  import opened Text
  import IsmatecFrames

  /** `formatter(func)(id)` where `func(id)` returns `cmd`: the pump address in
      decimal, the command, and one CR. */
  function Formatter(id: int, cmd: string): (b: seq<byte>)
    requires IsAscii(cmd)
    ensures |b| == |IntToDecimal(id)| + |cmd| + 1
    ensures Chars(b)[..|IntToDecimal(id)|] == IntToDecimal(id)
    ensures Chars(b)[|IntToDecimal(id)|..|b| - 1] == cmd
    ensures b[|b| - 1] == 13
  {
    var s := IntToDecimal(id) + cmd + [CR];
    AsciiRoundTrip(s);
    assert s[..|IntToDecimal(id)|] == IntToDecimal(id);
    assert s[|IntToDecimal(id)|..|s| - 1] == cmd;
    Ascii(s)
  }

  /** `start(id)`: the address, `H`, CR. */
  function Start(id: int): (b: seq<byte>)
    ensures Chars(b) == IntToDecimal(id) + "H" + [CR]
  {
    AsciiRoundTrip(IntToDecimal(id) + "H" + [CR]);
    Formatter(id, "H")
  }

  /** `stop(id)`: the address, `I`, CR. */
  function Stop(id: int): (b: seq<byte>)
    ensures Chars(b) == IntToDecimal(id) + "I" + [CR]
  {
    AsciiRoundTrip(IntToDecimal(id) + "I" + [CR]);
    Formatter(id, "I")
  }

  /** The length of the optionally signed numeral that opens `s`. */
  function NumeralLength(s: string): (n: nat)
    ensures n <= |s|
  {
    if 0 < |s| && s[0] == '-' then 1 + DigitRun(s[1..]) else DigitRun(s)
  }

  /** Reads an addressed frame: the leading numeral is the address, what
      follows up to the final CR is the command. */
  function ParseAddressed(b: seq<byte>): Option<(int, string)> {
    var s := Chars(b);
    if |s| == 0 || s[|s| - 1] != CR then None
    else
      var body := s[..|s| - 1];
      var k := NumeralLength(body);
      match ParseInt(body[..k])
      case None => None
      case Some(id) => Some((id, body[k..]))
  }

  /** The formatter loses nothing: the address and the command can be read
      back from the frame, as long as the command does not itself begin with a
      digit (which would run into the address). */
  lemma FormatterRoundTrip(id: int, cmd: string)
    requires IsAscii(cmd)
    requires |cmd| == 0 || !IsDigit(cmd[0])
    ensures ParseAddressed(Formatter(id, cmd)) == Some((id, cmd))
  {
    var a := IntToDecimal(id);
    var s := a + cmd + [CR];
    AsciiRoundTrip(s);
    assert Chars(Formatter(id, cmd)) == s;
    SplitFrame(a, cmd);
    IntRoundTrip(id);
    NumeralOfAddress(id, cmd);
  }

  /** The parts of `a + cmd + CR` as `ParseAddressed` cuts them. */
  lemma SplitFrame(a: string, cmd: string)
    ensures var s := a + cmd + [CR];
            && 0 < |s| && s[|s| - 1] == CR
            && s[..|s| - 1] == a + cmd
            && (a + cmd)[..|a|] == a
            && (a + cmd)[|a|..] == cmd
  {
    var s := a + cmd + [CR];
    assert s[..|s| - 1] == a + cmd;
    assert (a + cmd)[..|a|] == a;
    assert (a + cmd)[|a|..] == cmd;
  }

  /** The numeral that opens a frame body is exactly the printed address. */
  lemma NumeralOfAddress(id: int, cmd: string)
    requires |cmd| == 0 || !IsDigit(cmd[0])
    ensures NumeralLength(IntToDecimal(id) + cmd) == |IntToDecimal(id)|
  {
    var a := IntToDecimal(id);
    var body := a + cmd;
    if id < 0 {
      var d := NatToDecimal(-id);
      assert a == "-" + d;
      assert body[0] == '-';
      assert body[1..] == d + cmd;
      DigitRunOfNumeral(d, cmd);
    } else {
      var d := NatToDecimal(id);
      assert a == d;
      DigitRunOfNumeral(d, cmd);
      if 0 < |body| {
        assert body[0] == d[0];
        assert IsDigit(d[0]);
      }
    }
  }

  /** No address makes the start and stop frames coincide. */
  lemma StartDiffersFromStop(id: int)
    ensures Start(id) != Stop(id)
  {
    FormatterRoundTrip(id, "H");
    FormatterRoundTrip(id, "I");
  }

  /** Every frame opens with the address digits and closes with its only CR. */
  lemma FramesAreAddressed(id: int)
    ensures Chars(Start(id))[..|IntToDecimal(id)|] == IntToDecimal(id)
    ensures Chars(Stop(id))[..|IntToDecimal(id)|] == IntToDecimal(id)
    ensures EndsWithSingleCR(Start(id)) && EndsWithSingleCR(Stop(id))
  {
    var a := IntToDecimal(id);
    assert CR !in a + "H" by {
      assert forall i | 0 <= i < |a + "H"| :: (a + "H")[i] as int < 128;
    }
    assert CR !in a + "I" by {
      assert forall i | 0 <= i < |a + "I"| :: (a + "I")[i] as int < 128;
    }
    CRTerminated(a + "H");
    CRTerminated(a + "I");
  }

  /** At address 1 the formatter produces the literal frames the address-1
      drivers write: `start(1)` is `1H\r`, `stop(1)` is `1I\r`. */
  lemma AddressOneMatchesDrivers()
    ensures Start(1) == IsmatecFrames.Encode(IsmatecFrames.Start)
    ensures Stop(1) == IsmatecFrames.Encode(IsmatecFrames.Stop)
  {
    assert IntToDecimal(1) == "1";
    assert IntToDecimal(1) + "H" + [CR] == "1H" + [CR];
    assert IntToDecimal(1) + "I" + [CR] == "1I" + [CR];
  }
}

=== FILE: ismatec_deltav.dfy ===
/** The DeltaV routing of src/project/ismatec_deltav.py: the subscriber's
    callback `run_command(name, value)` starts the address-3 pump when the
    `START_CONTROLLER` node turns truthy and stops it when it turns falsy;
    every other node is ignored. */
module IsmatecDeltaV {

  import opened Wrappers
  import opened Text
  import opened Values
  import opened Dicts
  import IsmatecPump
  import Subscriber

  const StartController := "START_CONTROLLER"

  /** The pump method `run_command` called. */
  datatype Action = Started | Stopped

  datatype Outcome = Outcome(pump: IsmatecPump.Pump, actions: seq<Action>)

  /** `run_command(name, value)` on the module's pump. */
  function RunCommand(p: IsmatecPump.Pump, name: string, value: Value): (o: Outcome)
    ensures name != StartController ==> o == Outcome(p, [])
    ensures name == StartController && Truthy(value) ==>
              o.actions == [Started] && o.pump == IsmatecPump.Start(p).pump
    ensures name == StartController && !Truthy(value) ==>
              o.actions == [Stopped] && o.pump == IsmatecPump.Stop(p).pump
  {
    if name == StartController then
      if Truthy(value) then Outcome(IsmatecPump.Start(p).pump, [Started])
      else Outcome(IsmatecPump.Stop(p).pump, [Stopped])
    else Outcome(p, [])
  }

  /** No call both starts and stops the pump; at most one frame reaches the
      line, and it is `3H\r` exactly when the pump was started. */
  lemma NeverBoth(p: IsmatecPump.Pump, name: string, value: Value)
    ensures var o := RunCommand(p, name, value);
            && !(Started in o.actions && Stopped in o.actions)
            && |o.actions| <= 1
            && |o.pump.writes| == |p.writes| + |o.actions|
            && o.pump.writes[..|p.writes|] == p.writes
            && (Started in o.actions <==> (|o.actions| == 1 && o.pump.writes[|p.writes|] == IsmatecPump.StartFrame))
  {
    IsmatecPump.FramesAreAddressThree(p);
  }

  /** End to end: a data change on the node the subscriber binds to
      `START_CONTROLLER`, delivered to `run_command`, writes `3H\r` to the pump
      when the new value is truthy and `3I\r` otherwise. */
  lemma ControllerChangeDrivesPump(s: Subscriber.Subscriber, p: IsmatecPump.Pump, v: Value)
    requires WellFormed(s.nodeMap) && Distinct(Dicts.Values(s.nodeMap))
    requires StartController in Keys(s.nodeMap) && s.callback.Some?
    ensures var r := Subscriber.DatachangeNotification(s, Get(s.nodeMap, StartController).value, v);
            && r.Some?
            && var c := r.value.calls[|s.calls|];
               var o := RunCommand(p, c.name, c.value);
               o.pump.writes == p.writes + [if Truthy(v) then IsmatecPump.StartFrame else IsmatecPump.StopFrame]
  {
    Subscriber.NotificationNamesNode(s, StartController, v);
    var r := Subscriber.DatachangeNotification(s, Get(s.nodeMap, StartController).value, v);
    var c := r.value.calls[|s.calls|];
    assert c == Subscriber.Change(s.callback.value, StartController, v);
    assert c.name == StartController && c.value == v;
  }
}

=== FILE: ismatec_direct.dfy ===
/** The unqueued Ismatec pump drivers of
    src/instruments/ismatec/ismatec_synchronous.py and
    src/instruments/ismatec/ismatec_asynchronous.py. The constructor opens
    the line and writes the two set-up frames; every command method writes
    its frame to the line at once. The command methods of the two files are
    worded differently in places but write the same bytes, so one model
    serves both. The asynchronous file does not import `Serial`, so its
    constructor, as it stands, stops with a NameError before writing; the
    model describes the writes the constructor is written to make. */
module IsmatecDirect {

  import opened Wrappers
  import opened Text
  import opened IsmatecFrames
  import opened Values
  import IsmatecQueue
  import Instrument

  /** The serial line the driver holds: the port it was opened on and the
      frames written to it so far. */
  datatype Line = Line(port: string, writes: seq<seq<byte>>)

  /** `Ismatec(port)`, which runs `_connect(port)`: `@1\r` then `1M\r`. */
  function Open(port: string): (l: Line)
    ensures l.port == port
    ensures |l.writes| == 2
    ensures Chars(l.writes[0]) == "@1" + [CR] && Chars(l.writes[1]) == "1M" + [CR]
  {
    AsciiRoundTrip("@1" + [CR]);
    AsciiRoundTrip("1M" + [CR]);
    Line(port, ConnectFrames)
  }

  /** `self._ser.write(frame)`. */
  function Write(l: Line, frame: seq<byte>): Line {
    l.(writes := l.writes + [frame])
  }

  /** A command method: exactly one frame is appended to the line, and nothing
      else changes. */
  function Send(l: Line, c: PumpCommand): (m: Line)
    ensures m.port == l.port
    ensures |m.writes| == |l.writes| + 1 && m.writes[..|l.writes|] == l.writes
  {
    Write(l, Encode(c))
  }

  /** `start()` writes `1H\r`. */
  function Start(l: Line): (m: Line)
    ensures m.writes == l.writes + [Ascii("1H" + [CR])] && m.port == l.port
  {
    Send(l, PumpCommand.Start)
  }

  /** `stop()` writes `1I\r`. */
  function Stop(l: Line): (m: Line)
    ensures m.writes == l.writes + [Ascii("1I" + [CR])] && m.port == l.port
  {
    Send(l, PumpCommand.Stop)
  }

  /** `set_flowrate(val)` writes `1S`, the rate zero-filled to at least five
      characters, and CR. */
  function SetFlowrate(l: Line, v: int): (m: Line)
    ensures IsAscii("1S" + ZFill(IntToDecimal(v), 5) + [CR])
    ensures m.writes == l.writes + [Ascii("1S" + ZFill(IntToDecimal(v), 5) + [CR])] && m.port == l.port
  {
    ZFillIntRoundTrip(v, 5);
    Send(l, PumpCommand.SetFlowrate(v))
  }

  /** `get_flowrate()` writes `1S\r`. */
  function GetFlowrate(l: Line): (m: Line)
    ensures m.writes == l.writes + [Ascii("1S" + [CR])] && m.port == l.port
  {
    Send(l, PumpCommand.GetFlowrate)
  }

  /** The last frame a command method writes reads back as that command. */
  lemma SendWritesCommand(l: Line, c: PumpCommand)
    ensures Decode(Send(l, c).writes[|l.writes|]) == Some(c)
  {
    DecodeEncode(c);
  }

  /** Writing frames one after another: they reach the line in order. */
  function WriteAll(l: Line, frames: seq<seq<byte>>): (m: Line)
    ensures m.port == l.port
    ensures m.writes == l.writes + frames
    decreases |frames|
  {
    if |frames| == 0 then
      assert l.writes + frames == l.writes;
      l
    else
      assert l.writes + frames == l.writes + [frames[0]] + frames[1..];
      WriteAll(Write(l, frames[0]), frames[1..])
  }

  /** A session on the line: the driver is built, then the command methods
      are called in turn. */
  function Session(port: string, cs: seq<PumpCommand>): Line {
    WriteAll(Open(port), Frames(cs))
  }

  /** The frames of a session read back as its commands, in call order,
      after the two set-up frames. */
  lemma SessionReadsBack(port: string, cs: seq<PumpCommand>)
    ensures var l := Session(port, cs);
            && |l.writes| == 2 + |cs|
            && l.writes[..2] == ConnectFrames
            && forall i | 0 <= i < |cs| :: Decode(l.writes[2 + i]) == Some(cs[i])
  {
    var l := Session(port, cs);
    var fs := Frames(cs);
    assert l.writes == ConnectFrames + fs;
    assert l.writes[..2] == ConnectFrames;
    forall i | 0 <= i < |cs|
      ensures Decode(l.writes[2 + i]) == Some(cs[i])
    {
      assert l.writes[2 + i] == fs[i];
      DecodeEncode(cs[i]);
    }
  }

  /** The queued driver and the direct drivers put the same bytes on the
      line: the i-th request the queued driver enqueues carries exactly the
      frame the direct driver writes for the i-th command. */
  lemma QueuedAndDirectAgree(p: IsmatecQueue.Pump, port: string, cs: seq<PumpCommand>, callback: Option<Callback>)
    requires p.base.queue == []
    ensures var q := IsmatecQueue.SubmitAll(p, cs, callback);
            var l := Session(port, cs);
            && |q.base.queue| == |cs| == |l.writes| - 2
            && forall i | 0 <= i < |cs| :: q.base.queue[i].command == BytesV(l.writes[2 + i])
  {
    FramesAgree(IsmatecQueue.SubmitAll(p, cs, callback).base.queue, Session(port, cs).writes, Frames(cs), callback);
  }

  lemma FramesAgree(queue: seq<Instrument.Request>, writes: seq<seq<byte>>, fs: seq<seq<byte>>, callback: Option<Callback>)
    requires queue == IsmatecQueue.Requests(fs, callback)
    requires writes == ConnectFrames + fs
    ensures |queue| == |fs| == |writes| - 2
    ensures forall i | 0 <= i < |fs| :: queue[i].command == BytesV(writes[2 + i])
  {
    forall i | 0 <= i < |fs|
      ensures queue[i].command == BytesV(writes[2 + i])
    {
      assert writes[2 + i] == fs[i];
    }
  }
}

=== FILE: ismatec_frames.dfy ===
/** The Ismatec pump protocol as the pump drivers at address 1 speak it
    (src/instruments/ismatec/ismatec_queue.py, ismatec_synchronous.py and
    ismatec_asynchronous.py): two set-up frames, then one ASCII frame per
    command, each closed by a carriage return. A set-point travels as
    `str(int(val)).zfill(5)`. */
module IsmatecFrames {

  import opened Wrappers
  import opened Text

  /** The four pump commands the drivers send. The flow rate is the integer
      the drivers obtain with `int(val)`. */
  datatype PumpCommand = Start | Stop | SetFlowrate(rpm: int) | GetFlowrate

  /** `"@1\r"` then `"1M\r"`, written by `connect` / `_connect` in this order. */
  const ConnectFrames: seq<seq<byte>> := [Ascii("@1" + [CR]), Ascii("1M" + [CR])]

  /** The set-point field: the decimal digits of the rate, sign first, padded
      with zeros to at least five characters. */
  function RateField(v: int): (f: string)
    ensures IsAscii(f) && CR !in f
    ensures ParseInt(f) == Some(v)
    ensures 5 <= |f|
  {
    ZFillIntRoundTrip(v, 5);
    var f := ZFill(IntToDecimal(v), 5);
    assert CR !in f by {
      assert forall i | 0 <= i < |f| :: f[i] as int < 128;
    }
    f
  }

  /** The text of a command frame, before `.encode('ascii')`. */
  function FrameText(c: PumpCommand): (s: string)
    ensures IsAscii(s)
    ensures 3 <= |s| && s[|s| - 1] == CR && CR !in s[..|s| - 1]
    ensures s[..2] == "1H" || s[..2] == "1I" || s[..2] == "1S"
  {
    match c
    case Start => "1H" + [CR]
    case Stop => "1I" + [CR]
    case SetFlowrate(v) =>
      var f := RateField(v);
      var s := "1S" + f + [CR];
      assert s[..|s| - 1] == "1S" + f;
      s
    case GetFlowrate => "1S" + [CR]
  }

  /** The bytes written or queued for a command. */
  function Encode(c: PumpCommand): (b: seq<byte>)
    ensures EndsWithSingleCR(b)
    ensures b[0] == '1' as byte
  {
    var s := FrameText(c);
    var body := s[..|s| - 1];
    CRTerminated(body);
    assert s == body + [CR];
    assert s[0] == s[..2][0] == '1';
    Ascii(s)
  }

  /** Reads a frame back into the command it carries. */
  function Decode(b: seq<byte>): (r: Option<PumpCommand>)
  {
    var s := Chars(b);
    if s == "1H" + [CR] then Some(Start)
    else if s == "1I" + [CR] then Some(Stop)
    else if s == "1S" + [CR] then Some(GetFlowrate)
    else if 3 < |s| && s[..2] == "1S" && s[|s| - 1] == CR && ParseInt(s[2..|s| - 1]).Some? then
      Some(SetFlowrate(ParseInt(s[2..|s| - 1]).value))
    else None
  }

  /** Every command frame reads back as the command it was built from. */
  lemma DecodeEncode(c: PumpCommand)
    ensures Decode(Encode(c)) == Some(c)
  {
    var s := FrameText(c);
    AsciiRoundTrip(s);
    match c
    case Start =>
    case Stop =>
      assert s[1] != ("1H" + [CR])[1];
    case GetFlowrate =>
      assert s[1] != ("1H" + [CR])[1] && s[1] != ("1I" + [CR])[1];
    case SetFlowrate(v) =>
      DecodeSetFlowrate(v);
  }

  lemma DecodeSetFlowrate(v: int)
    ensures Decode(Encode(SetFlowrate(v))) == Some(SetFlowrate(v))
  {
    var s := FrameText(SetFlowrate(v));
    AsciiRoundTrip(s);
    var f := RateField(v);
    assert s == "1S" + f + [CR];
    assert s[1] == 'S';
    assert |s| > 3;
    assert s[..2] == "1S";
    assert s[2..|s| - 1] == f;
  }

  /** Different commands give different frames. */
  lemma EncodeInjective(c: PumpCommand, d: PumpCommand)
    requires Encode(c) == Encode(d)
    ensures c == d
  {
    DecodeEncode(c);
    DecodeEncode(d);
  }

  /** The frames of a run of commands, one per command. */
  function Frames(cs: seq<PumpCommand>): (fs: seq<seq<byte>>)
    ensures |fs| == |cs|
    ensures forall i | 0 <= i < |cs| :: fs[i] == Encode(cs[i])
  {
    seq(|cs|, i requires 0 <= i < |cs| => Encode(cs[i]))
  }

  /** Each frame of a run reads back as the command that produced it. */
  lemma FramesDecode(cs: seq<PumpCommand>)
    ensures forall i | 0 <= i < |cs| :: Decode(Frames(cs)[i]) == Some(cs[i])
  {
    forall i | 0 <= i < |cs|
      ensures Decode(Frames(cs)[i]) == Some(cs[i])
    {
      DecodeEncode(cs[i]);
    }
  }

  /** For a rate in 0..99999 the set-point frame is exactly 8 bytes, and its
      five digits read back as the rate. */
  lemma SetFlowrateFrameWidth(v: int)
    requires 0 <= v <= 99999
    ensures |Encode(SetFlowrate(v))| == 8
    ensures var s := Chars(Encode(SetFlowrate(v)));
            AllDigits(s[2..7]) && DecimalValue(s[2..7]) == v
  {
    assert Pow10(5) == 100000;
    ZFillWidth(v, 5);
    var f := RateField(v);
    var s := FrameText(SetFlowrate(v));
    assert s == "1S" + f + [CR];
    assert s[2..7] == f;
    AsciiRoundTrip(s);
  }

  /** The read-back request carries no set-point: its frame is the address,
      the letter S and CR, and no set-point frame equals it. */
  lemma GetFlowrateHasNoPayload(v: int)
    ensures |Encode(GetFlowrate)| == 3
    ensures Encode(GetFlowrate) != Encode(SetFlowrate(v))
  {
    if Encode(GetFlowrate) == Encode(SetFlowrate(v)) {
      EncodeInjective(GetFlowrate, SetFlowrate(v));
    }
  }
}

=== FILE: ismatec_opc_map.dfy ===
/** The request records of src/instruments/ismatec/opc_map.py: each OPC
    command becomes a dict with a `command` key naming a pump method and, for
    the flow rate, a `parameters` dict whose `args` key holds the value as it
    was given. */
module IsmatecOpcMap {

  import opened Wrappers
  import opened Values
  import opened Dicts
  import IsmatecFrames
  import IsmatecQueue

  /** The three commands the map builds records for. */
  datatype MapCommand = StartCmd | StopCmd | SetFlowrateCmd(value: Value)

  /** `start()`: a record with a `command` key and no `parameters` key. */
  function Start(): (r: Value)
    ensures r.DictV? && Keys(r.entries) == ["command"]
    ensures Get(r.entries, "command") == Some(StrV("start"))
    ensures Get(r.entries, "parameters").None?
  {
    DictV([("command", StrV("start"))])
  }

  /** `stop()`: a record with a `command` key and no `parameters` key. */
  function Stop(): (r: Value)
    ensures r.DictV? && Keys(r.entries) == ["command"]
    ensures Get(r.entries, "command") == Some(StrV("stop"))
    ensures Get(r.entries, "parameters").None?
  {
    DictV([("command", StrV("stop"))])
  }

  /** `set_flowrate(value)`: the parameters are `{"args": value}`; the
      parenthesised `(value)` is not a tuple, so the value is stored as is. */
  function SetFlowrate(v: Value): (r: Value)
    ensures r.DictV? && Keys(r.entries) == ["command", "parameters"]
    ensures Get(r.entries, "command") == Some(StrV("set_flowrate"))
    ensures Get(r.entries, "parameters") == Some(DictV([("args", v)]))
    ensures Get(r.entries, "parameters").value != DictV([("args", SeqV([v]))])
  {
    var r := DictV([("command", StrV("set_flowrate")), ("parameters", DictV([("args", v)]))]);
    assert Keys(r.entries) == ["command", "parameters"];
    assert [v] != [SeqV([v])] by {
      assert [v][0] == v;
      assert SeqV([v]) != v;
    }
    r
  }

  /** The record for a command. */
  function Record(c: MapCommand): Value {
    match c
    case StartCmd => Start()
    case StopCmd => Stop()
    case SetFlowrateCmd(v) => SetFlowrate(v)
  }

  /** Reads a record back: the command name, and for `set_flowrate` the
      `args` entry of the parameters. */
  function Read(r: Value): (c: Option<MapCommand>)
    ensures c.Some? ==> r.DictV?
  {
    if !r.DictV? then None
    else
      var command := Get(r.entries, "command");
      var parameters := Get(r.entries, "parameters");
      if command == Some(StrV("start")) && parameters.None? then Some(StartCmd)
      else if command == Some(StrV("stop")) && parameters.None? then Some(StopCmd)
      else if command == Some(StrV("set_flowrate")) && parameters.Some? && parameters.value.DictV? then
        match Get(parameters.value.entries, "args")
        case Some(v) => Some(SetFlowrateCmd(v))
        case None => None
      else None
  }

  /** Every record reads back as the command it was built for, so the three
      builders lose nothing and no two commands share a record. */
  lemma ReadRecord(c: MapCommand)
    ensures Read(Record(c)) == Some(c)
  {
    if c.SetFlowrateCmd? {
      assert Get([("args", c.value)], "args") == Some(c.value);
    }
  }

  lemma RecordInjective(c: MapCommand, d: MapCommand)
    ensures Record(c) == Record(d) <==> c == d
  {
    if Record(c) == Record(d) {
      ReadRecord(c);
      ReadRecord(d);
    }
  }

  /** The command of every record names a method of the pump driver. */
  lemma CommandsNameDriverMethods(c: MapCommand)
    ensures Get(Record(c).entries, "command").Some?
    ensures Get(Record(c).entries, "command").value.StrV?
    ensures exists pc: IsmatecFrames.PumpCommand :: IsmatecQueue.MethodName(pc) == Get(Record(c).entries, "command").value.s
  {
    match c
    case StartCmd => assert IsmatecQueue.MethodName(IsmatecFrames.Start) == "start";
    case StopCmd => assert IsmatecQueue.MethodName(IsmatecFrames.Stop) == "stop";
    case SetFlowrateCmd(_) => assert IsmatecQueue.MethodName(IsmatecFrames.SetFlowrate(0)) == "set_flowrate";
  }
}

=== FILE: ismatec_pump.dfy ===
/** The OPC-facing Ismatec pump of src/instruments/ismatec/ismatec.py: a pump at
    serial address 3 with a fixed description, a measurement snapshot that a
    background loop replaces every tick, and command methods that return their
    result to the caller (the service layer) instead of queueing it. */
module IsmatecPump {

  import opened Wrappers
  import opened Text
  import opened Values
  import opened Dicts
  import Instrument
  import IsmatecCommands

  /** The pump: the inherited instrument, `_about`, `_data`, and the frames
      written to the serial line. */
  datatype Pump = Pump(base: Instrument.Instrument, about: Dict<string, Value>, data: Dict<string, Value>, writes: seq<seq<byte>>)

  /** What a command method returns, with the pump after the call. */
  datatype Reply = Reply(pump: Pump, result: Value)

  /** `Ismatec(config_file)`: the base instrument built on the argument, the
      description `{"name": "Ismatec", "parameters": "rpm"}` and the snapshot
      `{"measurement": 0}`. */
  function New(configFile: string): (p: Pump)
    ensures p.base == Instrument.Init(configFile) && p.writes == []
    ensures WellFormed(p.about) && Keys(p.about) == ["name", "parameters"]
    ensures Get(p.about, "name") == Some(StrV("Ismatec")) && Get(p.about, "parameters") == Some(StrV("rpm"))
    ensures WellFormed(p.data) && Keys(p.data) == ["measurement"]
    ensures Get(p.data, "measurement") == Some(IntV(0))
  {
    var about := [("name", StrV("Ismatec")), ("parameters", StrV("rpm"))];
    assert Keys(about) == ["name", "parameters"];
    Pump(Instrument.Init(configFile), about, [("measurement", IntV(0))], [])
  }

  /** One tick of `_update_data`: `_data` becomes a new one-entry record
      holding the sample; nothing else changes. The sample, `random()` in the
      source, is an input. */
  function UpdateData(p: Pump, sample: Value): (q: Pump)
    ensures WellFormed(q.data) && Keys(q.data) == ["measurement"]
    ensures Get(q.data, "measurement") == Some(sample)
    ensures q == p.(data := q.data)
  {
    p.(data := [("measurement", sample)])
  }

  /** The snapshot is replaced as a whole: what `_data` held before a tick,
      whatever keys it had, has no influence on what it holds after. */
  lemma UpdateDataReplacesWhole(p: Pump, old1: Dict<string, Value>, old2: Dict<string, Value>, sample: Value)
    ensures UpdateData(p.(data := old1), sample) == UpdateData(p.(data := old2), sample)
    ensures forall k | k != "measurement" :: Get(UpdateData(p, sample).data, k).None?
  {
  }

  /** The loop of `_update_data` over a run of samples, one tick each. */
  function Ticks(p: Pump, samples: seq<Value>): Pump
    decreases |samples|
  {
    if |samples| == 0 then p else Ticks(UpdateData(p, samples[0]), samples[1..])
  }

  /** However many ticks have run, `_data` holds only the latest sample, and
      the loop touches nothing but `_data`. */
  lemma {:induction false} TicksKeepLatest(p: Pump, samples: seq<Value>)
    requires 0 < |samples|
    ensures Ticks(p, samples) == UpdateData(p, samples[|samples| - 1])
    decreases |samples|
  {
    if |samples| > 1 {
      TicksKeepLatest(UpdateData(p, samples[0]), samples[1..]);
      assert samples[1..][|samples[1..]| - 1] == samples[|samples| - 1];
    }
  }

  /** The frames `start` and `stop` write: `3H\r` and `3I\r`. */
  const StartFrame: seq<byte> := Ascii("3H" + [CR])
  const StopFrame: seq<byte> := Ascii("3I" + [CR])

  /** `start()`: writes `3H\r` and returns True. */
  function Start(p: Pump): (r: Reply)
    ensures r.result == BoolV(true)
    ensures r.pump == p.(writes := p.writes + [StartFrame])
  {
    Reply(p.(writes := p.writes + [StartFrame]), BoolV(true))
  }

  /** `stop()`: writes `3I\r` and returns True. */
  function Stop(p: Pump): (r: Reply)
    ensures r.result == BoolV(true)
    ensures r.pump == p.(writes := p.writes + [StopFrame])
  {
    Reply(p.(writes := p.writes + [StopFrame]), BoolV(true))
  }

  /** `set_flowrate(val)`: hands the value back and touches nothing. */
  function SetFlowrate(p: Pump, v: Value): (r: Reply)
    ensures r.result == v && r.pump == p
  {
    Reply(p, v)
  }

  /** `get_flowrate()`: always 3, whatever the pump's state. */
  function GetFlowrate(p: Pump): (r: Reply)
    ensures r.result == IntV(3) && r.pump == p
  {
    Reply(p, IntV(3))
  }

  /** The frames this pump writes are those the `formatter` of commands.py
      builds for address 3, and the two differ. */
  lemma FramesAreAddressThree(p: Pump)
    ensures Start(p).pump.writes[|p.writes|] == IsmatecCommands.Start(3)
    ensures Stop(p).pump.writes[|p.writes|] == IsmatecCommands.Stop(3)
    ensures Start(p).pump.writes[|p.writes|] != Stop(p).pump.writes[|p.writes|]
  {
    assert IntToDecimal(3) == "3";
    assert IntToDecimal(3) + "H" + [CR] == "3H" + [CR];
    assert IntToDecimal(3) + "I" + [CR] == "3I" + [CR];
    IsmatecCommands.StartDiffersFromStop(3);
  }

  /** Both start and stop report success with a truthy result, so a service
      that forwards only truthy results always forwards them; set_flowrate's
      result is truthy exactly when its argument is. */
  lemma ResultsTruthiness(p: Pump, v: Value)
    ensures Truthy(Start(p).result) && Truthy(Stop(p).result) && Truthy(GetFlowrate(p).result)
    ensures Truthy(SetFlowrate(p, v).result) <==> Truthy(v)
  {
  }
}

=== FILE: ismatec_queue.dfy ===
/** The queued Ismatec pump driver of src/instruments/ismatec/ismatec_queue.py:
    an instrument whose `connect` writes the two set-up frames straight to the
    line and whose command methods only encode a frame and put it on the
    instrument queue, with the caller's callback and no `parameters` key. */
module IsmatecQueue {

  import opened Wrappers
  import opened Text
  import opened Values
  import opened IsmatecFrames
  import Instrument

  /** The driver: the inherited instrument and the frames written to the line. */
  datatype Pump = Pump(base: Instrument.Instrument, writes: seq<seq<byte>>)

  /** `Ismatec(port)`: the base instrument, nothing written yet. */
  function New(port: string): (p: Pump)
    ensures p.base.port == port && p.base.queue == [] && p.base.handled == []
    ensures p.writes == []
  {
    Pump(Instrument.Init(port), [])
  }

  /** `connect()`: `@1\r` then `1M\r` go to the line, in that order; the
      queue is not involved. */
  function Connect(p: Pump): (q: Pump)
    ensures q.base == p.base
    ensures |q.writes| == |p.writes| + 2 && q.writes[..|p.writes|] == p.writes
    ensures Chars(q.writes[|p.writes|]) == "@1" + [CR]
    ensures Chars(q.writes[|p.writes| + 1]) == "1M" + [CR]
  {
    AsciiRoundTrip("@1" + [CR]);
    AsciiRoundTrip("1M" + [CR]);
    Pump(p.base, p.writes + ConnectFrames)
  }

  /** The name each command is sent by: the driver method defined for it. */
  function MethodName(c: PumpCommand): string {
    match c
    case Start => "start"
    case Stop => "stop"
    case SetFlowrate(_) => "set_flowrate"
    case GetFlowrate => "get_flowrate"
  }

  /** `_queue_request(command=frame, callback=callback)`. */
  function Enqueue(p: Pump, frame: seq<byte>, callback: Option<Callback>): Pump {
    p.(base := Instrument.QueueRequest(p.base, Instrument.Request(BytesV(frame), None, callback)))
  }

  /** What every command method does: one request at the tail of the queue,
      carrying the command's frame and the caller's callback unchanged;
      nothing is written to the line. */
  function Submit(p: Pump, c: PumpCommand, callback: Option<Callback>): (q: Pump)
    ensures q.writes == p.writes
    ensures q.base.port == p.base.port && q.base.handled == p.base.handled
    ensures |q.base.queue| == |p.base.queue| + 1 && q.base.queue[..|p.base.queue|] == p.base.queue
    ensures var r := q.base.queue[|p.base.queue|];
            && r.callback == callback
            && r.parameters.None?
            && r.command.BytesV?
  {
    Enqueue(p, Encode(c), callback)
  }

  /** The queued frame reads back as the command the method was asked to send. */
  lemma SubmitQueuesCommand(p: Pump, c: PumpCommand, callback: Option<Callback>)
    ensures Decode(Submit(p, c, callback).base.queue[|p.base.queue|].command.bytes) == Some(c)
  {
    DecodeEncode(c);
  }

  /** `start(callback)` queues `1H\r`. */
  function Start(p: Pump, callback: Option<Callback>): (q: Pump)
    ensures q.base.queue == p.base.queue + [Instrument.Request(BytesV(Ascii("1H" + [CR])), None, callback)]
  {
    Submit(p, PumpCommand.Start, callback)
  }

  /** `stop(callback)` queues `1I\r`. */
  function Stop(p: Pump, callback: Option<Callback>): (q: Pump)
    ensures q.base.queue == p.base.queue + [Instrument.Request(BytesV(Ascii("1I" + [CR])), None, callback)]
  {
    Submit(p, PumpCommand.Stop, callback)
  }

  /** `set_flowrate(val, callback)` queues `1S`, the rate zero-filled to at
      least five characters, and CR. */
  function SetFlowrate(p: Pump, v: int, callback: Option<Callback>): (q: Pump)
    ensures IsAscii("1S" + ZFill(IntToDecimal(v), 5) + [CR])
    ensures q.base.queue == p.base.queue + [Instrument.Request(BytesV(Ascii("1S" + ZFill(IntToDecimal(v), 5) + [CR])), None, callback)]
  {
    ZFillIntRoundTrip(v, 5);
    Submit(p, PumpCommand.SetFlowrate(v), callback)
  }

  /** `get_flowrate(callback)` queues `1S\r`. */
  function GetFlowrate(p: Pump, callback: Option<Callback>): (q: Pump)
    ensures q.base.queue == p.base.queue + [Instrument.Request(BytesV(Ascii("1S" + [CR])), None, callback)]
  {
    Submit(p, PumpCommand.GetFlowrate, callback)
  }

  /** The requests queued for a run of frames, all with the same callback. */
  function Requests(frames: seq<seq<byte>>, callback: Option<Callback>): (rs: seq<Instrument.Request>)
    ensures |rs| == |frames|
    ensures forall i | 0 <= i < |frames| :: rs[i] == Instrument.Request(BytesV(frames[i]), None, callback)
  {
    seq(|frames|, i requires 0 <= i < |frames| => Instrument.Request(BytesV(frames[i]), None, callback))
  }

  /** Queuing frames one after another, all with the same callback: the
      queue grows by one request per frame, in order, and nothing else
      changes. */
  function EnqueueAll(p: Pump, frames: seq<seq<byte>>, callback: Option<Callback>): (q: Pump)
    ensures q.writes == p.writes && q.base.port == p.base.port && q.base.handled == p.base.handled
    ensures q.base.queue == p.base.queue + Requests(frames, callback)
    decreases |frames|
  {
    if |frames| == 0 then
      assert p.base.queue + Requests(frames, callback) == p.base.queue;
      p
    else
      assert Requests(frames, callback) == Requests(frames[..1], callback) + Requests(frames[1..], callback);
      EnqueueAll(Enqueue(p, frames[0], callback), frames[1..], callback)
  }

  /** Calling the command methods in turn, all with the same callback. */
  function SubmitAll(p: Pump, cs: seq<PumpCommand>, callback: Option<Callback>): Pump {
    EnqueueAll(p, Frames(cs), callback)
  }

  /** A session of commands sent to an idle pump reaches the worker in the
      order it was issued: draining the queue hands over one request per
      command, carrying that command's frame and the caller's callback, and
      leaves the queue empty. */
  lemma SessionDrainsInOrder(p: Pump, cs: seq<PumpCommand>, callback: Option<Callback>)
    requires p.base.queue == []
    ensures var t := Instrument.Run(SubmitAll(p, cs, callback).base, Instrument.Takes(|cs|));
            t.queue == [] && t.handled == p.base.handled + Requests(Frames(cs), callback)
  {
    var q := SubmitAll(p, cs, callback);
    assert q.base.queue == Requests(Frames(cs), callback);
    Instrument.RunTakesDrains(q.base, |cs|);
  }

  /** As the code stands neither this class nor the base instrument defines
      `_process_request`, so the worker's first hand-over raises
      AttributeError and the thread ends after one `get`. A session of two or
      more commands then leaves every request but the first on the queue for
      good, and the script's wait for an empty queue does not end. */
  lemma SessionAsWrittenStalls(p: Pump, cs: seq<PumpCommand>, callback: Option<Callback>)
    requires p.base.queue == [] && 2 <= |cs|
    ensures var t := Instrument.ProcessQueueStep(SubmitAll(p, cs, callback).base);
            && t.handled == p.base.handled + [Requests(Frames(cs), callback)[0]]
            && t.queue == Requests(Frames(cs), callback)[1..]
            && |t.queue| == |cs| - 1
  {
    var q := SubmitAll(p, cs, callback);
    assert q.base.queue == Requests(Frames(cs), callback);
  }

  /** `set_flowrate(944)`, the call in the script at the end of the file,
      queues the 8-byte frame `1S00944\r`. */
  lemma SetFlowrate944(p: Pump, callback: Option<Callback>)
    ensures var q := SetFlowrate(p, 944, callback);
            Chars(q.base.queue[|p.base.queue|].command.bytes) == "1S00944" + [CR]
  {
    var s := "1S" + ZFill(IntToDecimal(944), 5) + [CR];
    assert s == "1S00944" + [CR] by {
      PrintsAs944();
      assert ZFill("944", 5) == "00944";
    }
    AsciiRoundTrip(s);
  }

  lemma PrintsAs944()
    ensures IntToDecimal(944) == "944"
  {
    assert NatToDecimal(9) == "9";
    assert NatToDecimal(94) == NatToDecimal(9) + [DigitChar(4)];
    assert NatToDecimal(944) == NatToDecimal(94) + [DigitChar(4)];
  }
}

=== FILE: opc_handlers.dfy ===
/** The two subscription handlers that turn an OPC data change into a request
    record `{"service": "opc", "payload": (node, val, data)}`:
    `Handler` of src/services/opc/handler.py passes it to its callback, and
    `OpcSubHandler` of src/services/opc.py puts it on its queue.
    `Opc.handle_response` of the same file does nothing. */
module OpcHandlers {

  import opened Wrappers
  import opened Values
  import opened Dicts
  import AddressSpace

  /** The arguments of `datachange_notification(node, val, data)`. */
  datatype Event = Event(node: Node, val: Value, data: Value)

  /** The request record built for an event. */
  function RequestRecord(e: Event): (r: Value)
    ensures r.DictV? && Keys(r.entries) == ["service", "payload"]
    ensures Get(r.entries, "service") == Some(StrV("opc"))
    ensures Get(r.entries, "payload") == Some(SeqV([NodeV(e.node), e.val, e.data]))
  {
    var r := DictV([("service", StrV("opc")), ("payload", SeqV([NodeV(e.node), e.val, e.data]))]);
    assert Keys(r.entries) == ["service", "payload"];
    r
  }

  /** What a consumer of the record recovers: the node, value and data of an
      `opc` request. */
  function ReadRecord(r: Value): (e: Option<Event>)
  {
    if !r.DictV? || Get(r.entries, "service") != Some(StrV("opc")) then None
    else match Get(r.entries, "payload")
      case Some(p) =>
        if p.SeqV? && |p.items| == 3 && p.items[0].NodeV? then Some(Event(p.items[0].node, p.items[1], p.items[2]))
        else None
      case None => None
  }

  /** The payload keeps node, value and data unchanged and in that order: the
      record reads back as the event it was built from. */
  lemma ReadRequestRecord(e: Event)
    ensures ReadRecord(RequestRecord(e)) == Some(e)
  {
  }

  /** `Handler(callback)`: the callback and every call made to it. */
  datatype Handler = Handler(callback: Callback, calls: seq<(Callback, Value)>)

  function NewHandler(callback: Callback): (h: Handler)
    ensures h.callback == callback && h.calls == []
  {
    Handler(callback, [])
  }

  /** `Handler.datachange_notification`: exactly one call of the stored
      callback, with the event's record; the callback is never replaced. */
  function Notify(h: Handler, e: Event): (g: Handler)
    ensures g.callback == h.callback
    ensures |g.calls| == |h.calls| + 1 && g.calls[..|h.calls|] == h.calls
    ensures g.calls[|h.calls|].0 == h.callback
    ensures ReadRecord(g.calls[|h.calls|].1) == Some(e)
  {
    ReadRequestRecord(e);
    h.(calls := h.calls + [(h.callback, RequestRecord(e))])
  }

  /** The calls a run of events makes, one per event, in order. */
  function Calls(callback: Callback, es: seq<Event>): (cs: seq<(Callback, Value)>)
    ensures |cs| == |es|
    ensures forall i | 0 <= i < |es| :: cs[i] == (callback, RequestRecord(es[i]))
    decreases |es|
  {
    if |es| == 0 then [] else [(callback, RequestRecord(es[0]))] + Calls(callback, es[1..])
  }

  /** Several notifications in turn. */
  function NotifyAll(h: Handler, es: seq<Event>): Handler
    decreases |es|
  {
    if |es| == 0 then h else NotifyAll(Notify(h, es[0]), es[1..])
  }

  /** Over any run of events the callback stays the one given at construction
      and receives one record per event, in the order the events came. */
  lemma {:induction false} NotifyAllInOrder(h: Handler, es: seq<Event>)
    ensures NotifyAll(h, es).callback == h.callback
    ensures NotifyAll(h, es).calls == h.calls + Calls(h.callback, es)
    decreases |es|
  {
    if |es| > 0 {
      var c := (h.callback, RequestRecord(es[0]));
      var g := Handler(h.callback, h.calls + [c]);
      assert Notify(h, es[0]) == g;
      assert NotifyAll(h, es) == NotifyAll(g, es[1..]);
      NotifyAllInOrder(g, es[1..]);
      assert g.calls + Calls(h.callback, es[1..]) == h.calls + Calls(h.callback, es);
    }
  }

  /** `OpcSubHandler(queue)`: the queue's content, head first. */
  datatype SubHandler = SubHandler(queue: seq<Value>)

  function NewSubHandler(queue: seq<Value>): (h: SubHandler)
    ensures h.queue == queue
  {
    SubHandler(queue)
  }

  /** `OpcSubHandler.datachange_notification`: exactly one record put at the
      tail of the queue; what was queued before is kept. */
  function Put(h: SubHandler, e: Event): (g: SubHandler)
    ensures |g.queue| == |h.queue| + 1 && g.queue[..|h.queue|] == h.queue
    ensures ReadRecord(g.queue[|h.queue|]) == Some(e)
  {
    ReadRequestRecord(e);
    SubHandler(h.queue + [RequestRecord(e)])
  }

  /** The records of a run of events, in order. */
  function Records(es: seq<Event>): (rs: seq<Value>)
    ensures |rs| == |es|
    ensures forall i | 0 <= i < |es| :: rs[i] == RequestRecord(es[i])
    decreases |es|
  {
    if |es| == 0 then [] else [RequestRecord(es[0])] + Records(es[1..])
  }

  function PutAll(h: SubHandler, es: seq<Event>): SubHandler
    decreases |es|
  {
    if |es| == 0 then h else PutAll(Put(h, es[0]), es[1..])
  }

  /** Notifications reach the queue in the order they were received, one
      record each, and every record reads back as its event. */
  lemma PutAllInOrder(h: SubHandler, es: seq<Event>)
    ensures PutAll(h, es).queue == h.queue + Records(es)
    ensures forall i | 0 <= i < |es| :: ReadRecord(PutAll(h, es).queue[|h.queue| + i]) == Some(es[i])
  {
    var q := PutAll(h, es).queue;
    PutAllAppends(h, es);
    var tail := q[|h.queue|..];
    assert tail == Records(es);
    forall i | 0 <= i < |es|
      ensures ReadRecord(q[|h.queue| + i]) == Some(es[i])
    {
      assert q[|h.queue| + i] == tail[i];
      RecordReads(es, i);
    }
  }

  lemma RecordReads(es: seq<Event>, i: nat)
    requires i < |es|
    ensures ReadRecord(Records(es)[i]) == Some(es[i])
  {
    ReadRequestRecord(es[i]);
  }

  lemma {:induction false} PutAllAppends(h: SubHandler, es: seq<Event>)
    ensures PutAll(h, es).queue == h.queue + Records(es)
    decreases |es|
  {
    if |es| > 0 {
      var r := RequestRecord(es[0]);
      var g := SubHandler(h.queue + [r]);
      assert Put(h, es[0]) == g;
      assert PutAll(h, es) == PutAll(g, es[1..]);
      PutAllAppends(g, es[1..]);
      assert g.queue + Records(es[1..]) == h.queue + Records(es);
    }
  }

  /** `Opc.handle_response(node, data)`: the body is `pass`; the server is
      left as it was, whatever the arguments. */
  function HandleResponse(srv: AddressSpace.Server, node: Node, data: Value): (t: AddressSpace.Server)
    ensures t.values == srv.values && t.children == srv.children && t.namespaces == srv.namespaces
  {
    srv
  }
}

=== FILE: opc_responders.dfy ===
/** The OPC responders of src/instruments/ismatec/opc.py and
    src/instruments/patrol/opc.py, whose `Opc` classes are identical: the
    config name and the watchdog value are echoed back as a node write, and
    `get_measurement` does nothing. */
module OpcResponders {

  import opened Values

  const ConfigNameNode := "CONFIG_NAME_PAT"
  const WatchdogNode := "WATCHDOG_PAT"

  /** `config_name(name)`: write the name, unchanged, to the config-name node. */
  function ConfigName(name: Value): (w: NodeWrite)
    ensures w.node == ConfigNameNode && w.value == name
  {
    NodeWrite(ConfigNameNode, name)
  }

  /** `watchdog(val)`: write the value, unchanged, to the watchdog node. */
  function Watchdog(v: Value): (w: NodeWrite)
    ensures w.node == WatchdogNode && w.value == v
  {
    NodeWrite(WatchdogNode, v)
  }

  /** `get_measurement()`: an empty body, so the call returns None, which is
      falsy and thus never passed to a callback. */
  function GetMeasurement(): (r: Value)
    ensures r == NoneV && !Truthy(r)
  {
    NoneV
  }

  /** The two echoes never target the same node, whatever the values, and
      each echo is determined by its value: the responders are pure. */
  lemma EchoesTargetDifferentNodes(a: Value, b: Value)
    ensures ConfigName(a).node != Watchdog(b).node
    ensures ConfigName(a) != Watchdog(b)
    ensures Watchdog(a) == Watchdog(b) <==> a == b
    ensures ConfigName(a) == ConfigName(b) <==> a == b
  {
  }
}

=== FILE: opc_server.dfy ===
/** The OPC UA server of src/services/opc/server.py: it keeps its parameters
    and a name→node table, and `_create_nodes` adds one variable per
    configured name under a parent object, writable exactly when the
    configuration's `writable` entry is truthy. The server's own address
    space is modelled as the list of variables created, in order; a node is
    the position of its variable in that list. */
module OpcServer {

  import opened Wrappers
  import opened Values
  import opened Dicts

  /** The per-name attributes `_create_nodes` reads: `value`, `type`,
      `writable`. */
  datatype NodeAttributes = NodeAttributes(value: Value, variantType: string, writable: Value)

  /** A variable added by `obj.add_variable(idx, name, value, type)`, with the
      access level set right after. */
  datatype Variable = Variable(ns: nat, parent: Node, name: string, value: Value, variantType: string, writable: bool)

  datatype OpcServer = OpcServer(params: Value, nodes: Dict<string, Node>, variables: seq<Variable>)

  /** Every name in the table is bound to a variable created under that name. */
  predicate Consistent(s: OpcServer) {
    && WellFormed(s.nodes)
    && forall i | 0 <= i < |s.nodes| :: s.nodes[i].1.handle < |s.variables| && s.variables[s.nodes[i].1.handle].name == s.nodes[i].0
  }

  /** `OpcServer(parameters)`: the parameters as given and an empty table. */
  function New(params: Value): (s: OpcServer)
    ensures s.params == params && s.nodes == [] && s.variables == []
    ensures Consistent(s)
  {
    OpcServer(params, [], [])
  }

  /** The variable `_create_nodes` adds for one configured name. */
  function NewVariable(idx: nat, parent: Node, name: string, attr: NodeAttributes): Variable {
    Variable(idx, parent, name, attr.value, attr.variantType, Truthy(attr.writable))
  }

  /** One iteration of `_create_nodes`: a fresh variable, then
      `self._nodes[name] = node`. The new node is the variable's position, and
      the table binds the name to it. */
  function AddVariable(s: OpcServer, idx: nat, parent: Node, name: string, attr: NodeAttributes): (t: OpcServer)
    requires WellFormed(s.nodes)
    ensures WellFormed(t.nodes)
    ensures t.params == s.params
    ensures |t.variables| == |s.variables| + 1 && t.variables[..|s.variables|] == s.variables
    ensures t.variables[|s.variables|] == NewVariable(idx, parent, name, attr)
  {
    var v := NewVariable(idx, parent, name, attr);
    var t := s.(variables := s.variables + [v], nodes := Put(s.nodes, name, Node(|s.variables|)));
    assert t.variables[..|s.variables|] == s.variables;
    t
  }

  /** `self._nodes[name] = node` binds the name to the node just created and
      leaves every other name as it was. */
  lemma AddVariableGet(s: OpcServer, idx: nat, parent: Node, name: string, attr: NodeAttributes, k: string)
    requires WellFormed(s.nodes)
    ensures Get(AddVariable(s, idx, parent, name, attr).nodes, k) == if k == name then Some(Node(|s.variables|)) else Get(s.nodes, k)
  {
    PutGet(s.nodes, name, Node(|s.variables|), k);
  }

  /** One iteration keeps every entry of the table pointing at a variable of
      its own name. */
  lemma AddVariableConsistent(s: OpcServer, idx: nat, parent: Node, name: string, attr: NodeAttributes)
    requires Consistent(s)
    ensures Consistent(AddVariable(s, idx, parent, name, attr))
  {
    var t := AddVariable(s, idx, parent, name, attr);
    forall k | k in Keys(t.nodes)
      ensures Get(t.nodes, k).value.handle < |t.variables| && t.variables[Get(t.nodes, k).value.handle].name == k
    {
      AddVariableGet(s, idx, parent, name, attr, k);
      if k != name {
        var i :| 0 <= i < |s.nodes| && s.nodes[i].0 == k;
        GetAtKey(s.nodes, i, k);
        assert t.variables[s.nodes[i].1.handle] == s.variables[s.nodes[i].1.handle];
      }
    }
    forall i | 0 <= i < |t.nodes|
      ensures t.nodes[i].1.handle < |t.variables| && t.variables[t.nodes[i].1.handle].name == t.nodes[i].0
    {
      GetAt(t.nodes, i);
      assert t.nodes[i].0 in Keys(t.nodes);
    }
  }

  /** The variables `_create_nodes` adds, one per configured name, in the
      dict's order. */
  function NewVariables(idx: nat, parent: Node, nodes: Dict<string, NodeAttributes>): (vs: seq<Variable>)
    ensures |vs| == |nodes|
    ensures forall i | 0 <= i < |nodes| :: vs[i] == NewVariable(idx, parent, nodes[i].0, nodes[i].1)
    decreases |nodes|
  {
    if |nodes| == 0 then [] else [NewVariable(idx, parent, nodes[0].0, nodes[0].1)] + NewVariables(idx, parent, nodes[1..])
  }

  /** The nodes of `n` variables created one after another from position `start`. */
  function Handles(start: nat, n: nat): (hs: seq<Node>)
    ensures |hs| == n
    ensures forall i | 0 <= i < n :: hs[i] == Node(start + i)
    decreases n
  {
    if n == 0 then [] else [Node(start)] + Handles(start + 1, n - 1)
  }

  /** `_create_nodes(idx, obj, nodes)`: the variables of the configured names
      are created in the dict's order, and the table is updated name by name
      with the nodes they got. */
  function CreateNodes(s: OpcServer, idx: nat, parent: Node, nodes: Dict<string, NodeAttributes>): (t: OpcServer)
    requires WellFormed(s.nodes)
    ensures WellFormed(t.nodes)
    ensures t.params == s.params
    ensures |t.variables| == |s.variables| + |nodes|
    ensures t.variables[..|s.variables|] == s.variables
    ensures t.variables[|s.variables|..] == NewVariables(idx, parent, nodes)
  {
    var t := OpcServer(s.params,
                       UpdateZip(s.nodes, Keys(nodes), Handles(|s.variables|, |nodes|)),
                       s.variables + NewVariables(idx, parent, nodes));
    assert t.variables[..|s.variables|] == s.variables;
    assert t.variables[|s.variables|..] == NewVariables(idx, parent, nodes);
    t
  }

  /** `_create_nodes` is its loop: over a non-empty dict it is one iteration
      for the first entry followed by the rest, and over an empty dict it
      changes nothing. */
  lemma CreateNodesLoop(s: OpcServer, idx: nat, parent: Node, nodes: Dict<string, NodeAttributes>)
    requires WellFormed(s.nodes)
    ensures |nodes| == 0 ==> CreateNodes(s, idx, parent, nodes) == s
    ensures 0 < |nodes| ==>
              CreateNodes(s, idx, parent, nodes) ==
                CreateNodes(AddVariable(s, idx, parent, nodes[0].0, nodes[0].1), idx, parent, nodes[1..])
  {
    var hs := Handles(|s.variables|, |nodes|);
    var t := CreateNodes(s, idx, parent, nodes);
    if |nodes| == 0 {
      assert UpdateZip(s.nodes, Keys(nodes), hs) == s.nodes;
      assert t.variables == s.variables;
    } else {
      var s1 := AddVariable(s, idx, parent, nodes[0].0, nodes[0].1);
      var t1 := CreateNodes(s1, idx, parent, nodes[1..]);
      var v := NewVariable(idx, parent, nodes[0].0, nodes[0].1);
      assert s1.nodes == Put(s.nodes, Keys(nodes)[0], hs[0]);
      assert Keys(nodes[1..]) == Keys(nodes)[1..];
      assert hs == [Node(|s.variables|)] + Handles(|s1.variables|, |nodes| - 1);
      assert Handles(|s1.variables|, |nodes| - 1) == hs[1..];
      assert t1.nodes == t.nodes;
      assert s1.variables == s.variables + [v];
      assert NewVariables(idx, parent, nodes) == [v] + NewVariables(idx, parent, nodes[1..]);
      assert t1.variables == s.variables + [v] + NewVariables(idx, parent, nodes[1..]);
    }
  }

  /** `_create_nodes` keeps the table consistent: every entry, old or new,
      names a variable created under that name. */
  lemma {:induction false} CreateNodesConsistent(s: OpcServer, idx: nat, parent: Node, nodes: Dict<string, NodeAttributes>)
    requires Consistent(s)
    ensures Consistent(CreateNodes(s, idx, parent, nodes))
    decreases |nodes|
  {
    CreateNodesLoop(s, idx, parent, nodes);
    if |nodes| > 0 {
      var s1 := AddVariable(s, idx, parent, nodes[0].0, nodes[0].1);
      AddVariableConsistent(s, idx, parent, nodes[0].0, nodes[0].1);
      CreateNodesConsistent(s1, idx, parent, nodes[1..]);
    }
  }

  /** After `_create_nodes`, a configured name is bound to the variable made
      for its last entry: a name configured twice ends on its second node. */
  lemma CreateNodesLookup(s: OpcServer, idx: nat, parent: Node, nodes: Dict<string, NodeAttributes>, k: string)
    requires WellFormed(s.nodes)
    requires k in Keys(nodes)
    ensures Get(CreateNodes(s, idx, parent, nodes).nodes, k) == Some(Node(|s.variables| + LastIndex(Keys(nodes), k)))
  {
    var hs := Handles(|s.variables|, |nodes|);
    UpdateZipLookup(s.nodes, Keys(nodes), hs, k);
    assert hs[LastIndex(Keys(nodes), k)] == Node(|s.variables| + LastIndex(Keys(nodes), k));
  }

  /** `_create_nodes` leaves every name it was not given bound as before. */
  lemma CreateNodesOther(s: OpcServer, idx: nat, parent: Node, nodes: Dict<string, NodeAttributes>, k: string)
    requires WellFormed(s.nodes)
    requires k !in Keys(nodes)
    ensures Get(CreateNodes(s, idx, parent, nodes).nodes, k) == Get(s.nodes, k)
  {
    UpdateZipLookup(s.nodes, Keys(nodes), Handles(|s.variables|, |nodes|), k);
  }

  /** A created node is writable exactly when its configured `writable`
      attribute is truthy, and read-only otherwise; its name, value and type
      are the configured ones. */
  lemma CreatedNodeWritableIff(s: OpcServer, idx: nat, parent: Node, nodes: Dict<string, NodeAttributes>, i: nat)
    requires WellFormed(s.nodes) && WellFormed(nodes) && i < |nodes|
    ensures var t := CreateNodes(s, idx, parent, nodes);
            var n := Get(t.nodes, nodes[i].0);
            && n.Some? && n.value.handle < |t.variables|
            && t.variables[n.value.handle].name == nodes[i].0
            && (t.variables[n.value.handle].writable <==> Truthy(nodes[i].1.writable))
            && t.variables[n.value.handle].value == nodes[i].1.value
            && t.variables[n.value.handle].variantType == nodes[i].1.variantType
  {
    CreatedNodeHandle(s, idx, parent, nodes, i);
    var t := CreateNodes(s, idx, parent, nodes);
    assert t.variables[|s.variables| + i] == t.variables[|s.variables|..][i];
  }

  /** In a dict every name occurs once, so the i-th configured name is bound
      to the i-th new node. */
  lemma CreatedNodeHandle(s: OpcServer, idx: nat, parent: Node, nodes: Dict<string, NodeAttributes>, i: nat)
    requires WellFormed(s.nodes) && WellFormed(nodes) && i < |nodes|
    ensures Get(CreateNodes(s, idx, parent, nodes).nodes, nodes[i].0) == Some(Node(|s.variables| + i))
  {
    var k := nodes[i].0;
    KeyAt(nodes, i);
    CreateNodesLookup(s, idx, parent, nodes, k);
  }

  /** The table after `_create_nodes` has exactly the names it had plus the
      configured ones. */
  lemma CreateNodesKeys(s: OpcServer, idx: nat, parent: Node, nodes: Dict<string, NodeAttributes>)
    requires WellFormed(s.nodes)
    ensures var t := CreateNodes(s, idx, parent, nodes);
            (set k | k in Keys(t.nodes)) == (set k | k in Keys(s.nodes)) + (set k | k in Keys(nodes))
  {
    var t := CreateNodes(s, idx, parent, nodes);
    forall k | k in Keys(t.nodes)
      ensures k in Keys(s.nodes) || k in Keys(nodes)
    {
      if k !in Keys(nodes) {
        CreateNodesOther(s, idx, parent, nodes, k);
      }
    }
    forall k | k in Keys(s.nodes) || k in Keys(nodes)
      ensures k in Keys(t.nodes)
    {
      if k in Keys(nodes) {
        CreateNodesLookup(s, idx, parent, nodes, k);
      } else {
        CreateNodesOther(s, idx, parent, nodes, k);
      }
    }
  }

  /** `get_nodes()`: the table itself; on a consistent server every entry
      names a variable created under that name. */
  function GetNodes(s: OpcServer): (table: Dict<string, Node>)
    ensures table == s.nodes
    ensures Consistent(s) ==> forall i | 0 <= i < |table| :: table[i].1.handle < |s.variables| && s.variables[table[i].1.handle].name == table[i].0
  {
    s.nodes
  }
}

=== FILE: subscriber.dfy ===
/** The node subscriber of src/services/opc/subscriber.py. It keeps a list of
    (namespace URI, parent object, variable names) entries to monitor; `run`
    resolves every entry's names to nodes and merges them into one
    name→node dict; a data change on a node is reported to the callback
    under the node's name; `respond` writes to the node bound to a name.
    Variable names are expected to be unique across entries: the code does
    not check this, and a later entry's node silently replaces an earlier
    one bound to the same name. */
module Subscriber {

  import opened Wrappers
  import opened Values
  import opened Dicts
  import opened BrowsePaths
  import opened AddressSpace

  /** One `_monitor` entry: `(uri, obj, nodes)`. */
  datatype Monitor = Monitor(uri: string, obj: string, names: seq<string>)

  /** `self._callback(name=name, value=val)`. */
  datatype Change = Change(callback: Callback, name: string, value: Value)

  /** The configuration `from_dictionary` reads: `endpoint`, `uri`,
      `object.name`, `object.nodes`. */
  datatype Config = Config(endpoint: string, uri: string, objectName: string, objectNodes: seq<string>)

  datatype Subscriber = Subscriber(
    endpoint: string,
    monitor: seq<Monitor>,
    nodeMap: Dict<string, Node>,
    callback: Option<Callback>,
    calls: seq<Change>)

  /** `Subscriber(endpoint)`: nothing monitored, an empty map, no callback yet. */
  function New(endpoint: string): (s: Subscriber)
    ensures s.endpoint == endpoint && s.monitor == [] && s.nodeMap == []
    ensures s.callback.None? && s.calls == []
  {
    Subscriber(endpoint, [], [], None, [])
  }

  /** `from_dictionary(**params)`: a subscriber for the endpoint with exactly
      one monitor entry, built from the configured URI, object name and node
      names. */
  function FromDictionary(c: Config): (s: Subscriber)
    ensures s.endpoint == c.endpoint
    ensures s.monitor == [Monitor(c.uri, c.objectName, c.objectNodes)]
    ensures s.nodeMap == [] && s.callback.None? && s.calls == []
  {
    New(c.endpoint).(monitor := [Monitor(c.uri, c.objectName, c.objectNodes)])
  }

  /** `set_callback(callback)`. */
  function SetCallback(s: Subscriber, cb: Callback): (t: Subscriber)
    ensures t.callback == Some(cb)
    ensures t == s.(callback := Some(cb))
  {
    s.(callback := Some(cb))
  }

  /** `add_nodes(uri, obj, nodes)`: one entry at the end of the monitor list,
      the earlier entries unchanged. */
  function AddNodes(s: Subscriber, uri: string, obj: string, names: seq<string>): (t: Subscriber)
    ensures |t.monitor| == |s.monitor| + 1
    ensures t.monitor[..|s.monitor|] == s.monitor
    ensures t.monitor[|s.monitor|] == Monitor(uri, obj, names)
    ensures t == s.(monitor := t.monitor)
  {
    s.(monitor := s.monitor + [Monitor(uri, obj, names)])
  }

  /** `_get_nodes(uri, obj, names)`: the namespace index of the URI, then one
      node per name, in order, at `0:Objects / idx:obj / idx:name`. None where
      the library raises: an unknown URI or a path with no node. */
  function GetNodes(srv: Server, m: Monitor): (r: Option<seq<Node>>)
    ensures r.Some? <==> (m.uri in srv.namespaces &&
              forall i | 0 <= i < |m.names| :: BrowsePath(NamespaceIndex(srv, m.uri).value, m.obj, m.names[i]) in srv.children)
    ensures r.Some? ==> |r.value| == |m.names|
    ensures r.Some? ==> forall i | 0 <= i < |m.names| ::
              r.value[i] == srv.children[BrowsePath(NamespaceIndex(srv, m.uri).value, m.obj, m.names[i])]
  {
    ResolveNames(srv, m.uri, m.obj, m.names)
  }

  /** The map-building loop of `run`: for each monitor entry in order, resolve
      its names and update the map with the names zipped with their nodes.
      None where resolving raises. */
  function BuildMap(srv: Server, nodeMap: Dict<string, Node>, monitor: seq<Monitor>): (r: Option<Dict<string, Node>>)
    requires WellFormed(nodeMap)
    ensures r.Some? ==> WellFormed(r.value)
    ensures r.Some? ==> forall i | 0 <= i < |monitor| :: GetNodes(srv, monitor[i]).Some?
    decreases |monitor|
  {
    if |monitor| == 0 then Some(nodeMap)
    else
      match GetNodes(srv, monitor[0])
      case None => None
      case Some(nodes) =>
        UpdateZipLookup(nodeMap, monitor[0].names, nodes, "");
        BuildMap(srv, UpdateZip(nodeMap, monitor[0].names, nodes), monitor[1..])
  }

  /** All names monitored by a list of entries. */
  function AllNames(monitor: seq<Monitor>): (names: set<string>)
    decreases |monitor|
  {
    if |monitor| == 0 then {} else (set n | n in monitor[0].names) + AllNames(monitor[1..])
  }

  /** `run()` without the connection and subscription calls: the map built
      from the monitor list. */
  function Run(s: Subscriber, srv: Server): (r: Option<Subscriber>)
    requires WellFormed(s.nodeMap)
    ensures r.Some? ==> r.value == s.(nodeMap := r.value.nodeMap) && WellFormed(r.value.nodeMap)
  {
    match BuildMap(srv, s.nodeMap, s.monitor)
    case None => None
    case Some(m) => Some(s.(nodeMap := m))
  }

  /** After `run`, the map's names are exactly the names it had plus every
      monitored name. */
  lemma {:induction false} BuildMapKeys(srv: Server, nodeMap: Dict<string, Node>, monitor: seq<Monitor>)
    requires WellFormed(nodeMap)
    requires BuildMap(srv, nodeMap, monitor).Some?
    ensures (set k | k in Keys(BuildMap(srv, nodeMap, monitor).value)) == (set k | k in Keys(nodeMap)) + AllNames(monitor)
    decreases |monitor|
  {
    if |monitor| > 0 {
      var nodes := GetNodes(srv, monitor[0]).value;
      var m := UpdateZip(nodeMap, monitor[0].names, nodes);
      UpdateZipLookup(nodeMap, monitor[0].names, nodes, "");
      UpdateZipKeys(nodeMap, monitor[0].names, nodes);
      BuildMapKeys(srv, m, monitor[1..]);
    }
  }

  /** A name monitored by the last entry is bound to the node resolved for its
      last occurrence in that entry, whatever earlier entries bound it to: a
      later duplicate overwrites an earlier one. */
  lemma {:induction false} BuildMapLastWins(srv: Server, nodeMap: Dict<string, Node>, monitor: seq<Monitor>, name: string)
    requires WellFormed(nodeMap)
    requires BuildMap(srv, nodeMap, monitor).Some?
    requires 0 < |monitor| && name in monitor[|monitor| - 1].names
    ensures var last := monitor[|monitor| - 1];
            var nodes := GetNodes(srv, last).value;
            Get(BuildMap(srv, nodeMap, monitor).value, name) == Some(nodes[LastIndex(last.names, name)])
    decreases |monitor|
  {
    var nodes := GetNodes(srv, monitor[0]).value;
    var m := UpdateZip(nodeMap, monitor[0].names, nodes);
    UpdateZipLookup(nodeMap, monitor[0].names, nodes, name);
    if |monitor| > 1 {
      BuildMapLastWins(srv, m, monitor[1..], name);
    } else {
      assert BuildMap(srv, m, monitor[1..]) == Some(m);
    }
  }

  /** A name that no entry monitors is not in `AllNames`. */
  lemma {:induction false} NotInAllNames(monitor: seq<Monitor>, name: string)
    requires forall k | 0 <= k < |monitor| :: name !in monitor[k].names
    ensures name !in AllNames(monitor)
    decreases |monitor|
  {
    if |monitor| > 0 {
      NotInAllNames(monitor[1..], name);
    }
  }

  /** A name no entry monitors keeps the binding it had before `run`. */
  lemma {:induction false} BuildMapKeepsOthers(srv: Server, nodeMap: Dict<string, Node>, monitor: seq<Monitor>, name: string)
    requires WellFormed(nodeMap)
    requires BuildMap(srv, nodeMap, monitor).Some?
    requires name !in AllNames(monitor)
    ensures Get(BuildMap(srv, nodeMap, monitor).value, name) == Get(nodeMap, name)
    decreases |monitor|
  {
    if |monitor| > 0 {
      var nodes := GetNodes(srv, monitor[0]).value;
      var m := UpdateZip(nodeMap, monitor[0].names, nodes);
      assert name !in monitor[0].names;
      UpdateZipLookup(nodeMap, monitor[0].names, nodes, name);
      BuildMapKeepsOthers(srv, m, monitor[1..], name);
    }
  }

  /** Every monitored name, from whichever entry, is bound by `run` to the
      node resolved for its last occurrence in the last entry that monitors
      it: entry j when no later entry names it. */
  lemma {:induction false} BuildMapBindsLastOccurrence(srv: Server, nodeMap: Dict<string, Node>, monitor: seq<Monitor>, name: string, j: nat)
    requires WellFormed(nodeMap)
    requires BuildMap(srv, nodeMap, monitor).Some?
    requires j < |monitor| && name in monitor[j].names
    requires forall k | j < k < |monitor| :: name !in monitor[k].names
    ensures Get(BuildMap(srv, nodeMap, monitor).value, name) ==
              Some(GetNodes(srv, monitor[j]).value[LastIndex(monitor[j].names, name)])
    decreases |monitor|
  {
    var nodes := GetNodes(srv, monitor[0]).value;
    var m := UpdateZip(nodeMap, monitor[0].names, nodes);
    UpdateZipLookup(nodeMap, monitor[0].names, nodes, name);
    assert BuildMap(srv, nodeMap, monitor) == BuildMap(srv, m, monitor[1..]);
    if j == 0 {
      forall k | 0 <= k < |monitor[1..]|
        ensures name !in monitor[1..][k].names
      {
        assert monitor[1..][k] == monitor[k + 1];
      }
      NotInAllNames(monitor[1..], name);
      BuildMapKeepsOthers(srv, m, monitor[1..], name);
    } else {
      assert monitor[1..][j - 1] == monitor[j];
      forall k | j - 1 < k < |monitor[1..]|
        ensures name !in monitor[1..][k].names
      {
        assert monitor[1..][k] == monitor[k + 1];
      }
      BuildMapBindsLastOccurrence(srv, m, monitor[1..], name, j - 1);
    }
  }

  /** For the single entry `from_dictionary` creates, with distinct names, the
      map pairs the i-th configured name with the i-th resolved node, and holds
      nothing else. */
  lemma SingleEntryPairs(srv: Server, c: Config)
    requires Distinct(c.objectNodes)
    requires Run(FromDictionary(c), srv).Some?
    ensures var m := Run(FromDictionary(c), srv).value.nodeMap;
            var nodes := GetNodes(srv, Monitor(c.uri, c.objectName, c.objectNodes)).value;
            && Keys(m) == c.objectNodes
            && forall i | 0 <= i < |c.objectNodes| :: Get(m, c.objectNodes[i]) == Some(nodes[i])
  {
    var mon := Monitor(c.uri, c.objectName, c.objectNodes);
    var nodes := GetNodes(srv, mon).value;
    ZipPairs(c.objectNodes, nodes);
    assert [mon][1..] == [];
    assert BuildMap(srv, [], [mon]) == BuildMap(srv, Zip(mon.names, nodes), []);
  }

  /** `_get_name(node)`: the first name in the map bound to the node; None
      where the list of matches is empty and indexing it raises. */
  function GetName(s: Subscriber, node: Node): (r: Option<string>)
    ensures r.Some? <==> node in Dicts.Values(s.nodeMap)
    ensures r.Some? && WellFormed(s.nodeMap) ==> Get(s.nodeMap, r.value) == Some(node)
  {
    var r := KeyOf(s.nodeMap, node);
    if r.Some? && WellFormed(s.nodeMap) then KeyOfSound(s.nodeMap, node); r
    else r
  }

  /** With unique names bound to distinct nodes, the reverse lookup inverts
      the map: the name found for `map[n]` is n. */
  lemma GetNameInverts(s: Subscriber, name: string)
    requires WellFormed(s.nodeMap) && Distinct(Dicts.Values(s.nodeMap))
    requires name in Keys(s.nodeMap)
    ensures GetName(s, Get(s.nodeMap, name).value) == Some(name)
  {
    KeyOfInverts(s.nodeMap, name, Get(s.nodeMap, name).value);
  }

  /** `respond(name, value)`: writes the value to the node bound to the name,
      and to no other node; None where the name is not in the map (KeyError). */
  function Respond(s: Subscriber, srv: Server, name: string, v: Value): (r: Option<Server>)
    ensures r.Some? <==> name in Keys(s.nodeMap)
    ensures r.Some? ==> var n := Get(s.nodeMap, name).value;
              && r.value.values.Keys == srv.values.Keys + {n}
              && r.value.values[n] == v
              && r.value.namespaces == srv.namespaces && r.value.children == srv.children
              && forall m | m in srv.values && m != n :: r.value.values[m] == srv.values[m]
  {
    WriteByName(s.nodeMap, srv, name, v)
  }

  /** `datachange_notification(node, val, data)`: the callback is called once,
      with the node's name and the new value. None where the node has no name
      in the map (IndexError) or no callback was set (AttributeError). */
  function DatachangeNotification(s: Subscriber, node: Node, val: Value): (r: Option<Subscriber>)
    ensures r.Some? <==> node in Dicts.Values(s.nodeMap) && s.callback.Some?
    ensures r.Some? ==> r.value == s.(calls := r.value.calls)
    ensures r.Some? ==> |r.value.calls| == |s.calls| + 1 && r.value.calls[..|s.calls|] == s.calls
    ensures r.Some? ==> var c := r.value.calls[|s.calls|];
              && c.callback == s.callback.value
              && c.value == val
              && (WellFormed(s.nodeMap) ==> Get(s.nodeMap, c.name) == Some(node))
  {
    match GetName(s, node)
    case None => None
    case Some(name) =>
      match s.callback
      case None => None
      case Some(cb) => Some(s.(calls := s.calls + [Change(cb, name, val)]))
  }

  /** A change on the node bound to a name is reported under that very name,
      when names are unique and nodes distinct. */
  lemma NotificationNamesNode(s: Subscriber, name: string, val: Value)
    requires WellFormed(s.nodeMap) && Distinct(Dicts.Values(s.nodeMap))
    requires name in Keys(s.nodeMap) && s.callback.Some?
    ensures var r := DatachangeNotification(s, Get(s.nodeMap, name).value, val);
            r.Some? && r.value.calls == s.calls + [Change(s.callback.value, name, val)]
  {
    var node := Get(s.nodeMap, name).value;
    var i :| 0 <= i < |s.nodeMap| && s.nodeMap[i] == (name, node);
    assert Dicts.Values(s.nodeMap)[i] == node;
    GetNameInverts(s, name);
  }
}

=== FILE: subscription.dfy ===
/** The draft subscriber of src/services/opc/subscription.py: it resolves one
    node per configured name, in key order, pairs names and nodes into a map,
    and answers every data change with one keyword call of its callback in
    which all three arguments are None. */
module Subscription {

  import opened Wrappers
  import opened Values
  import opened Dicts
  import opened BrowsePaths
  import opened AddressSpace
  import opened ClientConfig

  /** `self._callback(command=None, payload=None, callback=None)`. */
  datatype KeywordCall = KeywordCall(callback: Callback, command: Value, payload: Value, reply: Value)

  datatype Subscription = Subscription(callback: Callback, params: Params, calls: seq<KeywordCall>)

  /** `Subscriber(callback, **params)`: both stored as given, no call made. */
  function New(callback: Callback, params: Params): (s: Subscription)
    ensures s.callback == callback && s.params == params && s.calls == []
  {
    Subscription(callback, params, [])
  }

  /** `_get_nodes()`: one node per configured name, in the dict's key order,
      each at the browse path of its name. None where the library raises. */
  function GetNodes(s: Subscription, srv: Server): (r: Option<seq<Node>>)
    requires WellFormed(s.params.nodes)
    ensures r.Some? <==> (s.params.uri in srv.namespaces &&
              forall i | 0 <= i < |s.params.nodes| ::
                BrowsePath(NamespaceIndex(srv, s.params.uri).value, s.params.obj, s.params.nodes[i].0) in srv.children)
    ensures r.Some? ==> |r.value| == |s.params.nodes|
    ensures r.Some? ==> forall i | 0 <= i < |s.params.nodes| ::
              r.value[i] == srv.children[BrowsePath(NamespaceIndex(srv, s.params.uri).value, s.params.obj, s.params.nodes[i].0)]
  {
    ResolveNames(srv, s.params.uri, s.params.obj, NodeNames(s.params))
  }

  /** `_make_mapping()`: `{k: v for k, v in zip(nodes, self._nodes)}`. With
      one node per name, the i-th configured name is bound to the i-th node
      and the map has exactly the configured names. */
  function MakeMapping(s: Subscription, nodes: seq<Node>): (m: Dict<string, Node>)
    requires WellFormed(s.params.nodes)
    requires |nodes| == |s.params.nodes|
    ensures WellFormed(m) && Keys(m) == NodeNames(s.params)
    ensures forall i | 0 <= i < |nodes| :: Get(m, s.params.nodes[i].0) == Some(nodes[i])
  {
    ZipPairs(NodeNames(s.params), nodes);
    Zip(NodeNames(s.params), nodes)
  }

  /** Resolving the nodes and making the map: every configured name ends up
      bound to the node found at its own browse path. */
  lemma MappingFollowsBrowsePaths(s: Subscription, srv: Server, name: string)
    requires WellFormed(s.params.nodes)
    requires GetNodes(s, srv).Some?
    requires name in NodeNames(s.params)
    ensures var idx := NamespaceIndex(srv, s.params.uri).value;
            var path := BrowsePath(idx, s.params.obj, name);
            path in srv.children && Get(MakeMapping(s, GetNodes(s, srv).value), name) == Some(srv.children[path])
  {
    var i :| 0 <= i < |s.params.nodes| && NodeNames(s.params)[i] == name;
  }

  /** `datachange_notification(node, val, data)`: exactly one call of the
      callback, with None for `command`, `payload` and `callback`, whatever
      the event. */
  function DatachangeNotification(s: Subscription, node: Node, val: Value, data: Value): (t: Subscription)
    ensures t.callback == s.callback && t.params == s.params
    ensures |t.calls| == |s.calls| + 1 && t.calls[..|s.calls|] == s.calls
    ensures t.calls[|s.calls|] == KeywordCall(s.callback, NoneV, NoneV, NoneV)
  {
    s.(calls := s.calls + [KeywordCall(s.callback, NoneV, NoneV, NoneV)])
  }

  /** The notification carries nothing of the event: two different events
      leave the same trace. */
  lemma NotificationIgnoresEvent(s: Subscription, n1: Node, v1: Value, d1: Value, n2: Node, v2: Value, d2: Value)
    ensures DatachangeNotification(s, n1, v1, d1) == DatachangeNotification(s, n2, v2, d2)
  {
  }
}

=== FILE: text.dfy ===
/** Characters, bytes and the number formats the instrument frames use:
    Python's `str(int)`, `str.zfill`, `"{:.2f}".format` and `str.encode('ascii')`,
    each with a reader that recovers the value it printed. */
module Text {

  import opened Wrappers

  newtype byte = x: int | 0 <= x < 256

  /** `chr(13)`, the frame terminator of the Ismatec pumps. */
  const CR: char := 13 as char

  /** `"\n"`, part of the IKA stirrer's terminator. */
  const LF: char := 10 as char

  predicate IsDigit(c: char) {
    '0' <= c <= '9'
  }

  predicate AllDigits(s: string) {
    forall i | 0 <= i < |s| :: IsDigit(s[i])
  }

  predicate IsAscii(s: string) {
    forall i | 0 <= i < |s| :: s[i] as int < 128
  }

  lemma DigitsAreAscii(s: string)
    requires AllDigits(s)
    ensures IsAscii(s)
  {
  }

  /** `s.encode('ascii')`: one byte per character, holding its code. */
  function Ascii(s: string): (b: seq<byte>)
    requires IsAscii(s)
    ensures |b| == |s|
    ensures forall i | 0 <= i < |s| :: b[i] as int == s[i] as int
  {
    seq(|s|, i requires 0 <= i < |s| => s[i] as int as byte)
  }

  /** Reading bytes back as characters, one character per byte. */
  function Chars(b: seq<byte>): (s: string)
    ensures |s| == |b|
    ensures forall i | 0 <= i < |b| :: s[i] as int == b[i] as int
  {
    seq(|b|, i requires 0 <= i < |b| => b[i] as int as char)
  }

  lemma AsciiRoundTrip(s: string)
    requires IsAscii(s)
    ensures Chars(Ascii(s)) == s
  {
  }

  lemma AsciiInjective(s: string, t: string)
    requires IsAscii(s) && IsAscii(t)
    requires Ascii(s) == Ascii(t)
    ensures s == t
  {
    AsciiRoundTrip(s);
    AsciiRoundTrip(t);
  }

  // ---------------------------------------------------------------------------
  // Decimal numerals

  function DigitChar(d: nat): (c: char)
    requires d < 10
    ensures IsDigit(c)
    ensures c as int - '0' as int == d
  {
    ('0' as int + d) as char
  }

  function DigitValue(c: char): (d: nat)
    requires IsDigit(c)
    ensures d < 10
  {
    c as int - '0' as int
  }

  lemma AsciiConcat(a: string, b: string)
    requires IsAscii(a) && IsAscii(b)
    ensures IsAscii(a + b)
  {
    assert forall i | |a| <= i < |a + b| :: (a + b)[i] == b[i - |a|];
  }

  /** `str(n)` for a non-negative integer: decimal digits without a leading zero. */
  function NatToDecimal(n: nat): (s: string)
    ensures 1 <= |s|
    ensures AllDigits(s)
    ensures 1 < |s| ==> s[0] != '0'
    decreases n
  {
    if n < 10 then [DigitChar(n)] else NatToDecimal(n / 10) + [DigitChar(n % 10)]
  }

  /** The length of the run of digits that opens `s`. */
  function DigitRun(s: string): (n: nat)
    ensures n <= |s|
    ensures AllDigits(s[..n])
    ensures n < |s| ==> !IsDigit(s[n])
  {
    if |s| == 0 || !IsDigit(s[0]) then 0
    else
      var n := 1 + DigitRun(s[1..]);
      assert s[..n] == [s[0]] + s[1..][..n - 1];
      n
  }

  /** A run of digits followed by a non-digit is read up to its end. */
  lemma {:induction false} DigitRunOfNumeral(d: string, c: string)
    requires AllDigits(d)
    requires |c| == 0 || !IsDigit(c[0])
    ensures DigitRun(d + c) == |d|
    decreases |d|
  {
    if |d| > 0 {
      assert (d + c)[1..] == d[1..] + c;
      DigitRunOfNumeral(d[1..], c);
    } else {
      assert d + c == c;
    }
  }

  /** The number a string of digits denotes. */
  function DecimalValue(s: string): nat
    requires AllDigits(s)
  {
    if |s| == 0 then 0 else 10 * DecimalValue(s[..|s| - 1]) + DigitValue(s[|s| - 1])
  }

  lemma {:induction false} DecimalRoundTrip(n: nat)
    ensures DecimalValue(NatToDecimal(n)) == n
    decreases n
  {
    if n >= 10 {
      DecimalRoundTrip(n / 10);
      var s := NatToDecimal(n);
      assert s[..|s| - 1] == NatToDecimal(n / 10);
      assert DigitValue(s[|s| - 1]) == n % 10;
    }
  }

  /** A string of '0' characters of the given length. */
  function Zeros(n: nat): (z: string)
    ensures |z| == n
    ensures forall i | 0 <= i < n :: z[i] == '0'
  {
    seq(n, _ => '0')
  }

  lemma {:induction false} ZerosValue(n: nat)
    ensures AllDigits(Zeros(n)) && DecimalValue(Zeros(n)) == 0
  {
    if n > 0 {
      ZerosValue(n - 1);
      assert Zeros(n)[..n - 1] == Zeros(n - 1);
    }
  }

  /** Leading zeros do not change the number a digit string denotes. */
  lemma {:induction false} LeadingZeros(n: nat, s: string)
    requires AllDigits(s)
    ensures AllDigits(Zeros(n) + s)
    ensures DecimalValue(Zeros(n) + s) == DecimalValue(s)
    decreases |s|
  {
    var t := Zeros(n) + s;
    if |s| == 0 {
      assert t == Zeros(n);
      ZerosValue(n);
    } else {
      LeadingZeros(n, s[..|s| - 1]);
      assert t[..|t| - 1] == Zeros(n) + s[..|s| - 1];
      assert t[|t| - 1] == s[|s| - 1];
    }
  }

  function Pow10(k: nat): (p: nat)
    ensures 1 <= p
  {
    if k == 0 then 1 else 10 * Pow10(k - 1)
  }

  /** A number below 10^k prints in at most k digits. */
  lemma {:induction false} DecimalLength(n: nat, k: nat)
    requires 1 <= k
    requires n < Pow10(k)
    ensures |NatToDecimal(n)| <= k
    decreases k
  {
    if n >= 10 {
      assert Pow10(1) == 10;
      assert n / 10 < Pow10(k - 1);
      DecimalLength(n / 10, k - 1);
    }
  }

  /** `str(i)` for any integer: a minus sign, then the digits of the magnitude. */
  function IntToDecimal(i: int): (s: string)
    ensures 1 <= |s|
    ensures IsAscii(s)
  {
    if i < 0 then "-" + NatToDecimal(-i) else NatToDecimal(i)
  }

  /** Reads an optional minus sign followed by at least one digit. */
  function ParseInt(s: string): (r: Option<int>)
    ensures r.Some? ==> 1 <= |s|
  {
    if 0 < |s| && s[0] == '-' then
      if 1 < |s| && AllDigits(s[1..]) then Some(-(DecimalValue(s[1..]) as int)) else None
    else if 0 < |s| && AllDigits(s) then Some(DecimalValue(s))
    else None
  }

  lemma IntRoundTrip(i: int)
    ensures ParseInt(IntToDecimal(i)) == Some(i)
  {
    var s := IntToDecimal(i);
    if i < 0 {
      var d := NatToDecimal(-i);
      DecimalRoundTrip(-i);
      assert s[0] == '-' && s[1..] == d;
    } else {
      DecimalRoundTrip(i);
      assert IsDigit(s[0]);
    }
  }

  /** Python's `s.zfill(width)`: pads with '0' up to `width` characters, keeping a
      leading sign in front of the padding; a string already that wide is unchanged. */
  function ZFill(s: string, width: nat): (r: string)
    ensures |r| == if |s| >= width then |s| else width
    ensures |s| >= width ==> r == s
  {
    if |s| >= width then s
    else if 0 < |s| && (s[0] == '-' || s[0] == '+') then [s[0]] + Zeros(width - |s|) + s[1..]
    else Zeros(width - |s|) + s
  }

  /** Zero padding keeps the value: `int(str(i).zfill(w)) == i`. */
  lemma ZFillIntRoundTrip(i: int, width: nat)
    ensures IsAscii(ZFill(IntToDecimal(i), width))
    ensures ParseInt(ZFill(IntToDecimal(i), width)) == Some(i)
  {
    IntRoundTrip(i);
    if |IntToDecimal(i)| < width {
      if i < 0 {
        ZFillNegative(i, width);
      } else {
        ZFillNonNegative(i, width);
      }
    }
  }

  lemma ZFillNegative(i: int, width: nat)
    requires i < 0 && |IntToDecimal(i)| < width
    ensures IsAscii(ZFill(IntToDecimal(i), width))
    ensures ParseInt(ZFill(IntToDecimal(i), width)) == Some(i)
  {
    var d := NatToDecimal(-i);
    assert IntToDecimal(i) == "-" + d;
    var k: nat := width - 1 - |d|;
    var u := Zeros(k) + d;
    ZFillSigned(d, width);
    assert ZFill(IntToDecimal(i), width) == "-" + u;
    LeadingZeros(k, d);
    DecimalRoundTrip(-i);
    assert DecimalValue(u) == -i;
    NegatedDigits(u);
  }

  /** Padding a negative numeral puts the zeros between the sign and the digits. */
  lemma ZFillSigned(d: string, width: nat)
    requires 1 + |d| < width
    ensures ZFill("-" + d, width) == "-" + (Zeros(width - 1 - |d|) + d)
  {
    var s := "-" + d;
    assert s[0] == '-' && s[1..] == d;
  }

  /** A minus sign in front of a non-empty run of digits reads as the negated value. */
  lemma NegatedDigits(u: string)
    requires 0 < |u| && AllDigits(u)
    ensures IsAscii("-" + u)
    ensures ParseInt("-" + u) == Some(-(DecimalValue(u) as int))
  {
    var r := "-" + u;
    assert r[0] == '-' && r[1..] == u;
    DigitsAreAscii(u);
    AsciiConcat("-", u);
  }

  lemma ZFillNonNegative(n: nat, width: nat)
    requires |IntToDecimal(n)| < width
    ensures IsAscii(ZFill(IntToDecimal(n), width))
    ensures ParseInt(ZFill(IntToDecimal(n), width)) == Some(n)
  {
    var s := IntToDecimal(n);
    var r := ZFill(s, width);
    var z := Zeros(width - |s|);
    var d := NatToDecimal(n);
    assert s == d && IsDigit(d[0]);
    assert r == z + d;
    LeadingZeros(width - |s|, d);
    DecimalRoundTrip(n);
    DigitsAreAscii(r);
    assert IsDigit(r[0]);
  }

  /** A numeral printed with `zfill(w)` from a value in [0, 10^w) is exactly w digits. */
  lemma ZFillWidth(n: nat, width: nat)
    requires 1 <= width
    requires n < Pow10(width)
    ensures |ZFill(IntToDecimal(n), width)| == width
    ensures AllDigits(ZFill(IntToDecimal(n), width))
    ensures DecimalValue(ZFill(IntToDecimal(n), width)) == n
  {
    DecimalLength(n, width);
    DecimalRoundTrip(n);
    var d := NatToDecimal(n);
    if |d| < width {
      assert d[0] != '-' && d[0] != '+';
      LeadingZeros(width - |d|, d);
    }
  }

  // ---------------------------------------------------------------------------
  // Fixed-point with two decimals

  /** `"{:.2f}".format(h / 100)`: a value given in hundredths printed with
      exactly two decimals, a minus sign in front of a negative value. */
  function Fixed2(h: int): (s: string)
    ensures IsAscii(s)
  {
    if h < 0 then "-" + Unsigned2(-h) else Unsigned2(h)
  }

  /** The unsigned part of `Fixed2`: the whole hundreds, a point, two digits. */
  function Unsigned2(m: nat): (s: string)
    ensures IsAscii(s)
    ensures 4 <= |s| && IsDigit(s[0])
  {
    var d := NatToDecimal(m / 100);
    DigitsAreAscii(d);
    d + "." + [DigitChar(m % 100 / 10), DigitChar(m % 10)]
  }

  /** Reads `digits.dd`, optionally signed, back into hundredths. */
  function ParseFixed2(s: string): (r: Option<int>)
  {
    if 0 < |s| && s[0] == '-' then
      match ParseUnsigned2(s[1..])
      case None => None
      case Some(m) => Some(-m)
    else ParseUnsigned2(s)
  }

  /** Reads `digits.dd` into hundredths. */
  function ParseUnsigned2(u: string): (r: Option<int>)
  {
    if |u| < 4 || u[|u| - 3] != '.' || !AllDigits(u[..|u| - 3]) || !IsDigit(u[|u| - 2]) || !IsDigit(u[|u| - 1]) then None
    else Some(100 * DecimalValue(u[..|u| - 3]) + 10 * DigitValue(u[|u| - 2]) + DigitValue(u[|u| - 1]))
  }

  lemma Unsigned2RoundTrip(m: nat)
    ensures ParseUnsigned2(Unsigned2(m)) == Some(m)
  {
    var d := NatToDecimal(m / 100);
    var text := Unsigned2(m);
    DecimalRoundTrip(m / 100);
    assert text[..|text| - 3] == d;
    assert text[|text| - 3] == '.';
  }

  lemma Fixed2RoundTrip(h: int)
    ensures ParseFixed2(Fixed2(h)) == Some(h)
  {
    if h < 0 {
      var u := Unsigned2(-h);
      var f := "-" + u;
      assert Fixed2(h) == f;
      assert f[0] == '-' && f[1..] == u;
      Unsigned2RoundTrip(-h);
    } else {
      var u := Unsigned2(h);
      assert Fixed2(h) == u && u[0] != '-';
      Unsigned2RoundTrip(h);
    }
  }

  // ---------------------------------------------------------------------------
  // Frame endings

  /** The frame ends in a CR and has no other CR: one command per frame. */
  predicate EndsWithSingleCR(b: seq<byte>) {
    && 0 < |b|
    && b[|b| - 1] == 13
    && forall i | 0 <= i < |b| - 1 :: b[i] != 13
  }

  /** Appending CR to text without CR gives a frame with exactly one CR, at the end. */
  lemma CRTerminated(s: string)
    requires IsAscii(s)
    requires CR !in s
    ensures IsAscii(s + [CR])
    ensures EndsWithSingleCR(Ascii(s + [CR]))
  {
    var b := Ascii(s + [CR]);
    forall i | 0 <= i < |b| - 1
      ensures b[i] != 13
    {
      assert (s + [CR])[i] == s[i];
    }
  }
}

=== FILE: values.dfy ===
/** The values that flow between the instruments, the worker and the OPC UA
    layer, as the Python code sees them, together with Python's truthiness test
    (`if response:`, `if value:`) that several branches depend on. */
module Values {

  import opened Text

  /** An OPC UA node handle. The model only compares handles for identity. */
  datatype Node = Node(handle: nat)

  /** A callable passed along with a request. The model only records which
      callable was invoked and with what. */
  datatype Callback = Callback(id: nat)

  /** A Python value: None, bool, int, str, bytes, a list or tuple, a
      string-keyed dict in insertion order, or an OPC UA node. */
  datatype Value =
    | NoneV
    | BoolV(b: bool)
    | IntV(i: int)
    | StrV(s: string)
    | BytesV(bytes: seq<byte>)
    | SeqV(items: seq<Value>)
    | DictV(entries: seq<(string, Value)>)
    | NodeV(node: Node)

  /** Python's `bool(v)`: None, False, zero and empty containers are false;
      node objects, which define no length, are true. */
  predicate Truthy(v: Value) {
    match v
    case NoneV => false
    case BoolV(b) => b
    case IntV(i) => i != 0
    case StrV(s) => |s| > 0
    case BytesV(bs) => |bs| > 0
    case SeqV(items) => |items| > 0
    case DictV(entries) => |entries| > 0
    case NodeV(_) => true
  }

  /** The `{"node": ..., "value": ...}` record an OPC responder returns: the
      name of the node to write and the value to write there. */
  datatype NodeWrite = NodeWrite(node: string, value: Value)
}

=== FILE: wrappers.dfy ===
/** The optional value the model uses wherever the source raises an exception
    or finds nothing: `None` stands for the raise, `Some` for the normal result. */
module Wrappers {

  datatype Option<+T> = None | Some(value: T)

}
